=== FILE: README.md ===
# Art parser and resolver, modelled in Dafny

`art/dist/art-parser.js` turns the text of an Art drawing program into a tree of scene
objects. It does so in three layers, and this project models all three as pure Dafny
functions:

1. **A parser-combinator core** (a bundled copy of the *arcsecond* library).
   - A parser state is the record `State(target, index, isError, error, result, data)`
     (module `ParserState`).
   - A parser is a total function `State -> State`.
   - `ParserCore` holds `map`, `chain`, `errorMap`, `errorChain`, `of` and the data-channel
     helpers.
   - `Combinators` holds the primitives (`char`, `str`, `digit`, `letter`, `anyOfString`,
     `endOfInput`) and the combinators (`sequenceOf`, `namedSequenceOf`, `choice`,
     `many`/`many1`, `sepBy`/`sepBy1`, `between`, `everythingUntil`, `anythingExcept`,
     `lookAhead`, `possibly`, `skip`, `whitespace`, `optionalWhitespace`).
   - Parse results are the dynamic value `Val`, and the syntax tree is the datatype `Node`.
     Both are in `Syntax`.
   - `CombinatorLaws` relates several calls:
     - the full characterisation of `choice`;
     - the recursive equations of `many` and `sepBy`;
     - what a repetition of a character class consumes;
     - `sequenceOf` as a fold over its parsers.
2. **The Art grammar** (module `Grammar`): names, numbers, strings, operators, values,
   binary operations, mappers, attributes, attribute lists, blocks, objects and the
   `def`/`draw` commands.
   - The `recursiveParser` thunks become mutually recursive functions. They terminate on
     the lexicographic measure (remaining input, rule rank), because every recursive
     re-entry first consumes input: the mapper's parameters and `=>` before its body, and
     `{` before a block's command list.
   - `GrammarLaws` proves that each hand-unrolled rule equals the combinator expression
     the source writes, e.g. `sequenceOf([...]).map(...)`.
   - `GrammarText` and `CommandText` state which text each rule accepts and what it
     produces.
3. **The resolver** (module `Resolver`): a walk over the tree with a context of
   definitions, the parent object, the mapper arguments and whether a renderer is present.
   - Every `throw` is an `Err` of `ResolveError`.
   - `mergeContext` is a record update of `Context`, and `createContext` is
     `InitialContext`.
   - A block threads its copy of the definitions through its commands, where the source
     mutates the map (line 1154).
   - `ResolverLaws` proves:
     - attribute inheritance and de-duplication;
     - object reference expansion;
     - scoping of definitions;
     - that drawing needs a renderer.
   - `Pipeline` joins the parser and the resolver. An object written without a
     parenthesised attribute list never resolves.

## Model

| member | source | states |
|---|---|---|
| ParserState.CreateState | art/dist/art-parser.js:7-14 | a fresh state is at index 0, not an error, with null error and result, over the given target and data |
| ParserState.UpdateError | art/dist/art-parser.js:17 | marks the state as failed with the given error and leaves target, index, result and data as they were |
| ParserState.UpdateResult | art/dist/art-parser.js:20 | replaces only the result; every other field is unchanged |
| ParserState.UpdateData | art/dist/art-parser.js:23 | replaces only the data; every other field is unchanged |
| ParserState.UpdateParserState | art/dist/art-parser.js:26 | replaces result and index together and nothing else |
| ParserCore.Map | art/dist/art-parser.js:68-75 | `map` succeeds or fails exactly when the parser does, never moves the cursor differently from it, passes a failure through unchanged and applies the function to a successful result |
| ParserCore.Chain | art/dist/art-parser.js:78-85 | `chain` short-circuits on failure; on success it runs the parser the function picks from the result, on the state reached |
| ParserCore.ErrorMap | art/dist/art-parser.js:104-112 | `errorMap` leaves a success untouched; on a failure it changes only the error, computed from error, index and data, and keeps index, target, result and data |
| ParserCore.ErrorMapIdentity | art/dist/art-parser.js:104-112 | `errorMap` with the function that returns the error unchanged does not change a parser |
| ParserCore.ErrorMapFusion | art/dist/art-parser.js:104-112 | two successive error maps are one error map of the composed function, because the first keeps index and data |
| ParserCore.ErrorChainRethrow | art/dist/art-parser.js:115-126 | `errorChain` into a parser that fails again with the same error gives back the original failure unchanged |
| ParserCore.ErrorChainRecover | art/dist/art-parser.js:115-126 | `errorChain` into `of(x)` never fails: a success passes through, a failure becomes a success with result `x` at the position, target and data where the parser stopped |
| ParserCore.MapFromDataIsChainFromDataOf | art/dist/art-parser.js:129-146 | `mapFromData(f)` is `chainFromData` into `of` of `f` applied to result and data |
| ParserCore.MapFromDataOnSuccess | art/dist/art-parser.js:129-136 | on a success whose error payload is falsy, `mapFromData(f)` is `map` of `f` with the data fixed |
| ParserCore.MapFromDataFalsyFailure | art/dist/art-parser.js:129-136 | `mapFromData` tests the error payload, not the flag: a failure with a falsy payload keeps its flag and position but has its result rewritten, where `map` would pass it through |
| ParserCore.ChainFromDataOnSuccess | art/dist/art-parser.js:139-146 | on a success whose error payload is falsy, `chainFromData(f)` is `chain` into `f` with the data fixed |
| ParserCore.ChainFromDataStops | art/dist/art-parser.js:139-146 | a state whose error payload is truthy is returned as it is, whichever parser the function would pick |
| ParserCore.MapDataAfterIsMapData | art/dist/art-parser.js:149-155 | the `mapData` method equals the `mapData` parser after `p` on a success, and unlike it also rewrites the data of a failure, which stays a failure |
| ParserCore.MapDataAfterFusion | art/dist/art-parser.js:149-155 | two successive `mapData` methods are one of the composed function |
| ParserCore.Of | art/dist/art-parser.js:158-160 | `of(x)` sets the result to `x` and changes nothing else, even on a failed state |
| ParserCore.SetThenGetData | art/dist/art-parser.js:168-179 | `setData(x)` followed by `getData` gives result `x` and data `x` at the same position, and leaves an error state alone |
| ParserCore.GetDataIsOfData | art/dist/art-parser.js:168-171 | `getData` is `of` the current data on a good state and never moves the cursor or changes the data |
| ParserCore.SetDataTwice | art/dist/art-parser.js:174-179 | of two successive `setData` calls the last one wins |
| ParserCore.WithDataGetData | art/dist/art-parser.js:190-194 | `withData(getData)(x)` reads back `x` on a good state |
| ParserCore.MapDataIsSetData | art/dist/art-parser.js:182-187 | `mapData(f)` is `setData` of `f` applied to the current data |
| ParserCore.WithData | art/dist/art-parser.js:190-194 | `withData(p)(x)` runs `p` with the data set to `x`, and leaves an error state alone |
| ParserCore.PipeCons | art/dist/art-parser.js:197-205 | `pipeParsers` feeds each parser the state the previous one returned, first parser first |
| ParserCore.Reverse | art/dist/art-parser.js:210 | the reversed list holds the same parsers in the opposite order |
| ParserCore.ComposeTwo | art/dist/art-parser.js:208-212 | `composeParsers([f, g])` runs `g` first and then `f` |
| ParserCore.DecideIsChain | art/dist/art-parser.js:230-236 | `decide(f)` is `chain` into `f` from the parser that does nothing |
| ParserCore.DecideAfterOf | art/dist/art-parser.js:230-236 | `decide(f)` after `of(x)` runs the parser `f` picks for `x` |
| ParserCore.Fail | art/dist/art-parser.js:239-244 | `fail` turns a good state into a failure with the given message at the same index, and keeps an existing failure |
| ParserCore.Either | art/dist/art-parser.js:250-261 | `either` never fails on a good state; its result records whether the parser failed, with the error or the result as value |
| ParserCore.MapToIsMap | art/dist/art-parser.js:324-329 | `mapTo(f)` is `map(f)` of the parser that does nothing |
| ParserCore.MapToAfterOf | art/dist/art-parser.js:324-329 | `mapTo(f)` after `of(x)` is `of(f(x))` |
| ParserCore.ErrorMapToIsErrorMap | art/dist/art-parser.js:332-335 | `errorMapTo(f)` is `errorMap(f)` of the parser that does nothing |
| ParserCore.ErrorMapToAfterFail | art/dist/art-parser.js:332-335 | `errorMapTo(f)` after `fail(e)` is `fail` with `f` applied to `e`, the index and the data |
| ParserCore.TakeRight | art/dist/art-parser.js:695 | `takeRight` keeps the right parser's outcome after a successful left parser |
| ParserCore.TakeLeft | art/dist/art-parser.js:698 | `takeLeft` runs both parsers and keeps the left result, failing with whichever failed |
| ParserCore.MapIdentity | art/dist/art-parser.js:68-75 | mapping the identity does not change a parser |
| ParserCore.MapFusion | art/dist/art-parser.js:68-75 | two successive maps are one map of the composed function |
| ParserCore.MapIsChainOf | art/dist/art-parser.js:68-85 | `map(f)` is `chain(x => of(f(x)))` |
| ParserCore.ChainLeftIdentity | art/dist/art-parser.js:78-85 | chaining after `of(x)` runs the chosen parser on a state whose result is `x` |
| ParserCore.ChainRightIdentity | art/dist/art-parser.js:78-85 | chaining into `of` does not change a parser |
| ParserCore.ChainAssociative | art/dist/art-parser.js:78-85 | `chain` is associative, as the fantasy-land monad laws require |
| Combinators.Char | art/dist/art-parser.js:338-354 | `char(c)` succeeds exactly on `c` at the cursor, consuming it with `c` as result; a failure keeps the index; an error state passes through |
| Combinators.StartsWithIsMatchesAt | art/dist/art-parser.js:364-367 | `target.slice(index).startsWith(s)` holds exactly when `s` occurs at `index` |
| Combinators.Str | art/dist/art-parser.js:357-374 | `str(s)` consumes `s` when it occurs at the cursor and fails at the same index otherwise, without first checking for an error state |
| Combinators.Digit | art/dist/art-parser.js:403-414 | `digit` succeeds exactly on a character 0-9, consuming that one character; it fails at the same index otherwise and returns an error state unchanged |
| Combinators.Letter | art/dist/art-parser.js:422-434 | `letter` succeeds exactly on a character a-z or A-Z, consuming that one character |
| Combinators.AnyOfString | art/dist/art-parser.js:442-455 | `anyOfString(s)` succeeds exactly on a character of `s`, consuming that one character |
| Combinators.EndOfInput | art/dist/art-parser.js:671-679 | `endOfInput` succeeds with null exactly when the index is the input length, and never moves |
| Combinators.SeqLoop | art/dist/art-parser.js:487-496 | the `sequenceOf` loop either runs every parser in turn, collecting one result each, or stops at the first failure, which is the state that parser returned |
| Combinators.SequenceOf | art/dist/art-parser.js:480-500 | `sequenceOf` succeeds exactly when each parser succeeds on the state the previous one left; it then ends where the last one ended with one result per parser, and otherwise returns the first failing parser's state unchanged |
| Combinators.ChoiceLoop | art/dist/art-parser.js:564-575 | the `choice` loop returns some alternative's outcome or the failure kept so far, and only replaces that failure by one at a greater index |
| Combinators.Choice | art/dist/art-parser.js:560-577 | `choice` returns the outcome of one of its alternatives, all run on the same state |
| Combinators.ManyLoop | art/dist/art-parser.js:292-305 | for any parser whose successes move forward or end at or past the end of input, the `many` loop never fails, keeps the results collected so far as a prefix, collects more only by moving forward or by stopping at the end, and stays within the input when the parser does |
| Combinators.Many | art/dist/art-parser.js:285-309 | for any parser whose successes move forward or end at or past the end of input, `many` never fails on a good state and never moves back; it collects nothing exactly when it returns the input state with `[]`, strictly moves forward when the parser always does, and ends within the input when the parser stays within it |
| Combinators.Many1 | art/dist/art-parser.js:312-321 | for the same parsers as `many`, `many1` fails, at the original index, exactly when `many` collects nothing, and otherwise is `many` |
| Combinators.SepLoop | art/dist/art-parser.js:512-529 | for any value and separator whose successful rounds start inside the input and move forward, the `sepBy` loop yields a list over the same target, gives `[]` at the start when the first value fails, never ends before its start when values move forward, and stays within the input when the value does |
| Combinators.SepBy | art/dist/art-parser.js:503-541 | for the same parsers, `sepBy` succeeds with `[]` at the input state when the first value fails; when a value is not followed by a separator it succeeds right after that value, past the end included; it never moves back when values move forward |
| Combinators.SepBy1 | art/dist/art-parser.js:544-557 | for the same parsers as `sepBy`, `sepBy1` is `sepBy` except that an empty list becomes a failure at the original index |
| Combinators.SequenceOfThree | art/dist/art-parser.js:583-587 | a three-parser `sequenceOf` succeeds when all three do in turn, with their three results, and otherwise returns the first failure |
| Combinators.Between | art/dist/art-parser.js:580-590 | `between(l)(r)(p)` runs `l`, `p`, `r` in turn and keeps only `p`'s result, failing with the first failure |
| Combinators.UntilLoop | art/dist/art-parser.js:600-616 | the `everythingUntil` loop stops at the first position where the parser succeeds, and fails at the end of input when there is none |
| Combinators.EverythingUntil | art/dist/art-parser.js:593-620 | `everythingUntil(p)` stops at the first position where `p` matches, without consuming it, and returns the text skipped; when `p` matches nowhere before the end of input it fails at the end of the target |
| Combinators.AnythingExcept | art/dist/art-parser.js:623-634 | `anythingExcept(p)` succeeds exactly when `p` fails, and then advances one position even at the end of input, with the character there (undefined past the end) |
| Combinators.LookAhead | art/dist/art-parser.js:637-645 | `lookAhead(p)` returns `p`'s failure, or `p`'s result at the original index |
| Combinators.Possibly | art/dist/art-parser.js:648-657 | `possibly(p)` never fails on a good state: `p`'s success, or the input state with a null result |
| Combinators.Skip | art/dist/art-parser.js:660-668 | `skip(p)` moves where `p` moves but keeps the previous result |
| Combinators.Digits | art/dist/art-parser.js:417-419 | `digits` succeeds exactly on a digit, consumes at least one character and yields text |
| Combinators.Letters | art/dist/art-parser.js:437-439 | `letters` succeeds exactly on a letter, consumes at least one character and yields text |
| Combinators.Whitespace | art/dist/art-parser.js:682 | `whitespace` succeeds exactly on one of space, newline, tab, carriage return, and consumes at least one character |
| Combinators.OptionalWhitespace | art/dist/art-parser.js:685 | `optionalWhitespace` never fails on a good state and never moves back |
| CombinatorLaws.ChoiceSpec | art/dist/art-parser.js:560-577 | `choice` returns the first alternative that succeeds; when all fail, the failure with the strictly greatest index, the earliest among equals; it succeeds exactly when some alternative does |
| CombinatorLaws.ChoiceAdvances | art/dist/art-parser.js:560-577 | a `choice` of parsers that consume input on success consumes input on success |
| CombinatorLaws.ChoiceCons | art/dist/art-parser.js:565-575 | `choice` returns its first alternative's success, and otherwise continues over the rest with that failure kept |
| CombinatorLaws.ChoiceTwo | art/dist/art-parser.js:565-575 | a two-way `choice` is the first success, or else the failure that got further, the first on a tie |
| CombinatorLaws.ChoiceThree | art/dist/art-parser.js:565-575 | a three-way `choice` is the first success, or else the furthest failure, the earliest on a tie |
| CombinatorLaws.MapAdvanced | art/dist/art-parser.js:68-75 | `map` consumes exactly what its parser consumes |
| Combinators.AdvancesProgresses | art/dist/art-parser.js:299-304 | a parser that consumes within the input moves forward on every success, so the `many` loop accepts it |
| CombinatorLaws.AnythingExceptProgresses | art/dist/art-parser.js:623-634 | `anythingExcept(p)` moves forward on every success, so `many(anythingExcept(p))` is covered by the `many` contracts |
| CombinatorLaws.ManyAnythingExceptAtEnd | art/dist/art-parser.js:292-305 | at the end of input, `many(anythingExcept(p))` with a failing `p` collects the one undefined character and stops one position past the end |
| Combinators.ProgressesProceeds | art/dist/art-parser.js:299-304 | a parser whose every success moves forward is one the `many` loop accepts |
| Combinators.AdvancesRoundsProceed | art/dist/art-parser.js:512-529 | a value consuming within the input and a separator that never moves back give `sepBy` rounds that end |
| Combinators.ProgressesRoundsProceed | art/dist/art-parser.js:512-529 | a value that moves forward, even past the end, and a separator that consumes within the input give `sepBy` rounds that end |
| CombinatorLaws.EndOfInputProceeds | art/dist/art-parser.js:299-304 | `endOfInput` succeeds only at the end without moving, which the loop's `index >= length` exit accepts |
| CombinatorLaws.ManyEndOfInput | art/dist/art-parser.js:292-305 | `many(endOfInput)` collects one `null` without moving at the end of input and nothing elsewhere |
| CombinatorLaws.ManyLoopAcc | art/dist/art-parser.js:292-307 | the results `many` collects are those already collected followed by those of a fresh run from the same state |
| CombinatorLaws.ManyUnfold | art/dist/art-parser.js:285-309 | `many(p)` is `[]` when `p` fails, one result when `p` reaches the end of input, and otherwise `p`'s result in front of `many(p)` from where `p` stopped |
| CombinatorLaws.Many1Advances | art/dist/art-parser.js:312-321 | `many1` of a parser that consumes input on success consumes input on success |
| CombinatorLaws.ManyChunks | art/dist/art-parser.js:285-309 | `many` of a parser taking pieces of a character class ends at the end of the longest run of that class, and its joined results are exactly that run |
| CombinatorLaws.Many1JoinChunks | art/dist/art-parser.js:417-419 | `many1(p).map(join)` on a character of the class yields the whole run as one string |
| CombinatorLaws.DigitChunks | art/dist/art-parser.js:403-414 | `digit` takes exactly one character of the run of digits |
| CombinatorLaws.LetterChunks | art/dist/art-parser.js:422-434 | `letter` takes exactly one character of the run of letters |
| CombinatorLaws.WhitespaceCharChunks | art/dist/art-parser.js:442-455 | `anyOfString(' \n\t\r')` takes exactly one character of the run of whitespace |
| CombinatorLaws.DigitsTakesLongestRun | art/dist/art-parser.js:417-419 | `digits` consumes the longest run of digits and returns it as text |
| CombinatorLaws.LettersTakesLongestRun | art/dist/art-parser.js:437-439 | `letters` consumes the longest run of letters and returns it as text |
| CombinatorLaws.WhitespaceTakesLongestRun | art/dist/art-parser.js:682 | `whitespace` consumes the longest run of whitespace and returns it as text |
| CombinatorLaws.OptionalWhitespaceSkipsRun | art/dist/art-parser.js:685 | `optionalWhitespace` consumes the longest (possibly empty) run of whitespace |
| CombinatorLaws.RunParsersChunks | art/dist/art-parser.js:417-439 | `digits` and `letters` each take a non-empty piece of their class's run, and fail exactly off it |
| CombinatorLaws.SepByUnfold | art/dist/art-parser.js:512-538 | after a value and a separator, `sepBy` fails with the next value's failure, or puts the first value in front of the rest of the list |
| CombinatorLaws.SepByPastTheEnd | art/dist/art-parser.js:512-529 | `sepBy(char(','))(anythingExcept(char(',')))` on `a,` ends one position past the end with `a` and the undefined character, where the separator fails |
| CombinatorLaws.SepByRejectsDanglingSeparator | art/dist/art-parser.js:503-541 | `sepBy(char(','))(digit)` on `1,2,x` fails at index 4, where the value after the last separator is missing |
| CombinatorLaws.SequenceOfAdvanced | art/dist/art-parser.js:480-500 | a sequence whose first parser consumes input and whose others never move back consumes input on success |
| CombinatorLaws.SequenceOfKept | art/dist/art-parser.js:480-500 | a sequence of parsers that never move back never moves back |
| CombinatorLaws.SequenceOfIsSteps | art/dist/art-parser.js:480-500 | `sequenceOf` equals the plain fold that runs each parser on the previous state and stops at the first failure |
| CombinatorLaws.StepsAppend | art/dist/art-parser.js:487-496 | running `ps + qs` in sequence is running `ps`, then `qs` from where `ps` stopped, with the results concatenated |
| CombinatorLaws.SequenceOfSnoc | art/dist/art-parser.js:480-500 | a sequence with one more parser at the end runs that parser after the others and appends its result |
| CombinatorLaws.SequenceOfCons | art/dist/art-parser.js:480-500 | a sequence with one more parser at the front runs it first and puts its result in front |
| CombinatorLaws.SequenceOfTwo | art/dist/art-parser.js:480-500 | a two-parser sequence, spelled out: the first failure, or both results |
| CombinatorLaws.SequenceOfFive | art/dist/art-parser.js:480-500 | a five-parser sequence, spelled out: the first failure, or all five results |
| CombinatorLaws.NamedLoopIsSeqLoop | art/dist/art-parser.js:465-475 | the `namedSequenceOf` loop stops where the `sequenceOf` loop stops, and records each result under its key |
| CombinatorLaws.NamedSequenceOfIsSequenceOf | art/dist/art-parser.js:458-477 | `namedSequenceOf` is `sequenceOf` over the same parsers with the results keyed by name |
| CombinatorLaws.LookAheadKeepsIndex | art/dist/art-parser.js:637-645 | a successful `lookAhead` does not move the cursor |
| CombinatorLaws.PossiblyKept | art/dist/art-parser.js:648-657 | `possibly` of a parser that never moves back never moves back |
| Syntax.CharAt | art/dist/art-parser.js:630 | `target[index]` is the one-character string there, and undefined past the end |
| Syntax.Slice | art/dist/art-parser.js:364 | `slice(i, j)` is the text between `i` and `j`, and empty when `j` is not after `i` |
| Syntax.JoinVal | art/dist/art-parser.js:418 | `join('')` of a parse result always yields a string |
| Syntax.NodesOf | art/dist/art-parser.js:879 | the nodes of a list result, one per element, in order |
| Syntax.DecimalValueOfNatToString | art/dist/art-parser.js:808 | `Number` of the decimal text of a natural number is that number |
| Grammar.ListSep | art/dist/art-parser.js:847 | the list separator (comma with optional whitespace) never moves back |
| Grammar.VarNameP | art/dist/art-parser.js:787-801 | `varNameParser` consumes input on success and yields a `var-name` node |
| Grammar.NumberP | art/dist/art-parser.js:803-808 | `numberParser` consumes input on success |
| Grammar.StringP | art/dist/art-parser.js:810-812 | `stringParser` consumes input on success |
| Grammar.OperatorP | art/dist/art-parser.js:814-819 | `operatorParser` consumes input on success |
| Grammar.MapperParams | art/dist/art-parser.js:843-850 | the mapper's parameter part consumes input on success |
| Grammar.ParseValue | art/dist/art-parser.js:821-826 | `valueParser` consumes input on success, the fact its recursion through `mapperParser` terminates on |
| Grammar.ParseOperation | art/dist/art-parser.js:828-840 | `operationParser` consumes input on success and passes an error state through |
| Grammar.ParseMapper | art/dist/art-parser.js:842-860 | `mapperParser` consumes input on success and passes an error state through |
| Grammar.AttributeP | art/dist/art-parser.js:862-873 | `attributeParser` consumes input on success |
| Grammar.AttributesP | art/dist/art-parser.js:875-879 | `attributesParser` consumes input on success |
| Grammar.OptAttributes | art/dist/art-parser.js:888 | `possibly(attributesParser)` never fails on a good state and never moves back |
| Grammar.ParseBlock | art/dist/art-parser.js:881-883 | `blockParser` consumes input on success, so its recursion into the command list terminates |
| Grammar.ParseObject | art/dist/art-parser.js:885-897 | `objectParser` consumes input on success and yields an `object` node |
| Grammar.DrawArgs | art/dist/art-parser.js:905 | `drawArgsParser` consumes input on success and yields an `args` node |
| Grammar.DefArgs | art/dist/art-parser.js:899-903 | `defArgsParser` consumes input on success |
| Grammar.Keyword | art/dist/art-parser.js:914 | the explicit-command word consumes input on success |
| Grammar.CommandStart | art/dist/art-parser.js:912-917 | the head `choice` of `commandParser` consumes input on success |
| Grammar.CommandRest | art/dist/art-parser.js:918-939 | what `commandParser` chains into never moves back |
| Grammar.ParseCommand | art/dist/art-parser.js:912-939 | `commandParser` consumes input on success, which `many` needs to terminate |
| Grammar.CommandLoop | art/dist/art-parser.js:941 | the command list loop never fails and never moves back |
| Grammar.ParseCommandList | art/dist/art-parser.js:941 | `commandListParser` never fails on a good state and never moves back |
| Grammar.ParseProgram | art/dist/art-parser.js:941 | parsing a whole program never fails; an unparsable tail is simply not consumed |
| GrammarLaws.ParseValueIsChoice | art/dist/art-parser.js:821-826 | the modelled value rule is `choice([mapper, number, string, varName]).map(value node)`; there is no operation alternative |
| GrammarLaws.OperationWithIsSequence | art/dist/art-parser.js:828-840 | the five-part operation sequence mapped to an `operation` node is value, operator, value with optional whitespace between |
| GrammarLaws.ParseOperationIsSequence | art/dist/art-parser.js:828-840 | the modelled operation rule equals `sequenceOf([...]).map(...)` as written |
| GrammarLaws.MapperWithIsSequence | art/dist/art-parser.js:842-860 | the five-part mapper sequence mapped to a `mapper` node is parameters, `=>`, body with optional whitespace between |
| GrammarLaws.ParseMapperIsSequence | art/dist/art-parser.js:842-860 | the modelled mapper rule equals `sequenceOf([...]).map(...)` as written |
| GrammarLaws.ObjectWithIsSequence | art/dist/art-parser.js:885-897 | the five-part object sequence fails only with its name, and defaults a missing attribute list and block |
| GrammarLaws.ParseObjectIsSequence | art/dist/art-parser.js:885-897 | the modelled object rule equals `sequenceOf([...]).map(...)` as written |
| GrammarLaws.ParseBlockIsBetween | art/dist/art-parser.js:881-883 | `blockParser` is the command list between curly brackets, as a `block` node |
| GrammarLaws.DefArgsWithIsSequence | art/dist/art-parser.js:899-903 | the three-part `def` argument sequence keeps the name and the object |
| GrammarLaws.DefArgsIsSequence | art/dist/art-parser.js:899-903 | the modelled `def` arguments rule equals `sequenceOf([...]).map(...)` as written |
| GrammarLaws.CommandStartIsChoice | art/dist/art-parser.js:912-917 | the command head is `choice([word + whitespace, drawArgs])` |
| GrammarLaws.CommandRestIsTail | art/dist/art-parser.js:918-939 | after the head: `args` become a `draw` command, `def`/`draw` run their argument parser, any other word fails |
| GrammarLaws.ParseCommandIsChain | art/dist/art-parser.js:912-939 | the modelled command rule equals `choice([...]).chain(...)` as written |
| GrammarLaws.CommandLoopIsManyLoop | art/dist/art-parser.js:941 | the modelled command list loop is the `many` loop over `commandParser` |
| GrammarLaws.ParseCommandListIsMany | art/dist/art-parser.js:941 | `commandListParser` is `many(commandParser)`, and `commandParser` always consumes input on success |
| GrammarText.NameChunkIsChunk | art/dist/art-parser.js:789 | `choice([letters, digits, anyOfString('$#- ')])` takes a non-empty piece of the run of name characters, and fails exactly off one |
| GrammarText.IdentChunkIsChunk | art/dist/art-parser.js:795 | `choice([letter, digits])` takes a non-empty piece of the run of letters and digits, and fails exactly off one |
| GrammarText.NameBodyText | art/dist/art-parser.js:789-791 | inside angle brackets a name is the longest run of letters, digits and `$#- ` |
| GrammarText.IdentRestText | art/dist/art-parser.js:795 | after an identifier's first letter the rest is the longest run of letters and digits |
| GrammarText.IdentNameText | art/dist/art-parser.js:793-796 | a bare identifier is a letter followed by the longest run of letters and digits |
| GrammarText.VarNameIdentText | art/dist/art-parser.js:787-801 | on a letter, `varNameParser` yields the longest alphanumeric run as the name |
| GrammarText.VarNameAngledText | art/dist/art-parser.js:787-801 | on `<`, `varNameParser` succeeds exactly when the run of name characters is closed by `>`, and yields that run as the name |
| GrammarText.AngledNameText | art/dist/art-parser.js:788-792 | an angled name succeeds exactly when the run of name characters after `<` ends at a `>` |
| GrammarText.IdentNameNotAngled | art/dist/art-parser.js:793-796 | an identifier never starts with `<` |
| GrammarText.VarNameStart | art/dist/art-parser.js:787-801 | a name starts with `<` or a letter |
| GrammarText.StrOneChar | art/dist/art-parser.js:357-374 | `str` of one character on a good state is `char` of that character |
| GrammarText.CharChoice | art/dist/art-parser.js:560-577 | a `choice` of one-character parsers accepts exactly their characters, consuming one |
| GrammarText.OperatorAlternativesText | art/dist/art-parser.js:814-818 | the operator choice accepts exactly one of `+ - * /` |
| GrammarText.OperatorText | art/dist/art-parser.js:814-819 | `operatorParser` succeeds exactly on one of `+ - * /`, consuming it, as an `operator` node |
| GrammarText.FractionPartsText | art/dist/art-parser.js:805 | a fraction part parses exactly on a dot followed by a digit, and takes the dot and the following digits |
| GrammarText.FractionText | art/dist/art-parser.js:805 | a fraction joins into the dot and its digits |
| GrammarText.OptFractionText | art/dist/art-parser.js:805 | the optional fraction is the dot and its digits when a digit follows the dot, and null otherwise, without consuming a lone dot |
| GrammarText.NumberTextText | art/dist/art-parser.js:803-807 | the number text is the longest digit run with, when a dot and digit follow, the fraction |
| GrammarText.NumberPOffDigit | art/dist/art-parser.js:803-808 | a number cannot start on anything but a digit |
| GrammarText.NumberPText | art/dist/art-parser.js:803-808 | `numberParser` succeeds exactly on a digit and yields the decimal value of the digits and optional fraction |
| GrammarText.QuoteAtProbe | art/dist/art-parser.js:811 | where `everythingUntil` tries the closing quote, it finds one exactly on a quote character |
| GrammarText.StringBodyFound | art/dist/art-parser.js:811 | the string body is the text up to the next quote, which is not consumed |
| GrammarText.StringBodyUnclosed | art/dist/art-parser.js:811 | without a closing quote the string body fails |
| GrammarText.QuotedText | art/dist/art-parser.js:810-811 | a quoted string succeeds exactly when a closing quote follows, and yields the text between the quotes |
| GrammarText.StringPText | art/dist/art-parser.js:810-812 | `stringParser` succeeds exactly on a quote followed later by another, and yields the text between them, with no escapes |
| CommandText.KeywordText | art/dist/art-parser.js:914 | an explicit command word is the whole run of letters at the cursor, must be followed by whitespace, and consumes all of that whitespace |
| CommandText.ExplicitCommand | art/dist/art-parser.js:912-939 | once a command word is read, the word alone decides the command |
| CommandText.UnknownCommandFails | art/dist/art-parser.js:928-931 | a word other than `def` and `draw` fails with "Unrecognized command '<word>'" where the word's whitespace ended |
| CommandText.DefCommand | art/dist/art-parser.js:928-938 | after `def` the command holds the `def` arguments |
| CommandText.ImplicitDraw | art/dist/art-parser.js:912-927 | without a command word an object parses as a `draw` command wrapping it, else the failure that got further |
| CommandText.AngledNameIsImplicitDraw | art/dist/art-parser.js:914 | text starting with `<` is never read as a command word |
| CommandText.CircleRejected | art/dist/art-parser.js:912-941 | `circle (r: 5)` is rejected as the unknown command `circle`, and the program parses to an empty command list |
| CommandText.ObjectDefaults | art/dist/art-parser.js:885-897 | an object gets an attribute list without entries exactly when no attribute list parses after its name, and an empty block when no block parses |
| CommandText.ObjectWithoutAttributes | art/dist/art-parser.js:888-894 | an object with no `(` after its name gets the attribute list without entries |
| Resolver.Find | art/dist/art-parser.js:1070-1072 | `find` by name yields nothing exactly when the name is absent, else the value of the first entry with that name |
| Resolver.Without | art/dist/art-parser.js:1097 | filtering out a key keeps exactly the other entries |
| Resolver.Dedup | art/dist/art-parser.js:1093-1099 | the reduce leaves each name once, the names of the input, each with the value of its last occurrence, and the last entry of the input stays last |
| Resolver.Bind | art/dist/art-parser.js:1062 | the mapper's definition map has exactly the parameter names as keys |
| Resolver.BindLastWins | art/dist/art-parser.js:1062 | a parameter name is bound to the argument at its last position, undefined when arguments run out |
| Resolver.ResolveUndefinedName | art/dist/art-parser.js:1010-1015 | a name resolves as a new name exactly when it is not defined, and otherwise fails with "Expected <name> to be undefined" |
| Resolver.ResolveName | art/dist/art-parser.js:1002-1008 | a defined name resolves to its definition and any other name to undefined |
| ResolverLaws.NameUndefinedIffFree | art/dist/art-parser.js:1002-1015 | when every definition is truthy, a name resolves to undefined exactly when `resolveUndefinedName` accepts it |
| ResolverLaws.ResolveNameAfterBind | art/dist/art-parser.js:1002-1008 | after binding a name, it resolves to the bound value and every other name resolves as before |
| Resolver.InitialContext | art/dist/art-parser.js:1194-1202 | a program starts with no definitions, no arguments and no parent attributes or block |
| ResolverLaws.InitialContextEmpty | art/dist/art-parser.js:1194-1202 | in the initial context every name resolves to undefined and may be defined |
| Resolver.Arith | art/dist/art-parser.js:1032-1048 | `+` always succeeds on two numbers (their sum) and on two texts (their concatenation); `-` and `*` always succeed on two numbers with the difference and the product; `/` on two numbers succeeds exactly when the divisor is non-zero, with the quotient; other operands fail with `BadOperands` and any other operator fails |
| Resolver.ResolveNode | art/dist/art-parser.js:984-992 | dispatch on the node type; an unknown type fails; objects give objects, blocks extend the parent block, attribute lists have unique names |
| Resolver.ResolveOperation | art/dist/art-parser.js:1025-1049 | operands are resolved left, operator, right, and the first failure is the operation's failure; when all three resolve, the operator is applied to the left and right values |
| Resolver.ResolveParams | art/dist/art-parser.js:1052-1061 | the parameters resolve exactly when each is a name that is not yet defined, giving those names in order |
| Resolver.ResolveMapper | art/dist/art-parser.js:1051-1065 | a mapper resolves only when none of its parameters is already defined |
| Resolver.ResolveAttribute | art/dist/art-parser.js:1067-1081 | an attribute resolves to a pair under its own name |
| Resolver.ResolveAttrs | art/dist/art-parser.js:1085-1092 | the own attributes resolve one per node, each a pair under that node's name; a non-attribute fails |
| Resolver.ResolveAttrList | art/dist/art-parser.js:1083-1100 | a list without entries fails; otherwise the names are unique and are exactly the parent's and the own ones |
| Resolver.ResolveObject | art/dist/art-parser.js:1102-1128 | block, attributes and name types are checked in that order; an undefined name gives a native object of that name; a defined one gives the definition's name with its attributes and block inherited |
| Resolver.ResolveCommand | art/dist/art-parser.js:1130-1165 | arguments must be an `args` node; `def` binds a new name to its resolved value; `draw` needs a renderer and yields an object; any other command fails |
| Resolver.ResolveStep | art/dist/art-parser.js:1170-1171 | a block element keeps every existing definition and adds only the name a `def` binds |
| Resolver.ResolveItems | art/dist/art-parser.js:1170-1172 | a block's elements keep only truthy results, and its definitions grow by exactly the names its `def`s bind |
| Resolver.ResolveBlock | art/dist/art-parser.js:1167-1174 | a block is the parent block followed by at most one truthy value per own element |
| Resolver.Interpret | art/dist/art-parser.js:943-950 | a program yields at most one truthy value per command |
| ResolverLaws.LastValueAppendRight | art/dist/art-parser.js:1093-1099 | a name of the later attributes keeps its value from them after concatenation |
| ResolverLaws.LastValueAppendLeft | art/dist/art-parser.js:1093-1099 | a name only in the earlier attributes keeps its value from them after concatenation |
| ResolverLaws.DedupFind | art/dist/art-parser.js:1093-1099 | looking a name up after de-duplication gives its last value, or nothing when it is absent |
| ResolverLaws.DedupDistinct | art/dist/art-parser.js:1093-1099 | de-duplicating a list whose names are already unique leaves it unchanged |
| ResolverLaws.DedupIdempotent | art/dist/art-parser.js:1093-1099 | de-duplicating twice is de-duplicating once |
| ResolverLaws.AttributeListMerge | art/dist/art-parser.js:1083-1100 | an attribute list is the parent's attributes then the own ones, de-duplicated; own attributes override inherited ones, inherited ones are kept otherwise |
| ResolverLaws.InheritedValueFeedsMapper | art/dist/art-parser.js:1067-1081 | a one-parameter mapper attribute sees the inherited value under its parameter name |
| ResolverLaws.ReferenceObjectExtendsDefinition | art/dist/art-parser.js:1113-1127 | referring to a defined object gives its name, its attributes merged with the own ones, and its block followed by the own items |
| ResolverLaws.NativeObject | art/dist/art-parser.js:1113-1121 | an undefined name gives a native object of that name, with the context's parent attributes and block |
| ResolverLaws.FalsyDefinitionFails | art/dist/art-parser.js:1113-1117 | a name defined as a falsy value is taken as native and fails as already defined |
| ResolverLaws.ObjectWithoutAttributeListFails | art/dist/art-parser.js:1083-1085 | an object whose attribute list has no entries fails to resolve |
| ResolverLaws.RedefinitionFails | art/dist/art-parser.js:1150-1155 | `def` of an already-defined name fails |
| ResolverLaws.DefVisibleToLaterCommands | art/dist/art-parser.js:1150-1155 | the commands after a `def` in the same block see its definition |
| ResolverLaws.DefTwiceInBlockFails | art/dist/art-parser.js:1150-1155 | defining the same name twice in one block fails on the second |
| ResolverLaws.DrawLeavesDefinitions | art/dist/art-parser.js:1156-1165 | `draw` contributes its object to the block and changes no definition |
| ResolverLaws.MapperParamsFailAt | art/dist/art-parser.js:1052-1061 | the first parameter name that is already defined makes the parameters fail |
| ResolverLaws.MapperParamDefinedFails | art/dist/art-parser.js:1051-1065 | a mapper whose parameter is already defined fails as already defined |
| ResolverLaws.NoRendererNoDraw | art/dist/art-parser.js:1156-1159 | without a renderer no block containing `draw` resolves |
| ResolverLaws.DrawWithoutRendererFails | art/dist/art-parser.js:1156-1159 | a program drawing anything without a renderer fails, and one starting with `draw` fails with "Cannot render without renderer" |
| ResolverLaws.LiteralOperation | art/dist/art-parser.js:1025-1031 | an operation whose operands resolve applies its operator symbol to the two values |
| ResolverLaws.NumberSum | art/dist/art-parser.js:1033-1035 | `a + b` on number literals always resolves to the sum |
| ResolverLaws.NumberDifference | art/dist/art-parser.js:1036-1038 | `a - b` on number literals always resolves to the difference |
| ResolverLaws.NumberProduct | art/dist/art-parser.js:1039-1041 | `a * b` on number literals always resolves to the product |
| ResolverLaws.MultiplyNumbers | art/dist/art-parser.js:1039-1041 | `*` on two numbers gives their product |
| ResolverLaws.NumberDivision | art/dist/art-parser.js:1042-1044 | `a / b` on number literals resolves to the quotient when `b` is non-zero and fails with a division by zero otherwise |
| ResolverLaws.StringConcatenation | art/dist/art-parser.js:1033-1035 | `+` on two string literals resolves to their concatenation |
| ResolverLaws.LeftOperandFailsFirst | art/dist/art-parser.js:1026-1030 | when the left operand fails, the operation fails with that error whatever the operator and right operand are |
| ResolverLaws.MixedOperandsFail | art/dist/art-parser.js:1033-1035 | a string plus a number fails with `BadOperands` instead of a coerced value |
| Pipeline.ParsedObjectShape | art/dist/art-parser.js:885-897 | a parsed object has a name node and a block node |
| Pipeline.ObjectWithoutAttributesNeverResolves | art/dist/art-parser.js:894 | an object parsed without `(` after its name fails to resolve, whatever the truthy definitions in scope |
| Pipeline.BareObjectProgramFails | art/dist/art-parser.js:894 | the program `draw circle`, as a tree, fails because its object has no attribute list entries |

## Left out

- The SVG renderer (`renderer.render`, lines 1204-1215) writes to the DOM. The model's
  renderer is the identity, so `draw` yields the resolved object, and a flag records
  whether a renderer is present.
- `regex` (377-400) depends on the JavaScript regular-expression engine. The grammar
  does not use it.
- `coroutine` (264-282) is generator machinery, and the grammar does not use it.
- `ap` (88-101) applies a parse result as a function, and `Val` holds no functions.
- `run`, `fork`, `parse`, `tapParser`, `toPromise` and `toValue` package results,
  call back or have side effects.
- `recursiveParser` (688-692) is replaced by mutual recursion between the grammar
  functions.
- The module-import shim (770-785) is left out.
- Error messages are modelled as text for the combinator layer. The resolver has one
  `ResolveError` case per `throw` instead of the message text.
- Str: requires a non-empty literal. `str('')` throws a `TypeError` when the parser is
  built (lines 357-360), before any input is seen, and the grammar never builds it.
- Choice: requires at least one alternative. `choice([])` returns `null` instead of a
  state (lines 564-575), and the grammar never builds it.
- Positions and characters are Unicode scalar values, where JavaScript strings index
  UTF-16 code units. For text outside the Basic Multilingual Plane, every `index`, every
  position in an error message and the single character `anythingExcept` returns differ
  from the JavaScript, which counts such a character as two units and can return half of
  it.
- Many: requires that every success of its parser either
  moves forward, past the end of input included, or does not move back and ends at or
  past the end, where line 301 stops the loop (`many(endOfInput)` is covered). A
  zero-width success before the end makes the JavaScript loop run forever. The
  requirement is on the parser, not on one input, so a parser that could succeed
  zero-width before the end is excluded even on inputs where it never does:
  `many(possibly(char('x')))` on the empty text, which the JavaScript ends with
  `[null]`, is not covered.
- ManyLoop, Many1: carry the same requirement as `Many`, for the same reason.
- SepBy: requires that a successful value keeps the target
  and that every round in which the value and then the separator both succeed starts
  at or before the end of input and moves forward. The JavaScript loop (lines 512-529)
  has no end test of its own. A round that succeeds without moving, or from past the
  end, can repeat forever, as `sepBy(possibly(x))(anythingExcept(y))` does at the end of
  input. The requirement also excludes parsers whose round succeeds once from past the
  end before a later value fails. Value parsers that step past the end, such as
  `anythingExcept`, are covered when the separator fails there.
- SepLoop, SepBy1: carry the same requirement as `SepBy`, for the same reason.
- Arith: does not model JavaScript number semantics. Numbers are exact reals. Operands
  JavaScript would coerce (a number plus a string, `undefined`) fail with `BadOperands`,
  and division by zero fails with `DivisionByZero` instead of giving Infinity or NaN.
- NumberP: `Number(text)` is the exact decimal value, with no floating-point rounding.
- ResolveCommand: a `def` or `draw` whose argument array is too short fails with
  `MissingArgument`, where the JavaScript throws a `TypeError`. A `def` whose first
  argument is not a name fails with `BadDefName`. The grammar never builds either tree.
- ResolveCommand: `draw` yields the resolved object itself, not a DOM element. The
  object is truthy, as the element is.
- The attribute-list node: its entries are either present or missing (`AttrEntries`).
  This is how the model represents the payload `{ values: [] }` of line 894, whose
  `value` field is undefined.
- ResolveNode: a command nested inside another node (a `value` wrapping a `def`, a `def`
  as an attribute value) defines nothing in the model, where the JavaScript
  `resolveCommand` adds to `context.defs` (line 1154) however it is reached. The grammar
  never builds such trees.

Behaviour of the code that the model keeps:
- A block resolves in a copy of the enclosing definitions (`mergeContext` with an empty
  map, line 1168), so it sees the outer definitions. It does not start from an empty
  scope.
- A `def` takes a name and an object (lines 899-903); any other value after the name
  does not parse.
- An object written without `(...)` fails to resolve, because of the `values` typo at
  line 894.
- Drawing an undefined name produces a native object of that name rather than an error.

=== FILE: combinator_laws.dfy ===
/**
  Properties of the combinators that relate several calls: the full
  characterisation of `choice`, the recursive equations of `many` and `sepBy`,
  what the character-class repetitions consume, and progress facts the
  grammar's termination rests on.
*/
module CombinatorLaws {
  import opened Syntax
  import opened ParserState
  import opened ParserCore
  import opened Combinators

  // ---------------------------------------------------------------------------
  // choice

  /**
    Alternative `k` is the one `choice` returns: every earlier one failed, and
    if `k` failed too then it got strictly further than every earlier failure
    and at least as far as every later one (all of which failed).
  */
  ghost predicate ChoicePick(ps: seq<Parser>, s: State, k: nat, r: State)
    requires k < |ps|
  {
    && r == ps[k](s)
    && (forall j :: 0 <= j < k ==> ps[j](s).isError)
    && (r.isError ==>
          && (forall j :: 0 <= j < k ==> ps[j](s).index < r.index)
          && (forall j :: k < j < |ps| ==> ps[j](s).isError && ps[j](s).index <= r.index))
  }

  lemma {:induction false} ChoiceLoopPick(ps: seq<Parser>, i: nat, s: State, b: nat) returns (k: nat)
    requires b < i <= |ps| && ps[b](s).isError
    requires forall j :: 0 <= j < i ==> ps[j](s).isError
    requires forall j :: 0 <= j < b ==> ps[j](s).index < ps[b](s).index
    requires forall j :: b < j < i ==> ps[j](s).index <= ps[b](s).index
    ensures k < |ps| && ChoicePick(ps, s, k, ChoiceLoop(ps, i, s, ps[b](s)))
    decreases |ps| - i
  {
    var best := ps[b](s);
    if i == |ps| {
      PickFurthest(ps, s, b);
      k := b;
    } else {
      var o := ps[i](s);
      if !o.isError {
        PickFirstSuccess(ps, s, i);
        k := i;
      } else if o.index > best.index {
        assert ChoiceLoop(ps, i, s, best) == ChoiceLoop(ps, i + 1, s, o);
        k := ChoiceLoopPick(ps, i + 1, s, i);
      } else {
        assert ChoiceLoop(ps, i, s, best) == ChoiceLoop(ps, i + 1, s, best);
        k := ChoiceLoopPick(ps, i + 1, s, b);
      }
    }
  }

  /** When every alternative failed, the kept failure is the pick. */
  lemma PickFurthest(ps: seq<Parser>, s: State, b: nat)
    requires b < |ps| && ps[b](s).isError
    requires forall j :: 0 <= j < |ps| ==> ps[j](s).isError
    requires forall j :: 0 <= j < b ==> ps[j](s).index < ps[b](s).index
    requires forall j :: b < j < |ps| ==> ps[j](s).index <= ps[b](s).index
    ensures ChoiceLoop(ps, |ps|, s, ps[b](s)) == ps[b](s)
    ensures ChoicePick(ps, s, b, ps[b](s))
  {
  }

  /** The first success is the pick. */
  lemma PickFirstSuccess(ps: seq<Parser>, s: State, i: nat)
    requires i < |ps| && !ps[i](s).isError
    requires forall j :: 0 <= j < i ==> ps[j](s).isError
    ensures ChoicePick(ps, s, i, ps[i](s))
  {
  }

  /**
    `choice` returns the first alternative that succeeds; when none does, the
    failure that reached the greatest index, the earliest among equals. It
    succeeds exactly when some alternative does.
  */
  lemma ChoiceSpec(ps: seq<Parser>, s: State)
    requires |ps| > 0 && !s.isError
    ensures exists k :: 0 <= k < |ps| && ChoicePick(ps, s, k, Choice(ps, s))
    ensures !Choice(ps, s).isError <==> exists j :: 0 <= j < |ps| && !ps[j](s).isError
  {
    var r := Choice(ps, s);
    var k: nat;
    if !ps[0](s).isError {
      PickFirstSuccess(ps, s, 0);
      k := 0;
    } else {
      k := ChoiceLoopPick(ps, 1, s, 0);
    }
    if r.isError {
      forall j | 0 <= j < |ps| ensures ps[j](s).isError {
        if j > k {
          assert ps[j](s).isError;
        }
      }
    }
  }

  /** All alternatives consuming on success makes `choice` consume on success. */
  lemma ChoiceAdvances(ps: seq<Parser>)
    requires |ps| > 0 && forall k :: 0 <= k < |ps| ==> Advances(ps[k])
    ensures Advances(t => Choice(ps, t))
  {
    forall s: State ensures Advanced(s, Choice(ps, s)) {
      if !s.isError {
        var k :| 0 <= k < |ps| && Choice(ps, s) == ps[k](s);
        assert Advances(ps[k]);
        assert Advanced(s, ps[k](s));
      }
    }
  }

  /** A failed `choice` loop leaves its accumulated failure or a consuming success. */
  lemma {:induction false} ChoiceLoopAdvanced(ps: seq<Parser>, i: nat, s: State, best: State)
    requires i <= |ps| && best.isError
    requires forall k :: i <= k < |ps| ==> Advances(ps[k])
    ensures Advanced(s, ChoiceLoop(ps, i, s, best))
    decreases |ps| - i
  {
    if i < |ps| {
      assert Advances(ps[i]) && Advanced(s, ps[i](s));
      if ps[i](s).isError {
        ChoiceLoopAdvanced(ps, i + 1, s, Furthest(best, ps[i](s)));
      }
    }
  }

  /** Putting an alternative in front shifts the loop's indices by one. */
  lemma {:induction false} ChoiceLoopShift(p: Parser, ps: seq<Parser>, i: nat, s: State, best: State)
    requires i <= |ps| && best.isError
    ensures ChoiceLoop([p] + ps, i + 1, s, best) == ChoiceLoop(ps, i, s, best)
    decreases |ps| - i
  {
    if i < |ps| {
      assert ([p] + ps)[i + 1] == ps[i];
      var o := ps[i](s);
      if o.isError {
        ChoiceLoopShift(p, ps, i + 1, s, Furthest(best, o));
      }
    }
  }

  /** `choice` with a first alternative and the rest: the first success, else the loop over the rest. */
  lemma ChoiceCons(p: Parser, ps: seq<Parser>, s: State)
    requires !s.isError
    ensures Choice([p] + ps, s) == if !p(s).isError then p(s) else ChoiceLoop(ps, 0, s, p(s))
  {
    if p(s).isError {
      ChoiceLoopShift(p, ps, 0, s, p(s));
    }
  }

  /** A `choice` mapped by `f`: the first alternative's success, else the loop over the rest. */
  lemma MapChoiceCons(c: Parser, p: Parser, ps: seq<Parser>, f: Val -> Val, s: State)
    requires !s.isError && c(s) == Choice([p] + ps, s)
    ensures Map(c, f, s) ==
      var m := p(s);
      if !m.isError then m.(result := f(m.result))
      else
        var k := ChoiceLoop(ps, 0, s, m);
        if k.isError then k else k.(result := f(k.result))
  {
    ChoiceCons(p, ps, s);
  }

  /** `choice` of consuming alternatives consumes on success. */
  lemma ChoiceAdvanced(ps: seq<Parser>, s: State)
    requires |ps| > 0 && forall k :: 0 <= k < |ps| ==> Advances(ps[k])
    ensures Advanced(s, Choice(ps, s))
  {
    if !s.isError {
      assert Advances(ps[0]) && Advanced(s, ps[0](s));
      if ps[0](s).isError {
        ChoiceLoopAdvanced(ps, 1, s, ps[0](s));
      }
    }
  }

  /** `choice` of one alternative is that alternative. */
  lemma ChoiceOne(a: Parser, s: State)
    requires !s.isError
    ensures Choice([a], s) == a(s)
  {
  }

  /** `choice` of two alternatives, unrolled. */
  lemma ChoiceTwo(a: Parser, b: Parser, s: State)
    requires !s.isError
    ensures Choice([a, b], s) ==
      if !a(s).isError then a(s) else if !b(s).isError then b(s) else Furthest(a(s), b(s))
  {
    if a(s).isError {
      assert Choice([a, b], s) == ChoiceLoop([a, b], 1, s, a(s));
    }
  }

  /** `choice` of three alternatives, unrolled. */
  lemma ChoiceThree(a: Parser, b: Parser, c: Parser, s: State)
    requires !s.isError
    ensures Choice([a, b, c], s) ==
      if !a(s).isError then a(s)
      else if !b(s).isError then b(s)
      else if !c(s).isError then c(s)
      else Furthest(Furthest(a(s), b(s)), c(s))
  {
    var ps := [a, b, c];
    if a(s).isError {
      assert Choice(ps, s) == ChoiceLoop(ps, 1, s, a(s));
      if b(s).isError {
        assert ChoiceLoop(ps, 1, s, a(s)) == ChoiceLoop(ps, 2, s, Furthest(a(s), b(s)));
      }
    }
  }

  /** `map` keeps the consumption of the parser it wraps. */
  lemma MapAdvanced(p: Parser, f: Val -> Val, s: State)
    requires Advanced(s, p(s))
    ensures Advanced(s, Map(p, f, s))
  {
  }

  // ---------------------------------------------------------------------------
  // many

  /** The results collected before entering the loop only prefix the final list. */
  lemma {:induction false} ManyLoopAcc(p: Parser, st: State, acc: seq<Val>)
    requires Proceeds(p) && !st.isError
    ensures ManyLoop(p, st, acc)
         == ManyLoop(p, st, []).(result := VList(acc + ManyLoop(p, st, []).result.items))
    decreases |st.target| - st.index
  {
    var o := p(st);
    assert Proceeded(st, o);
    if o.isError {
      assert acc + [] == acc;
    } else if o.index < |o.target| {
      assert [] + [o.result] == [o.result];
      ManyLoopAcc(p, o, acc + [o.result]);
      ManyLoopAcc(p, o, [o.result]);
      SnocAssoc(acc, o.result, ManyLoop(p, o, []).result.items);
    } else {
      assert [] + [o.result] == [o.result];
    }
  }

  lemma SnocAssoc<T>(a: seq<T>, x: T, rest: seq<T>)
    ensures a + [x] + rest == a + ([x] + rest)
  {
  }

  /**
    The recursive equation of `many`: with no success the input comes back with
    `[]`; a success at the end of the target stops with one result; otherwise
    the first result is prepended to `many` run from where it ended.
  */
  lemma ManyUnfold(p: Parser, s: State)
    requires Proceeds(p) && !s.isError
    ensures var o := p(s);
      Many(p, s) ==
        if o.isError then s.(result := VList([]))
        else if o.index >= |o.target| then o.(result := VList([o.result]))
        else Many(p, o).(result := VList([o.result] + Many(p, o).result.items))
  {
    var o := p(s);
    assert Proceeded(s, o);
    assert [] + [o.result] == [o.result];
    if !o.isError && o.index < |o.target| {
      ManyLoopAcc(p, o, [o.result]);
    }
  }

  /** `anythingExcept(p)` moves forward on every success, even from the end of the target. */
  lemma AnythingExceptProgresses(p: Parser)
    ensures Progresses(t => AnythingExcept(p, t))
  {
  }

  /**
    At the end of the target, `many(anythingExcept(p))` with a `p` that fails
    there steps one position past the end and stops with the one undefined
    character, as the JavaScript loop's `index >= length` test gives.
  */
  lemma ManyAnythingExceptAtEnd(p: Parser, s: State)
    requires !s.isError && s.index == |s.target| && p(s).isError
    ensures var r := Many(t => AnythingExcept(p, t), s);
      && !r.isError && r.index == |s.target| + 1
      && r.result == VList([CharAt(s.target, s.index)])
  {
    AnythingExceptProgresses(p);
    ProgressesProceeds(t => AnythingExcept(p, t));
    ManyUnfold(t => AnythingExcept(p, t), s);
  }

  /** `endOfInput` succeeds only at the end and without moving, which `many` accepts. */
  lemma EndOfInputProceeds()
    ensures Proceeds(EndOfInput)
  {
    forall s: State ensures Proceeded(s, EndOfInput(s)) {
      var r := EndOfInput(s);
      assert !s.isError && !r.isError ==> s.index == |s.target|;
    }
  }

  /**
    `many(endOfInput)` ends on every input: at the end it collects one `null`
    without moving, because the loop stops at `index >= length`; elsewhere it
    collects nothing.
  */
  lemma ManyEndOfInput(s: State)
    requires !s.isError
    ensures Proceeds(EndOfInput)
    ensures s.index == |s.target| ==> Many(EndOfInput, s) == s.(result := VList([VNull]))
    ensures s.index != |s.target| ==> Many(EndOfInput, s) == s.(result := VList([]))
  {
    EndOfInputProceeds();
    ManyUnfold(EndOfInput, s);
  }

  /** `many1` of a parser that consumes consumes as well. */
  lemma Many1Advances(p: Parser)
    requires Advances(p)
    ensures Advances(t => Many1(p, t))
  {
  }

  /** The end of the longest run of characters satisfying `q` starting at `i`. */
  function RunEnd(t: string, i: nat, q: char -> bool): (j: nat)
    ensures i <= j && (i <= |t| ==> j <= |t|) && (i > |t| ==> j == i)
    ensures forall k :: i <= k < j ==> k < |t| && q(t[k])
    ensures j < |t| ==> !q(t[j])
    decreases |t| - i
  {
    if i >= |t| then i else if q(t[i]) then RunEnd(t, i + 1, q) else i
  }

  /** Starting anywhere inside a run does not change where it ends. */
  lemma {:induction false} RunEndSkip(t: string, i: nat, k: nat, q: char -> bool)
    requires i <= k <= RunEnd(t, i, q)
    ensures RunEnd(t, k, q) == RunEnd(t, i, q)
    decreases k - i
  {
    if i < k {
      RunEndSkip(t, i + 1, k, q);
    }
  }

  /** A wider character class has a run at least as long. */
  lemma {:induction false} RunEndWiden(t: string, i: nat, q1: char -> bool, q2: char -> bool)
    requires forall c :: q1(c) ==> q2(c)
    ensures RunEnd(t, i, q1) <= RunEnd(t, i, q2)
    decreases |t| - i
  {
    if i < |t| && q1(t[i]) {
      RunEndWiden(t, i + 1, q1, q2);
    }
  }

  /**
    `r` is `st` after consuming a non-empty piece of the run of `q` at the
    cursor, with that piece as its string result.
  */
  predicate ChunkStep(st: State, r: State, q: char -> bool) {
    && st.index < r.index <= |st.target|
    && r.index <= RunEnd(st.target, st.index, q)
    && r == st.(index := r.index, result := VStr(st.target[st.index..r.index]))
  }

  /**
    `p` fails exactly when the cursor is not on a character of `q`, and
    otherwise consumes a non-empty piece of the run of `q` there: the shape of
    `digit`, `letter`, `digits`, `letters` and `anyOfString`.
  */
  ghost predicate ChunkParser(p: Parser, q: char -> bool) {
    forall st: State :: !st.isError ==>
      && (p(st).isError <==> !(st.index < |st.target| && q(st.target[st.index])))
      && (!p(st).isError ==> ChunkStep(st, p(st), q))
  }

  lemma ChunkAdvances(p: Parser, q: char -> bool)
    requires ChunkParser(p, q)
    ensures Advances(p)
  {
    forall s: State ensures Advanced(s, p(s)) {
      if !s.isError && !p(s).isError {
        assert ChunkStep(s, p(s), q);
      }
    }
  }

  /** `xs.join('')` as a string. */
  function Joined(xs: seq<Val>): (r: string)
    ensures JoinVal(VList(xs)) == VStr(r)
  {
    JoinText(Texts(xs), "")
  }

  lemma JoinedSnoc(xs: seq<Val>, c: string)
    ensures Joined(xs + [VStr(c)]) == Joined(xs) + c
  {
    var parts := Texts(xs + [VStr(c)]);
    assert TextOf(VStr(c)) == Display(VStr(c)) == c;
    assert parts[..|parts| - 1] == Texts(xs);
    if |xs| == 0 {
      assert parts == [c];
    }
  }

  lemma SliceConcat(t: string, i: nat, j: nat, k: nat)
    requires i <= j <= k <= |t|
    ensures t[i..j] + t[j..k] == t[i..k]
  {
  }

  lemma ConcatAssoc(a: string, b: string, c: string)
    ensures (a + b) + c == a + (b + c)
  {
  }

  lemma {:induction false} ManyLoopChunks(p: Parser, q: char -> bool, st: State, acc: seq<Val>)
    requires Advances(p) && ChunkParser(p, q) && !st.isError && st.index <= |st.target|
    ensures var r := ManyLoop(p, st, acc); var e := RunEnd(st.target, st.index, q);
      && r == st.(index := e, result := r.result)
      && Joined(r.result.items) == Joined(acc) + st.target[st.index..e]
    decreases |st.target| - st.index
  {
    var t := st.target;
    var o := p(st);
    var e := RunEnd(t, st.index, q);
    if o.isError {
      assert e == st.index;
      assert Joined(acc) + t[st.index..e] == Joined(acc);
    } else {
      assert ChunkStep(st, o, q);
      var c := t[st.index..o.index];
      JoinedSnoc(acc, c);
      RunEndSkip(t, st.index, o.index, q);
      if o.index < |t| {
        ManyLoopChunks(p, q, o, acc + [o.result]);
        SliceConcat(t, st.index, o.index, e);
        ConcatAssoc(Joined(acc), c, t[o.index..e]);
      }
    }
  }

  /**
    `many` of a chunk parser consumes the whole run of its class at the cursor
    (possibly empty), and its pieces join up to exactly the text consumed.
  */
  lemma ManyChunks(p: Parser, q: char -> bool, s: State)
    requires Advances(p) && ChunkParser(p, q) && !s.isError && s.index <= |s.target|
    ensures var e := RunEnd(s.target, s.index, q);
      && Many(p, s) == s.(index := e, result := Many(p, s).result)
      && JoinVal(Many(p, s).result) == VStr(s.target[s.index..e])
  {
    ManyLoopChunks(p, q, s, []);
    assert Joined([]) == "";
  }

  /**
    `many1(p).map(join)` of a chunk parser is a chunk parser that always takes
    the whole run.
  */
  lemma Many1JoinChunks(p: Parser, q: char -> bool, s: State)
    requires Advances(p) && ChunkParser(p, q) && !s.isError
    requires s.index < |s.target| && q(s.target[s.index])
    ensures var e := RunEnd(s.target, s.index, q);
      Map(t => Many1(p, t), JoinVal, s) == s.(index := e, result := VStr(s.target[s.index..e]))
  {
    ManyChunks(p, q, s);
    assert ChunkStep(s, p(s), q);
    ManyUnfold(p, s);
  }

  lemma {:induction false} RunEndStep(t: string, i: nat, q: char -> bool)
    requires i < |t| && q(t[i])
    ensures i + 1 <= RunEnd(t, i, q)
  {
  }

  /** The single-character primitives are chunk parsers of their class. */
  /** A parser that takes exactly the character at the cursor when it is of class `q`, and fails otherwise, takes chunks of `q`. */
  lemma SingleCharChunk(p: Parser, q: char -> bool)
    requires forall st: State :: !st.isError ==>
      (p(st).isError <==> !(st.index < |st.target| && q(st.target[st.index])))
    requires forall st: State :: !st.isError && st.index < |st.target| && q(st.target[st.index]) ==>
      p(st) == st.(result := VStr([st.target[st.index]]), index := st.index + 1)
    ensures ChunkParser(p, q)
  {
    forall st: State | !st.isError && st.index < |st.target| && q(st.target[st.index])
      ensures ChunkStep(st, p(st), q)
    {
      var t := st.target;
      var i := st.index;
      RunEndStep(t, i, q);
      assert t[i..i + 1] == [t[i]];
    }
  }

  lemma DigitChunks()
    ensures ChunkParser(Digit, IsDigitChar)
  {
    SingleCharChunk(Digit, IsDigitChar);
  }

  lemma LetterChunks()
    ensures ChunkParser(Letter, IsLetterChar)
  {
    SingleCharChunk(Letter, IsLetterChar);
  }

  lemma WhitespaceCharChunks()
    ensures ChunkParser(WhitespaceChar, IsWhitespaceChar)
  {
    SingleCharChunk(WhitespaceChar, IsWhitespaceChar);
  }

  /** `digits` returns the longest run of digits at the cursor as one string. */
  lemma DigitsTakesLongestRun(s: State)
    requires !s.isError && s.index < |s.target| && IsDigitChar(s.target[s.index])
    ensures var e := RunEnd(s.target, s.index, IsDigitChar);
      Digits(s) == s.(index := e, result := VStr(s.target[s.index..e]))
  {
    CharClassesAdvance();
    DigitChunks();
    Many1JoinChunks(Digit, IsDigitChar, s);
  }

  /** `letters` returns the longest run of letters at the cursor as one string. */
  lemma LettersTakesLongestRun(s: State)
    requires !s.isError && s.index < |s.target| && IsLetterChar(s.target[s.index])
    ensures var e := RunEnd(s.target, s.index, IsLetterChar);
      Letters(s) == s.(index := e, result := VStr(s.target[s.index..e]))
  {
    CharClassesAdvance();
    LetterChunks();
    Many1JoinChunks(Letter, IsLetterChar, s);
  }

  /** `whitespace` returns the whole run of whitespace at the cursor. */
  lemma WhitespaceTakesLongestRun(s: State)
    requires !s.isError && s.index < |s.target| && IsWhitespaceChar(s.target[s.index])
    ensures var e := RunEnd(s.target, s.index, IsWhitespaceChar);
      Whitespace(s) == s.(index := e, result := VStr(s.target[s.index..e]))
  {
    CharClassesAdvance();
    WhitespaceCharChunks();
    Many1JoinChunks(WhitespaceChar, IsWhitespaceChar, s);
  }

  /** `optionalWhitespace` skips the whole run of whitespace at the cursor, which may be empty. */
  lemma OptionalWhitespaceSkipsRun(s: State)
    requires !s.isError && s.index <= |s.target|
    ensures var e := RunEnd(s.target, s.index, IsWhitespaceChar);
      OptionalWhitespace(s) == s.(index := e, result := VStr(s.target[s.index..e]))
  {
    CharClassesAdvance();
    WhitespaceCharChunks();
    ManyChunks(WhitespaceChar, IsWhitespaceChar, s);
  }

  /** `digits` and `letters` are chunk parsers that always take the whole run. */
  lemma RunParsersChunks()
    ensures ChunkParser(Digits, IsDigitChar) && ChunkParser(Letters, IsLetterChar)
  {
    forall st: State | !st.isError && st.index < |st.target|
      ensures IsDigitChar(st.target[st.index]) ==> ChunkStep(st, Digits(st), IsDigitChar)
      ensures IsLetterChar(st.target[st.index]) ==> ChunkStep(st, Letters(st), IsLetterChar)
    {
      if IsDigitChar(st.target[st.index]) {
        DigitsTakesLongestRun(st);
      }
      if IsLetterChar(st.target[st.index]) {
        LettersTakesLongestRun(st);
      }
    }
  }

  // ---------------------------------------------------------------------------
  // sepBy

  /**
    Once a value has matched at `st`, the loop's outcome does not depend on the
    values collected before, nor on where the list started: errors coincide and
    successes differ only in the collected prefix.
  */
  lemma {:induction false} SepLoopShift(sep: Parser, val: Parser, st: State,
                                        acc1: seq<Val>, s1: State, acc2: seq<Val>, s2: State)
    requires RoundsProceed(sep, val) && !st.isError && !val(st).isError
    requires !s1.isError && st.target == s1.target && s1.index <= st.index
    requires !s2.isError && st.target == s2.target && s2.index <= st.index
    ensures var a := SepLoop(sep, val, st, acc1, s1); var b := SepLoop(sep, val, st, acc2, s2);
      && (a.isError <==> b.isError)
      && (a.isError ==> a == b)
      && (!a.isError ==>
            && |acc2| <= |b.result.items| && b.result.items[..|acc2|] == acc2
            && a == b.(result := VList(acc1 + b.result.items[|acc2|..])))
    decreases if st.index <= |st.target| then |st.target| + 1 - st.index else 0
  {
    var v := val(st);
    var sp := sep(v);
    assert RoundProceeded(st, v, sp);
    if sp.isError {
      assert (acc2 + [v.result])[..|acc2|] == acc2;
      assert (acc2 + [v.result])[|acc2|..] == [v.result];
    } else if val(sp).isError {
      assert SepLoop(sep, val, sp, acc1 + [v.result], s1) == val(sp);
      assert SepLoop(sep, val, sp, acc2 + [v.result], s2) == val(sp);
    } else {
      SepLoopShift(sep, val, sp, acc1 + [v.result], s1, acc2 + [v.result], s2);
      var b := SepLoop(sep, val, sp, acc2 + [v.result], s2);
      if !b.isError {
        var bs := b.result.items;
        assert bs[..|acc2|] == (acc2 + [v.result])[..|acc2|];
        assert bs[|acc2|..] == [v.result] + bs[|acc2| + 1..];
      }
    }
  }

  /**
    The recursive equation of `sepBy` after a value and a separator have
    matched: a value failing at that point fails the whole list, otherwise
    the first value is prepended to `sepBy` run from after the separator.
  */
  lemma SepByUnfold(sep: Parser, val: Parser, s: State)
    requires RoundsProceed(sep, val) && !s.isError
    requires !val(s).isError && !sep(val(s)).isError
    ensures var v := val(s); var sp := sep(v); var rest := SepBy(sep, val, sp);
      && (val(sp).isError ==> SepBy(sep, val, s) == val(sp))
      && (!val(sp).isError && rest.isError ==> SepBy(sep, val, s) == rest)
      && (!val(sp).isError && !rest.isError ==>
            SepBy(sep, val, s) == rest.(result := VList([v.result] + rest.result.items)))
  {
    var v := val(s);
    var sp := sep(v);
    assert RoundProceeded(s, v, sp);
    assert [] + [v.result] == [v.result];
    assert SepBy(sep, val, s) == SepLoop(sep, val, sp, [v.result], s);
    if !val(sp).isError {
      SepLoopShift(sep, val, sp, [v.result], s, [], sp);
      var b := SepBy(sep, val, sp);
      if !b.isError {
        assert b.result.items[0..] == b.result.items;
      }
    }
  }

  function Comma(s: State): State {
    Char(',', s)
  }

  lemma CharAdvances(c: char)
    ensures Advances(t => Char(c, t))
  {
  }

  function NotComma(s: State): State {
    AnythingExcept(Comma, s)
  }

  lemma NotCommaRoundsProceed()
    ensures RoundsProceed(Comma, NotComma)
  {
    CharAdvances(',');
    assert forall t: State :: Comma(t) == Char(',', t);
    assert Advances(Comma);
    AnythingExceptProgresses(Comma);
    assert forall t: State :: NotComma(t) == AnythingExcept(Comma, t);
    assert Progresses(NotComma);
    ProgressesRoundsProceed(Comma, NotComma);
  }

  /**
    A value parser that steps past the end: `sepBy(char(','))(anythingExcept(char(',')))`
    on `a,` takes `a`, the comma, and then the undefined character past the end,
    where the separator fails, so the list ends one position past the end.
  */
  lemma SepByPastTheEnd()
    ensures RoundsProceed(Comma, NotComma)
    ensures var r := SepBy(Comma, NotComma, CreateState("a,", VNull));
      && !r.isError && r.index == 3
      && r.result == VList([VStr("a"), VNull])
  {
    NotCommaRoundsProceed();
    var s0 := CreateState("a,", VNull);
    var v0 := NotComma(s0);
    assert v0.index == 1 && v0.result == VStr("a");
    var s2 := Comma(v0);
    assert s2.index == 2;
    var v2 := NotComma(s2);
    assert v2.index == 3 && v2.result == VNull;
    assert Comma(v2).isError;
    SepByUnfold(Comma, NotComma, s0);
  }

  /** A value missing after a separator fails the list: `1,2,x` is rejected at the `x`. */
  lemma SepByRejectsDanglingSeparator()
    ensures Advances(Digit) && Monotone(Comma)
    ensures var r := SepBy(Comma, Digit, CreateState("1,2,x", VNull));
      r.isError && r.index == 4
  {
    CharClassesAdvance();
    CharAdvances(',');
    assert forall s: State :: Comma(s) == Char(',', s);
    AdvancesIsMonotone(Comma);
    var s0 := CreateState("1,2,x", VNull);
    var s2 := Comma(Digit(s0));
    assert s2.index == 2;
    var s4 := Comma(Digit(s2));
    assert s4.index == 4;
    assert Digit(s4).isError;
    SepByUnfold(Comma, Digit, s2);
    SepByUnfold(Comma, Digit, s0);
  }

  // ---------------------------------------------------------------------------
  // sequenceOf and namedSequenceOf

  lemma {:induction false} SeqLoopKept(ps: seq<Parser>, i: nat, st: State, acc: seq<Val>, s: State)
    requires i <= |ps| && st == Pipe(ps[..i], s) && PrefixOk(ps, s, i)
    requires acc == PipeResults(ps, s, i)
    requires forall k :: i <= k < |ps| ==> Monotone(ps[k])
    ensures Kept(st, SeqLoop(ps, i, st, acc, s).0)
    decreases |ps| - i
  {
    if i < |ps| {
      var o := ps[i](st);
      assert Monotone(ps[i]) && Kept(st, o);
      PipeStep(ps, s, i);
      if !o.isError {
        assert PrefixOk(ps, s, i + 1);
        assert acc + [o.result] == PipeResults(ps, s, i + 1);
        SeqLoopKept(ps, i + 1, o, acc + [o.result], s);
      }
    }
  }

  /**
    A sequence whose first parser consumes and whose others never move back
    consumes on success.
  */
  lemma SeqRunAdvanced(ps: seq<Parser>, s: State)
    requires |ps| > 0 && Advances(ps[0])
    requires forall k :: 1 <= k < |ps| ==> Monotone(ps[k])
    ensures Advanced(s, SeqRun(ps, s).0)
  {
    assert ps[..0] == [];
    var o := ps[0](s);
    assert Advanced(s, o);
    PipeStep(ps, s, 0);
    if !o.isError {
      assert PrefixOk(ps, s, 1);
      assert [o.result] == PipeResults(ps, s, 1);
      SeqLoopKept(ps, 1, o, [o.result], s);
    }
  }

  /** A sequence of parsers that never move back never moves back. */
  lemma SeqRunKept(ps: seq<Parser>, s: State)
    requires forall k :: 0 <= k < |ps| ==> Monotone(ps[k])
    ensures Kept(s, SeqRun(ps, s).0)
  {
    assert ps[..0] == [];
    SeqLoopKept(ps, 0, s, [], s);
  }

  /** `sequenceOf` with a consuming head and non-retreating tail consumes on success. */
  lemma SequenceOfAdvanced(ps: seq<Parser>, s: State)
    requires |ps| > 0 && Advances(ps[0])
    requires forall k :: 1 <= k < |ps| ==> Monotone(ps[k])
    ensures Advanced(s, SequenceOf(ps, s))
  {
    SeqRunAdvanced(ps, s);
  }

  /** `sequenceOf` of non-retreating parsers does not retreat. */
  lemma SequenceOfKept(ps: seq<Parser>, s: State)
    requires forall k :: 0 <= k < |ps| ==> Monotone(ps[k])
    ensures Kept(s, SequenceOf(ps, s))
  {
    SeqRunKept(ps, s);
  }

  /**
    Runs `ps` front to back from `st`, stopping at the first failure: a
    reading of `sequenceOf` by recursion on the first parser. The results are
    meaningful only when the run succeeds.
  */
  function Steps(ps: seq<Parser>, st: State): (out: (State, seq<Val>))
    ensures !out.0.isError ==> |out.1| == |ps|
    decreases |ps|
  {
    if |ps| == 0 then (st, [])
    else
      var o := ps[0](st);
      if o.isError then (o, [])
      else
        var rest := Steps(ps[1..], o);
        (rest.0, [o.result] + rest.1)
  }

  /** One step of `Steps` on a suffix of `ps`. */
  lemma StepsSuffix(ps: seq<Parser>, i: nat, st: State)
    requires i < |ps|
    ensures var o := ps[i](st);
      Steps(ps[i..], st) == if o.isError then (o, []) else
        (Steps(ps[i + 1..], o).0, [o.result] + Steps(ps[i + 1..], o).1)
  {
    assert ps[i..][0] == ps[i] && ps[i..][1..] == ps[i + 1..];
  }

  /** A success after a successful prefix extends the prefix and its results. */
  lemma PrefixExtend(ps: seq<Parser>, s: State, i: nat)
    requires i < |ps| && PrefixOk(ps, s, i) && !ps[i](Pipe(ps[..i], s)).isError
    ensures PrefixOk(ps, s, i + 1)
    ensures PipeResults(ps, s, i + 1) == PipeResults(ps, s, i) + [ps[i](Pipe(ps[..i], s)).result]
  {
    PipeStep(ps, s, i);
  }

  lemma SeqLoopStops(ps: seq<Parser>, i: nat, st: State, acc: seq<Val>, s: State)
    requires i < |ps| && st == Pipe(ps[..i], s) && PrefixOk(ps, s, i)
    requires acc == PipeResults(ps, s, i)
    requires ps[i](st).isError
    ensures SeqLoop(ps, i, st, acc, s) == (ps[i](st), acc)
  {
  }

  lemma SeqLoopContinues(ps: seq<Parser>, i: nat, st: State, acc: seq<Val>, s: State)
    requires i < |ps| && st == Pipe(ps[..i], s) && PrefixOk(ps, s, i)
    requires acc == PipeResults(ps, s, i)
    requires !ps[i](st).isError
    ensures ps[i](st) == Pipe(ps[..i + 1], s) && PrefixOk(ps, s, i + 1)
    ensures acc + [ps[i](st).result] == PipeResults(ps, s, i + 1)
    ensures SeqLoop(ps, i, st, acc, s) == SeqLoop(ps, i + 1, ps[i](st), acc + [ps[i](st).result], s)
  {
    PipeStep(ps, s, i);
    PrefixExtend(ps, s, i);
  }

  /** How one successful step of the loop and of `Steps` fit together. */
  lemma StepCombine(l: (State, seq<Val>), m: (State, seq<Val>), t: (State, seq<Val>), u: (State, seq<Val>),
                    acc: seq<Val>, v: Val)
    requires l == m && m.0 == u.0 && (!u.0.isError ==> m.1 == acc + [v] + u.1)
    requires t == (u.0, [v] + u.1)
    ensures l.0 == t.0 && (!t.0.isError ==> l.1 == acc + t.1)
  {
    assert acc + [v] + u.1 == acc + ([v] + u.1);
  }

  lemma {:induction false} SeqLoopIsSteps(ps: seq<Parser>, i: nat, st: State, acc: seq<Val>, s: State)
    requires i <= |ps| && st == Pipe(ps[..i], s) && PrefixOk(ps, s, i)
    requires acc == PipeResults(ps, s, i)
    ensures SeqLoop(ps, i, st, acc, s).0 == Steps(ps[i..], st).0
    ensures !Steps(ps[i..], st).0.isError ==> SeqLoop(ps, i, st, acc, s).1 == acc + Steps(ps[i..], st).1
    decreases |ps| - i
  {
    if i == |ps| {
      assert ps[i..] == [];
    } else {
      var o := ps[i](st);
      StepsSuffix(ps, i, st);
      if o.isError {
        SeqLoopStops(ps, i, st, acc, s);
      } else {
        SeqLoopContinues(ps, i, st, acc, s);
        var acc' := acc + [o.result];
        SeqLoopIsSteps(ps, i + 1, o, acc', s);
        StepCombine(SeqLoop(ps, i, st, acc, s), SeqLoop(ps, i + 1, o, acc', s),
                    Steps(ps[i..], st), Steps(ps[i + 1..], o), acc, o.result);
      }
    }
  }

  /** `SeqRun` agrees with the front-to-back reading. */
  lemma SeqRunIsSteps(ps: seq<Parser>, s: State)
    ensures SeqRun(ps, s).0 == Steps(ps, s).0
    ensures !Steps(ps, s).0.isError ==> SeqRun(ps, s).1 == Steps(ps, s).1
  {
    assert ps[..0] == [] && ps[0..] == ps;
    SeqLoopIsSteps(ps, 0, s, [], s);
  }

  /**
    `sequenceOf` is the front-to-back run: the first failure, or the final
    state holding the list of results.
  */
  lemma SequenceOfIsSteps(ps: seq<Parser>, s: State)
    requires !s.isError
    ensures var out := Steps(ps, s);
      SequenceOf(ps, s) == if out.0.isError then out.0 else out.0.(result := VList(out.1))
  {
    SeqRunIsSteps(ps, s);
  }

  /** Running `ps + qs` is running `ps`, then `qs` from where `ps` stopped. */
  lemma {:induction false} StepsAppend(ps: seq<Parser>, qs: seq<Parser>, st: State)
    requires !st.isError
    ensures var x := Steps(ps, st);
      Steps(ps + qs, st).0 == (if x.0.isError then x.0 else Steps(qs, x.0).0)
    ensures var x := Steps(ps, st);
      !Steps(ps + qs, st).0.isError ==> Steps(ps + qs, st).1 == x.1 + Steps(qs, x.0).1
    decreases |ps|
  {
    if |ps| == 0 {
      assert ps + qs == qs;
    } else {
      var o := ps[0](st);
      assert (ps + qs)[0] == ps[0] && (ps + qs)[1..] == ps[1..] + qs;
      if !o.isError {
        StepsAppend(ps[1..], qs, o);
      }
    }
  }

  lemma StepsCons(p: Parser, ps: seq<Parser>, st: State)
    ensures Steps([p] + ps, st) == if p(st).isError then (p(st), []) else
      (Steps(ps, p(st)).0, [p(st).result] + Steps(ps, p(st)).1)
  {
    assert ([p] + ps)[0] == p && ([p] + ps)[1..] == ps;
  }

  /** The front-to-back run consumes when its first parser does and the others never move back. */
  lemma StepsAdvanced(ps: seq<Parser>, s: State)
    requires |ps| > 0 && Advances(ps[0])
    requires forall k :: 1 <= k < |ps| ==> Monotone(ps[k])
    ensures Advanced(s, Steps(ps, s).0)
  {
    SeqRunIsSteps(ps, s);
    SeqRunAdvanced(ps, s);
  }

  /** The front-to-back run of parsers that never move back never moves back. */
  lemma StepsKept(ps: seq<Parser>, s: State)
    requires forall k :: 0 <= k < |ps| ==> Monotone(ps[k])
    ensures Kept(s, Steps(ps, s).0)
  {
    SeqRunIsSteps(ps, s);
    SeqRunKept(ps, s);
  }

  lemma StepsSnoc(ps: seq<Parser>, q: Parser, st: State)
    requires !st.isError
    ensures var x := Steps(ps, st);
      Steps(ps + [q], st).0 == if x.0.isError then x.0 else q(x.0)
    ensures var x := Steps(ps, st);
      !Steps(ps + [q], st).0.isError ==> Steps(ps + [q], st).1 == x.1 + [q(x.0).result]
  {
    StepsAppend(ps, [q], st);
    var x := Steps(ps, st);
    if !x.0.isError {
      StepsCons(q, [], x.0);
      assert [q] + [] == [q];
    }
  }

  /**
    `sequenceOf` of a list and one more parser: the list's run, then the last
    parser from where it stopped, its result appended.
  */
  lemma SequenceOfSnoc(ps: seq<Parser>, q: Parser, s: State)
    requires !s.isError
    ensures var x := Steps(ps, s);
      SequenceOf(ps + [q], s) ==
        if x.0.isError then x.0
        else if q(x.0).isError then q(x.0)
        else q(x.0).(result := VList(x.1 + [q(x.0).result]))
  {
    SequenceOfIsSteps(ps + [q], s);
    StepsSnoc(ps, q, s);
  }

  /** `sequenceOf` of a first parser and the rest: the first, then the rest's run, results consed. */
  lemma SequenceOfCons(p: Parser, ps: seq<Parser>, s: State)
    requires !s.isError
    ensures var r := SequenceOf(ps, p(s));
      SequenceOf([p] + ps, s) ==
        if p(s).isError then p(s)
        else if r.isError then r
        else r.(result := VList([p(s).result] + r.result.items))
  {
    SequenceOfIsSteps([p] + ps, s);
    StepsCons(p, ps, s);
    if !p(s).isError {
      SequenceOfIsSteps(ps, p(s));
    }
  }

  /** A two-parser `sequenceOf`, spelled out: the first failure, or both results. */
  lemma SequenceOfTwo(a: Parser, b: Parser, s: State)
    requires !s.isError
    ensures SequenceOf([a, b], s) ==
      var ra := a(s);
      if ra.isError then ra else
      var rb := b(ra);
      if rb.isError then rb else
      rb.(result := VList([ra.result, rb.result]))
  {
    SequenceOfIsSteps([a, b], s);
    assert [a, b] == [a] + [b];
    assert [b] == [b] + [];
    StepsCons(a, [b], s);
    if !a(s).isError {
      StepsCons(b, [], a(s));
    }
  }

  /** A five-parser `sequenceOf`, spelled out: the first failure, or all five results. */
  lemma SequenceOfFive(a: Parser, b: Parser, c: Parser, d: Parser, e: Parser, s: State)
    requires !s.isError
    ensures SequenceOf([a, b, c, d, e], s) ==
      var ra := a(s);
      if ra.isError then ra else
      var rb := b(ra);
      if rb.isError then rb else
      var rc := c(rb);
      if rc.isError then rc else
      var rd := d(rc);
      if rd.isError then rd else
      var re := e(rd);
      if re.isError then re else
      re.(result := VList([ra.result, rb.result, rc.result, rd.result, re.result]))
  {
    assert [a, b, c, d, e] == [a] + [b, c, d, e];
    SequenceOfCons(a, [b, c, d, e], s);
    if !a(s).isError {
      SequenceOfFour(b, c, d, e, a(s));
    }
  }

  lemma SequenceOfFour(b: Parser, c: Parser, d: Parser, e: Parser, s: State)
    requires !s.isError
    ensures SequenceOf([b, c, d, e], s) ==
      var rb := b(s);
      if rb.isError then rb else
      var rc := c(rb);
      if rc.isError then rc else
      var rd := d(rc);
      if rd.isError then rd else
      var re := e(rd);
      if re.isError then re else
      re.(result := VList([rb.result, rc.result, rd.result, re.result]))
  {
    assert [b, c, d, e] == [b] + [c, d, e];
    SequenceOfCons(b, [c, d, e], s);
    if !b(s).isError {
      SequenceOfThreeSteps(c, d, e, b(s));
    }
  }

  lemma SequenceOfThreeSteps(c: Parser, d: Parser, e: Parser, s: State)
    requires !s.isError
    ensures SequenceOf([c, d, e], s) ==
      var rc := c(s);
      if rc.isError then rc else
      var rd := d(rc);
      if rd.isError then rd else
      var re := e(rd);
      if re.isError then re else
      re.(result := VList([rc.result, rd.result, re.result]))
  {
    assert [c, d, e] == [c] + [d, e];
    SequenceOfCons(c, [d, e], s);
    if !c(s).isError {
      SequenceOfTwo(d, e, c(s));
    }
  }


  function Keys(pairs: seq<(string, Parser)>): (ks: seq<string>)
    ensures |ks| == |pairs|
    ensures forall i :: 0 <= i < |pairs| ==> ks[i] == pairs[i].0
  {
    seq(|pairs|, i requires 0 <= i < |pairs| => pairs[i].0)
  }

  function Parsers(pairs: seq<(string, Parser)>): (ps: seq<Parser>)
    ensures |ps| == |pairs|
    ensures forall i :: 0 <= i < |pairs| ==> ps[i] == pairs[i].1
  {
    seq(|pairs|, i requires 0 <= i < |pairs| => pairs[i].1)
  }

  lemma {:induction false} NamedLoopIsSeqLoop(pairs: seq<(string, Parser)>, i: nat, st: State,
                                              acc: seq<Val>, s: State)
    requires i <= |pairs| && st == Pipe(Parsers(pairs)[..i], s) && PrefixOk(Parsers(pairs), s, i)
    requires acc == PipeResults(Parsers(pairs), s, i) && !st.isError
    ensures var out := SeqLoop(Parsers(pairs), i, st, acc, s);
      NamedLoop(pairs, i, st, ZipRecord(Keys(pairs)[..i], acc))
        == if out.0.isError then out.0 else out.0.(result := VRec(ZipRecord(Keys(pairs), out.1)))
    decreases |pairs| - i
  {
    var ps := Parsers(pairs);
    if i == |pairs| {
      assert Keys(pairs)[..i] == Keys(pairs);
    } else {
      var o := ps[i](st);
      if o.isError {
        SeqLoopStops(ps, i, st, acc, s);
      } else {
        SeqLoopContinues(ps, i, st, acc, s);
        ZipRecordSnoc(Keys(pairs), i, acc, o.result);
        NamedLoopIsSeqLoop(pairs, i + 1, o, acc + [o.result], s);
      }
    }
  }

  /** Storing one more result in the record is a map update. */
  lemma ZipRecordSnoc(ks: seq<string>, i: nat, acc: seq<Val>, v: Val)
    requires i < |ks| && |acc| == i
    ensures ZipRecord(ks[..i + 1], acc + [v]) == ZipRecord(ks[..i], acc)[ks[i] := v]
  {
    var k1 := ks[..i + 1];
    assert k1[..|k1| - 1] == ks[..i];
    assert (acc + [v])[..|acc|] == acc;
  }

  /**
    `namedSequenceOf` is `sequenceOf` over the parsers, with the results stored
    in a record under their keys (a repeated key keeps the later result).
  */
  lemma NamedSequenceOfIsSequenceOf(pairs: seq<(string, Parser)>, s: State)
    ensures var r := SequenceOf(Parsers(pairs), s);
      && (r.isError ==> NamedSequenceOf(pairs, s) == r)
      && (!r.isError ==>
            |r.result.items| == |pairs|
            && NamedSequenceOf(pairs, s) == r.(result := VRec(ZipRecord(Keys(pairs), r.result.items))))
  {
    if !s.isError {
      assert Parsers(pairs)[..0] == [];
      assert Keys(pairs)[..0] == [];
      NamedLoopIsSeqLoop(pairs, 0, s, [], s);
    }
  }

  // ---------------------------------------------------------------------------
  // Look-ahead family

  /** `lookAhead` leaves the cursor where it was, whatever `p` consumed. */
  lemma LookAheadKeepsIndex(p: Parser, s: State)
    ensures !LookAhead(p, s).isError ==> LookAhead(p, s).index == s.index
  {
  }

  /** `possibly` of a consuming parser never moves back; it never fails on a non-error input. */
  lemma PossiblyKept(p: Parser)
    requires Monotone(p)
    ensures Monotone(t => Possibly(p, t))
  {
    forall s: State ensures Kept(s, Possibly(p, s)) {
      assert Kept(s, p(s));
    }
  }
}

=== FILE: combinators.dfy ===
/**
  The combinator library: character-level primitives, sequencing, ordered
  choice, repetition, separated lists and the look-ahead family.
*/
module Combinators {
  import opened Syntax
  import opened ParserState
  import opened ParserCore

  // ---------------------------------------------------------------------------
  // Progress predicates. The JavaScript loops of `many` and `sepBy` have no bound
  // of their own; they end because each round moves the cursor forward.

  /** From a non-error `s`, a success `r` moved the cursor forward and stayed inside the target. */
  predicate Advanced(s: State, r: State) {
    !s.isError && !r.isError ==> r.target == s.target && s.index < r.index <= |s.target|
  }

  /** From a non-error in-bounds `s`, a success `r` did not move the cursor back nor past the end. */
  predicate Kept(s: State, r: State) {
    !s.isError && !r.isError && s.index <= |s.target| ==>
      r.target == s.target && s.index <= r.index <= |s.target|
  }

  /** Every success consumes at least one character. */
  ghost predicate Advances(p: Parser) {
    forall s: State :: Advanced(s, p(s))
  }

  /** From a non-error `s`, a success `r` moved the cursor forward, possibly past the end. */
  predicate Progressed(s: State, r: State) {
    !s.isError && !r.isError ==> r.target == s.target && s.index < r.index
  }

  /** Every success moves the cursor forward; `anythingExcept` may step past the end. */
  ghost predicate Progresses(p: Parser) {
    forall s: State :: Progressed(s, p(s))
  }

  lemma AdvancesProgresses(p: Parser)
    requires Advances(p)
    ensures Progresses(p)
  {
    forall s: State ensures Progressed(s, p(s)) {
      assert Advanced(s, p(s));
    }
  }

  /**
    From a non-error `s`, a success `r` moved the cursor forward, or did not move
    it back and ends at or past the end of the target, where `many` stops anyway.
  */
  predicate Proceeded(s: State, r: State) {
    !s.isError && !r.isError ==>
      r.target == s.target && s.index <= r.index && (s.index < r.index || |s.target| <= r.index)
  }

  /** What `many` needs to end: every success moves forward unless it ends at or past the end. */
  ghost predicate Proceeds(p: Parser) {
    forall s: State :: Proceeded(s, p(s))
  }

  lemma ProgressesProceeds(p: Parser)
    requires Progresses(p)
    ensures Proceeds(p)
  {
    forall s: State ensures Proceeded(s, p(s)) {
      assert Progressed(s, p(s));
    }
  }

  /**
    One round of `sepBy` from `t`: the value `v` and then the separator `sp`.
    A successful value keeps the target; a round in which both succeed starts at
    or before the end of the target and moves the cursor forward.
  */
  predicate RoundProceeded(t: State, v: State, sp: State) {
    && (!t.isError && !v.isError ==> v.target == t.target)
    && (!t.isError && !v.isError && !sp.isError ==>
          sp.target == t.target && t.index < sp.index && t.index <= |t.target|)
  }

  /** What `sepBy` needs to end: every round that succeeds starts inside the input and moves forward. */
  ghost predicate RoundsProceed(sep: Parser, val: Parser) {
    forall t: State :: RoundProceeded(t, val(t), sep(val(t)))
  }

  /** The grammar's case: a value that consumes input within the target and a separator that never moves back. */
  lemma AdvancesRoundsProceed(sep: Parser, val: Parser)
    requires Advances(val) && Monotone(sep)
    ensures RoundsProceed(sep, val)
  {
    forall t: State ensures RoundProceeded(t, val(t), sep(val(t))) {
      assert Advanced(t, val(t));
      assert Kept(val(t), sep(val(t)));
    }
  }

  /** The `anythingExcept` case: any value that moves forward, and a separator that consumes within the target. */
  lemma ProgressesRoundsProceed(sep: Parser, val: Parser)
    requires Progresses(val) && Advances(sep)
    ensures RoundsProceed(sep, val)
  {
    forall t: State ensures RoundProceeded(t, val(t), sep(val(t))) {
      assert Progressed(t, val(t));
      assert Advanced(val(t), sep(val(t)));
    }
  }

  /** No success moves the cursor backwards or past the end. */
  ghost predicate Monotone(p: Parser) {
    forall s: State :: Kept(s, p(s))
  }

  lemma AdvancesIsMonotone(p: Parser)
    requires Advances(p)
    ensures Monotone(p)
  {
    forall s: State ensures Kept(s, p(s)) {
      assert Advanced(s, p(s));
    }
  }

  /** The "ParseError (position i): " prefix of primitive error messages. */
  function At(i: nat): string {
    "ParseError (position " + NatToString(i) + "): "
  }

  // ---------------------------------------------------------------------------
  // Primitives

  /** `char(c)`: matches exactly `c` at the cursor. */
  function Char(c: char, s: State): (r: State)
    ensures s.isError ==> r == s
    ensures !s.isError ==> (!r.isError <==> s.index < |s.target| && s.target[s.index] == c)
    ensures !s.isError && !r.isError ==> r == s.(result := VStr([c]), index := s.index + 1)
    ensures r.isError ==> r.index == s.index && r.target == s.target
  {
    if s.isError then s
    else if s.index < |s.target| then
      if s.target[s.index] == c then UpdateParserState(s, VStr([c]), s.index + 1)
      else UpdateError(s, VStr(At(s.index) + "Expecting character '" + [c] + "', got '"
                               + [s.target[s.index]] + "'"))
    else
      UpdateError(s, VStr(At(s.index) + "Expecting character '" + [c] + "', but got end of input."))
  }

  /** `lit` occurs in `t` starting at position `i`. */
  predicate MatchesAt(t: string, i: nat, lit: string) {
    i + |lit| <= |t| && t[i..i + |lit|] == lit
  }

  /** `t.slice(i).startsWith(lit)` is exactly `lit` occurring at `i`. */
  lemma StartsWithIsMatchesAt(t: string, i: nat, lit: string)
    requires |lit| >= 1
    ensures (|lit| <= |Slice(t, i, |t|)| && Slice(t, i, |t|)[..|lit|] == lit) <==> MatchesAt(t, i, lit)
  {
    if i <= |t| {
      assert Slice(t, i, |t|) == t[i..];
      if |lit| <= |t| - i {
        assert t[i..][..|lit|] == t[i..i + |lit|];
      }
    }
  }

  /**
    `str(lit)`: matches the literal at the cursor. Unlike the other primitives
    it does not pass an error state through untouched.
  */
  function Str(lit: string, s: State): (r: State)
    requires |lit| >= 1
    ensures MatchesAt(s.target, s.index, lit) ==>
      r == s.(result := VStr(lit), index := s.index + |lit|)
    ensures !MatchesAt(s.target, s.index, lit) ==>
      r.isError && r.index == s.index && r.target == s.target
  {
    var rest := Slice(s.target, s.index, |s.target|);
    StartsWithIsMatchesAt(s.target, s.index, lit);
    if |rest| >= 1 then
      if |lit| <= |rest| && rest[..|lit|] == lit then
        UpdateParserState(s, VStr(lit), s.index + |lit|)
      else
        UpdateError(s, VStr(At(s.index) + "Expecting string '" + lit + "', got '"
                            + Slice(s.target, s.index, s.index + |lit|) + "...'"))
    else
      UpdateError(s, VStr(At(s.index) + "Expecting string '" + lit + "', but got end of input."))
  }

  /** `digit`: one character in 0-9. */
  function Digit(s: State): (r: State)
    ensures s.isError ==> r == s
    ensures !s.isError ==> (!r.isError <==> s.index < |s.target| && IsDigitChar(s.target[s.index]))
    ensures !s.isError && !r.isError ==>
      r == s.(result := VStr([s.target[s.index]]), index := s.index + 1)
    ensures r.isError ==> r.index == s.index && r.target == s.target
  {
    if s.isError then s
    else if s.index < |s.target| then
      if IsDigitChar(s.target[s.index]) then
        UpdateParserState(s, VStr([s.target[s.index]]), s.index + 1)
      else UpdateError(s, VStr(At(s.index) + "Expecting digit, got '" + [s.target[s.index]] + "'"))
    else UpdateError(s, VStr(At(s.index) + "Expecting digit, but got end of input."))
  }

  /** `letter`: one character in a-z or A-Z. */
  function Letter(s: State): (r: State)
    ensures s.isError ==> r == s
    ensures !s.isError ==> (!r.isError <==> s.index < |s.target| && IsLetterChar(s.target[s.index]))
    ensures !s.isError && !r.isError ==>
      r == s.(result := VStr([s.target[s.index]]), index := s.index + 1)
    ensures r.isError ==> r.index == s.index && r.target == s.target
  {
    if s.isError then s
    else if s.index < |s.target| then
      if IsLetterChar(s.target[s.index]) then
        UpdateParserState(s, VStr([s.target[s.index]]), s.index + 1)
      else UpdateError(s, VStr(At(s.index) + "Expecting letter, got '" + [s.target[s.index]] + "'"))
    else UpdateError(s, VStr(At(s.index) + "Expecting letter, but got end of input."))
  }

  /** `anyOfString(cs)`: one character that occurs in `cs`. */
  function AnyOfString(cs: string, s: State): (r: State)
    ensures s.isError ==> r == s
    ensures !s.isError ==> (!r.isError <==> s.index < |s.target| && s.target[s.index] in cs)
    ensures !s.isError && !r.isError ==>
      r == s.(result := VStr([s.target[s.index]]), index := s.index + 1)
    ensures r.isError ==> r.index == s.index && r.target == s.target
  {
    if s.isError then s
    else if s.index < |s.target| then
      if s.target[s.index] in cs then UpdateParserState(s, VStr([s.target[s.index]]), s.index + 1)
      else UpdateError(s, VStr(At(s.index) + "Expecting any of the string \"" + cs + "\", got "
                               + [s.target[s.index]]))
    else UpdateError(s, VStr(At(s.index) + "Expecting any of the string \"" + cs
                             + "\", but got end of input."))
  }

  /** `endOfInput`: succeeds with a null result exactly when the cursor is at the end. */
  function EndOfInput(s: State): (r: State)
    ensures s.isError ==> r == s
    ensures !s.isError ==> (!r.isError <==> s.index == |s.target|)
    ensures !s.isError && !r.isError ==> r == s.(result := VNull)
    ensures r.index == s.index && r.target == s.target
  {
    if s.isError then s
    else if s.index != |s.target| then
      UpdateError(s, VStr("ParseError 'endOfInput' (position " + NatToString(s.index)
                          + "): Expected end of input but got '"
                          + Slice(s.target, s.index, s.index + 1) + "'"))
    else UpdateResult(s, VNull)
  }

  // ---------------------------------------------------------------------------
  // Sequencing

  /** Every parser of the first `n` has succeeded when the list is piped from `s`. */
  ghost predicate PrefixOk(ps: seq<Parser>, s: State, n: nat)
    requires n <= |ps|
  {
    forall k :: 0 < k <= n ==> !Pipe(ps[..k], s).isError
  }

  /** The results the first `n` parsers produce when the list is piped from `s`. */
  ghost function PipeResults(ps: seq<Parser>, s: State, n: nat): (rs: seq<Val>)
    requires n <= |ps|
    ensures |rs| == n
  {
    seq(n, k requires 0 <= k < n => Pipe(ps[..k + 1], s).result)
  }

  lemma PipeStep(ps: seq<Parser>, s: State, i: nat)
    requires i < |ps|
    ensures Pipe(ps[..i + 1], s) == ps[i](Pipe(ps[..i], s))
  {
    assert ps[..i + 1][..i] == ps[..i];
  }

  /**
    The loop of `sequenceOf` from parser `i` on, with `st` the state before
    `ps[i]` and `acc` the results so far; returns the state it stopped in and
    the results collected.
  */
  function SeqLoop(ps: seq<Parser>, i: nat, st: State, acc: seq<Val>, ghost s: State): (out: (State, seq<Val>))
    requires i <= |ps| && st == Pipe(ps[..i], s) && PrefixOk(ps, s, i)
    requires acc == PipeResults(ps, s, i)
    ensures !out.0.isError ==>
      PrefixOk(ps, s, |ps|) && out.0 == Pipe(ps, s) && out.1 == PipeResults(ps, s, |ps|)
    ensures out.0.isError && !(i == |ps| && st.isError) ==>
      exists k :: i <= k < |ps| && PrefixOk(ps, s, k) && out.0 == Pipe(ps[..k + 1], s)
    decreases |ps| - i
  {
    if i == |ps| then
      assert ps[..i] == ps;
      (st, acc)
    else
      var o := ps[i](st);
      PipeStep(ps, s, i);
      if o.isError then (o, acc)
      else
        assert PrefixOk(ps, s, i + 1);
        assert acc + [o.result] == PipeResults(ps, s, i + 1);
        SeqLoop(ps, i + 1, o, acc + [o.result], s)
  }

  /** Runs `ps` in order from `s`: the shared loop of `sequenceOf` and the grammar rules. */
  function SeqRun(ps: seq<Parser>, s: State): (out: (State, seq<Val>))
    ensures !out.0.isError ==>
      PrefixOk(ps, s, |ps|) && out.0 == Pipe(ps, s) && out.1 == PipeResults(ps, s, |ps|)
    ensures out.0.isError && !(|ps| == 0 && s.isError) ==>
      exists k :: 0 <= k < |ps| && PrefixOk(ps, s, k) && out.0 == Pipe(ps[..k + 1], s)
  {
    assert ps[..0] == [];
    SeqLoop(ps, 0, s, [], s)
  }

  /**
    `sequenceOf(ps)`: runs the parsers one after another. It fails exactly when
    one of them fails, returning the first failing state unchanged; on success
    the results are one per parser, at the position the last one reached.
  */
  function SequenceOf(ps: seq<Parser>, s: State): (r: State)
    ensures s.isError ==> r == s
    ensures !s.isError ==> (!r.isError <==> PrefixOk(ps, s, |ps|))
    ensures !s.isError && r.isError ==>
      exists k :: 0 <= k < |ps| && PrefixOk(ps, s, k) && r == Pipe(ps[..k + 1], s)
    ensures !s.isError && !r.isError ==>
      r == Pipe(ps, s).(result := VList(PipeResults(ps, s, |ps|)))
  {
    if s.isError then s
    else
      var out := SeqRun(ps, s);
      if out.0.isError then
        out.0
      else
        UpdateResult(out.0, VList(out.1))
  }

  /** Builds the record of `namedSequenceOf`: a later key overwrites an earlier one. */
  function ZipRecord(keys: seq<string>, vals: seq<Val>): map<string, Val>
    requires |keys| == |vals|
  {
    if |keys| == 0 then map[]
    else ZipRecord(keys[..|keys| - 1], vals[..|vals| - 1])[keys[|keys| - 1] := vals[|vals| - 1]]
  }

  function NamedLoop(pairs: seq<(string, Parser)>, i: nat, st: State, fields: map<string, Val>): State
    requires i <= |pairs|
    decreases |pairs| - i
  {
    if i == |pairs| then UpdateResult(st, VRec(fields))
    else
      var o := pairs[i].1(st);
      if o.isError then o else NamedLoop(pairs, i + 1, o, fields[pairs[i].0 := o.result])
  }

  /** `namedSequenceOf(pairs)`: `sequenceOf` whose results are stored under the given keys. */
  function NamedSequenceOf(pairs: seq<(string, Parser)>, s: State): State {
    if s.isError then s else NamedLoop(pairs, 0, s, map[])
  }

  // ---------------------------------------------------------------------------
  // Ordered choice

  /** The failure kept so far is replaced only by one that got strictly further. */
  function Furthest(best: State, o: State): State {
    if o.index > best.index then o else best
  }

  /** The loop of `choice` over the remaining alternatives, `best` the failure kept so far. */
  function ChoiceLoop(ps: seq<Parser>, i: nat, s: State, best: State): (r: State)
    requires i <= |ps| && best.isError
    ensures r == best || exists k :: i <= k < |ps| && r == ps[k](s)
    ensures !r.isError ==> exists k :: i <= k < |ps| && r == ps[k](s)
    ensures best.isError && r.isError ==> r.index >= best.index
    decreases |ps| - i
  {
    if i == |ps| then best
    else
      var o := ps[i](s);
      if !o.isError then o else ChoiceLoop(ps, i + 1, s, Furthest(best, o))
  }

  /**
    `choice(ps)`: tries every alternative from the same state and returns the
    first success; when all fail, the failure that reached the greatest index,
    the earliest one on ties. The source needs a non-empty list (with none it
    returns null instead of a state).
  */
  function Choice(ps: seq<Parser>, s: State): (r: State)
    requires |ps| > 0
    ensures s.isError ==> r == s
    ensures !s.isError ==> exists k :: 0 <= k < |ps| && r == ps[k](s)
    ensures !s.isError && !r.isError ==> exists k :: 0 <= k < |ps| && r == ps[k](s)
  {
    if s.isError then s
    else
      var o := ps[0](s);
      if !o.isError then o else ChoiceLoop(ps, 1, s, o)
  }

  // ---------------------------------------------------------------------------
  // Repetition

  /** The loop of `many`: `st` is the last successful state, `acc` the results so far. */
  function ManyLoop(p: Parser, st: State, acc: seq<Val>): (r: State)
    requires Proceeds(p) && !st.isError
    ensures !r.isError && r.target == st.target
    ensures r.result.VList? && |acc| <= |r.result.items| && r.result.items[..|acc|] == acc
    ensures |r.result.items| == |acc| ==> r == st.(result := VList(acc))
    ensures |r.result.items| > |acc| ==> st.index <= r.index && (st.index < r.index || |st.target| <= r.index)
    ensures Progresses(p) && |r.result.items| > |acc| ==> st.index < r.index
    ensures Advances(p) && |r.result.items| > |acc| ==> r.index <= |st.target|
    decreases |st.target| - st.index
  {
    var o := p(st);
    assert Proceeded(st, o);
    assert Progresses(p) ==> Progressed(st, o);
    assert Advances(p) ==> Advanced(st, o);
    if o.isError then UpdateResult(st, VList(acc))
    else if o.index >= |o.target| then UpdateResult(o, VList(acc + [o.result]))
    else
      var r := ManyLoop(p, o, acc + [o.result]);
      assert r.result.items[..|acc|] == (acc + [o.result])[..|acc|];
      r
  }

  /**
    `many(p)`: repeats `p` until it fails or the end of the target is reached.
    It never fails on a non-error input and never moves the cursor back; with no
    success it returns the input state with an empty list.
  */
  function Many(p: Parser, s: State): (r: State)
    requires Proceeds(p)
    ensures s.isError ==> r == s
    ensures !s.isError ==> !r.isError && r.target == s.target && s.index <= r.index
    ensures !s.isError ==> r.result.VList?
    ensures !s.isError ==> (|r.result.items| == 0 <==> r == s.(result := VList([])))
    ensures !s.isError && |r.result.items| > 0 ==> s.index < r.index || |s.target| <= r.index
    ensures Progresses(p) && !s.isError && |r.result.items| > 0 ==> s.index < r.index
    ensures Advances(p) && !s.isError && |r.result.items| > 0 ==> r.index <= |s.target|
  {
    if s.isError then s else ManyLoop(p, s, [])
  }

  /** `many1(p)`: `many` that fails, at the original position, when nothing was collected. */
  function Many1(p: Parser, s: State): (r: State)
    requires Proceeds(p)
    ensures s.isError ==> r == s
    ensures !s.isError ==> (r.isError <==> |Many(p, s).result.items| == 0)
    ensures !s.isError && r.isError ==> r.index == s.index && r.target == s.target
    ensures !r.isError ==> r == Many(p, s)
  {
    if s.isError then s
    else
      var m := Many(p, s);
      if |ListOf(m.result)| > 0 then m
      else UpdateError(s, VStr("ParseError 'many1' (position " + NatToString(s.index)
                               + "): Expecting to match at least one value"))
  }

  /**
    The loop of `sepBy`: `st` is where the next value starts, `acc` the values
    so far, `s` the state the whole list started from.
  */
  function SepLoop(sep: Parser, val: Parser, st: State, acc: seq<Val>, s: State): (r: State)
    requires RoundsProceed(sep, val) && !st.isError
    requires !s.isError && st.target == s.target && s.index <= st.index
    ensures !r.isError ==> r.target == s.target && r.result.VList?
    ensures !r.isError && |acc| == 0 && val(st).isError ==> r == s.(result := VList([]))
    ensures Progresses(val) && !r.isError ==> s.index <= r.index
    ensures Advances(val) && Monotone(sep) && !r.isError && (|acc| > 0 || s.index <= |s.target|) ==>
      s.index <= r.index <= |s.target|
    decreases if st.index <= |st.target| then |st.target| + 1 - st.index else 0
  {
    var v := val(st);
    assert RoundProceeded(st, v, sep(v));
    assert Progresses(val) ==> Progressed(st, v);
    assert Advances(val) ==> Advanced(st, v);
    if v.isError then
      if |acc| == 0 then UpdateResult(s, VList([])) else v
    else
      var sp := sep(v);
      assert Monotone(sep) ==> Kept(v, sp);
      if sp.isError then UpdateResult(v, VList(acc + [v.result]))
      else SepLoop(sep, val, sp, acc + [v.result], s)
  }

  /**
    `sepBy(sep)(val)`: values separated by `sep`. If the first value fails the
    result is `[]` at the original state; if a separator fails the list ends
    after the last value; a value failing after a separator fails the whole list.
  */
  function SepBy(sep: Parser, val: Parser, s: State): (r: State)
    requires RoundsProceed(sep, val)
    ensures s.isError ==> r == s
    ensures !s.isError && val(s).isError ==> r == s.(result := VList([]))
    ensures !s.isError && !val(s).isError && sep(val(s)).isError ==>
      r == val(s).(result := VList([val(s).result]))
    ensures !s.isError && !r.isError ==> r.target == s.target && r.result.VList?
    ensures Progresses(val) && !s.isError && !r.isError ==> s.index <= r.index
    ensures Advances(val) && Monotone(sep) ==> Kept(s, r)
  {
    if s.isError then s else SepLoop(sep, val, s, [], s)
  }

  /** `sepBy1(sep)(val)`: `sepBy` that fails, at the original position, on an empty list. */
  function SepBy1(sep: Parser, val: Parser, s: State): (r: State)
    requires RoundsProceed(sep, val)
    ensures s.isError ==> r == s
    ensures !s.isError && SepBy(sep, val, s).isError ==> r == SepBy(sep, val, s)
    ensures !s.isError && !SepBy(sep, val, s).isError ==>
      (r.isError <==> |SepBy(sep, val, s).result.items| == 0)
    ensures !r.isError ==> r == SepBy(sep, val, s)
    ensures r.isError && !SepBy(sep, val, s).isError ==> r.index == s.index
  {
    if s.isError then s
    else
      var out := SepBy(sep, val, s);
      if out.isError then out
      else if |ListOf(out.result)| == 0 then
        UpdateError(s, VStr("ParseError 'sepBy1' (position " + NatToString(s.index)
                            + "): Expecting to match at least one separated value"))
      else out
  }

  // ---------------------------------------------------------------------------
  // Bracketing, scanning and look-ahead

  /** Element `i` of an array result, undefined when out of range. */
  function ElementAt(v: Val, i: nat): Val {
    if v.VList? && i < |v.items| then v.items[i] else VNull
  }

  /** A three-parser `sequenceOf`, spelled out. */
  lemma SequenceOfThree(a: Parser, b: Parser, c: Parser, s: State)
    ensures var r := SequenceOf([a, b, c], s);
      && (!s.isError ==> (!r.isError <==> !a(s).isError && !b(a(s)).isError && !c(b(a(s))).isError))
      && (!s.isError && !r.isError ==>
            r == c(b(a(s))).(result := VList([a(s).result, b(a(s)).result, c(b(a(s))).result])))
      && (!s.isError && r.isError ==>
            r == (if a(s).isError then a(s) else if b(a(s)).isError then b(a(s)) else c(b(a(s)))))
  {
    var ps := [a, b, c];
    assert ps[..1] == [a] && ps[..2] == [a, b] && ps[..3] == ps;
    assert [a][..0] == [] && [a, b][..1] == [a];
    assert Pipe(ps[..1], s) == a(s);
    assert Pipe(ps[..2], s) == b(a(s));
    assert Pipe(ps, s) == c(b(a(s)));
    var r := SequenceOf(ps, s);
    if !s.isError {
      if r.isError {
        var k :| 0 <= k < |ps| && PrefixOk(ps, s, k) && r == Pipe(ps[..k + 1], s);
        if k == 1 {
          assert !Pipe(ps[..1], s).isError;
        } else if k == 2 {
          assert !Pipe(ps[..1], s).isError && !Pipe(ps[..2], s).isError;
        }
      } else {
        assert PrefixOk(ps, s, 3);
        assert !Pipe(ps[..1], s).isError && !Pipe(ps[..2], s).isError;
        assert PipeResults(ps, s, 3) == [a(s).result, b(a(s)).result, c(b(a(s))).result];
      }
    }
  }

  /** `between(l)(rt)(p)`: `sequenceOf([l, p, rt])` keeping only `p`'s result. */
  function Between(l: Parser, rt: Parser, p: Parser, s: State): (r: State)
    ensures s.isError ==> r == s
    ensures !s.isError ==>
      (!r.isError <==> !l(s).isError && !p(l(s)).isError && !rt(p(l(s))).isError)
    ensures !s.isError && !r.isError ==> r == rt(p(l(s))).(result := p(l(s)).result)
    ensures !s.isError && r.isError ==>
      r == (if l(s).isError then l(s) else if p(l(s)).isError then p(l(s)) else rt(p(l(s))))
  {
    SequenceOfThree(l, p, rt, s);
    Map(t => SequenceOf([l, p, rt], t), rs => ElementAt(rs, 1), s)
  }

  /** The state `everythingUntil` offers its terminator at position `j`. */
  function Probe(s: State, j: nat): State
    requires s.index <= j <= |s.target| || j == s.index
  {
    if j == s.index then s else s.(index := j, result := VStr([s.target[j - 1]]))
  }

  function UntilLoop(p: Parser, st: State, ghost s: State): (r: State)
    requires !st.isError && st.target == s.target
    requires s.index <= st.index && (st.index <= |s.target| || st.index == s.index)
    requires st == Probe(s, st.index)
    requires forall j :: s.index <= j < st.index ==> p(Probe(s, j)).isError
    ensures !r.isError ==> s.index <= r.index && (r.index <= |s.target| || r.index == s.index)
    ensures !r.isError ==> r == Probe(s, r.index) && !p(r).isError
    ensures !r.isError ==> forall j :: s.index <= j < r.index ==> p(Probe(s, j)).isError
    ensures r.target == s.target
    ensures r.isError ==> r.index == (if s.index <= |s.target| then |s.target| else s.index)
    ensures r.isError ==> forall j :: s.index <= j <= |s.target| ==> p(Probe(s, j)).isError
    decreases |st.target| - st.index
  {
    var o := p(st);
    if o.isError then
      if st.index < |st.target| then
        UntilLoop(p, UpdateParserState(st, VStr([st.target[st.index]]), st.index + 1), s)
      else
        UpdateError(st, VStr("ParseError 'everythingUntil' (position " + NatToString(st.index)
                             + "): Unexpected end of input."))
    else st
  }

  /**
    `everythingUntil(p)`: consumes one character at a time until `p` matches
    (without consuming `p`'s match), failing at the end of the target; the
    result is the text consumed.
  */
  function EverythingUntil(p: Parser, s: State): (r: State)
    ensures s.isError ==> r == s
    ensures !s.isError && !r.isError ==>
      s.index <= r.index <= |s.target| || r.index == s.index
    ensures !s.isError && !r.isError ==> !p(Probe(s, r.index)).isError
    ensures !s.isError && !r.isError ==>
      forall j :: s.index <= j < r.index ==> p(Probe(s, j)).isError
    ensures !s.isError && !r.isError ==>
      r == Probe(s, r.index).(result := VStr(Slice(s.target, s.index, r.index)))
    ensures !s.isError && r.isError ==>
      forall j :: s.index <= j <= |s.target| ==> p(Probe(s, j)).isError
    ensures !s.isError && r.isError && s.index <= |s.target| ==>
      r.index == |s.target| && r.target == s.target
  {
    if s.isError then s
    else
      var st := UntilLoop(p, s, s);
      if st.isError then st
      else
        UpdateResult(st, VStr(Slice(s.target, s.index, st.index)))
  }

  /**
    `anythingExcept(p)`: consumes one character exactly when `p` fails there;
    at the end of the target it still steps past it with an undefined result.
  */
  function AnythingExcept(p: Parser, s: State): (r: State)
    ensures s.isError ==> r == s
    ensures !s.isError ==> (!r.isError <==> p(s).isError)
    ensures !s.isError && !r.isError ==>
      r == s.(result := CharAt(s.target, s.index), index := s.index + 1)
    ensures !s.isError && r.isError ==> r.index == s.index
  {
    if s.isError then s
    else
      var o := p(s);
      if o.isError then UpdateParserState(s, CharAt(s.target, s.index), s.index + 1)
      else UpdateError(s, VStr("ParseError 'anythingExcept' (position " + NatToString(s.index)
                               + "): Matched '" + Display(o.result) + "' from the exception parser"))
  }

  /** `lookAhead(p)`: `p`'s result without its consumption; a failure propagates. */
  function LookAhead(p: Parser, s: State): (r: State)
    ensures s.isError ==> r == s
    ensures !s.isError && p(s).isError ==> r == p(s)
    ensures !s.isError && !p(s).isError ==> r == s.(result := p(s).result)
  {
    if s.isError then s
    else
      var n := p(s);
      if n.isError then n else UpdateResult(s, n.result)
  }

  /** `possibly(p)`: `p`, or a null result at the original position when `p` fails. */
  function Possibly(p: Parser, s: State): (r: State)
    ensures s.isError ==> r == s
    ensures !s.isError ==> !r.isError
    ensures !s.isError && p(s).isError ==> r == s.(result := VNull)
    ensures !s.isError && !p(s).isError ==> r == p(s)
  {
    if s.isError then s
    else
      var n := p(s);
      if n.isError then UpdateResult(s, VNull) else n
  }

  /** `skip(p)`: runs `p` but keeps the result the input state had. */
  function Skip(p: Parser, s: State): (r: State)
    ensures s.isError ==> r == s
    ensures !s.isError && p(s).isError ==> r == p(s)
    ensures !s.isError && !p(s).isError ==> r == p(s).(result := s.result)
  {
    if s.isError then s
    else
      var n := p(s);
      if n.isError then n else UpdateResult(n, s.result)
  }

  // ---------------------------------------------------------------------------
  // Derived parsers of the library

  const WhitespaceChars := " \n\t\r"

  predicate IsWhitespaceChar(c: char) {
    c in WhitespaceChars
  }

  function WhitespaceChar(s: State): State {
    AnyOfString(WhitespaceChars, s)
  }

  lemma CharClassesAdvance()
    ensures Advances(Digit) && Advances(Letter) && Advances(WhitespaceChar)
  {
    forall s: State ensures Advanced(s, Digit(s)) && Advanced(s, Letter(s)) && Advanced(s, WhitespaceChar(s)) {
    }
  }

  /** `digits`: one or more digits joined into a string. */
  function Digits(s: State): (r: State)
    ensures s.isError ==> r.isError && r.index == s.index
    ensures !s.isError ==> (!r.isError <==> s.index < |s.target| && IsDigitChar(s.target[s.index]))
    ensures Advanced(s, r)
    ensures !r.isError ==> r.result.VStr?
    ensures !s.isError && r.isError ==> r.index == s.index
  {
    CharClassesAdvance();
    ErrorMap(t => Map(u => Many1(Digit, u), JoinVal, t),
             (e: Val, i: nat, d: Val) => VStr(At(i) + "Expecting digits"), s)
  }

  /** `letters`: one or more letters joined into a string. */
  function Letters(s: State): (r: State)
    ensures s.isError ==> r.isError && r.index == s.index
    ensures !s.isError ==> (!r.isError <==> s.index < |s.target| && IsLetterChar(s.target[s.index]))
    ensures Advanced(s, r)
    ensures !r.isError ==> r.result.VStr?
    ensures !s.isError && r.isError ==> r.index == s.index
  {
    CharClassesAdvance();
    ErrorMap(t => Map(u => Many1(Letter, u), JoinVal, t),
             (e: Val, i: nat, d: Val) => VStr(At(i) + "Expecting letters"), s)
  }

  /** `whitespace`: one or more of space, newline, tab, carriage return. */
  function Whitespace(s: State): (r: State)
    ensures s.isError ==> r == s
    ensures !s.isError ==>
      (!r.isError <==> s.index < |s.target| && s.target[s.index] in WhitespaceChars)
    ensures Advanced(s, r)
    ensures !s.isError && r.isError ==> r.index == s.index
  {
    CharClassesAdvance();
    Map(t => Many1(WhitespaceChar, t), JoinVal, s)
  }

  /** `optionalWhitespace`: any run of whitespace, possibly empty; never fails on a non-error input. */
  function OptionalWhitespace(s: State): (r: State)
    ensures s.isError ==> r == s
    ensures !s.isError ==> !r.isError
    ensures Kept(s, r)
  {
    CharClassesAdvance();
    Map(t => Many(WhitespaceChar, t), JoinVal, s)
  }
}

=== FILE: command_text.dfy ===
/**
  What the command parser does with the words it meets: an explicit command
  is a word followed by whitespace, and only `def` and `draw` are known; any
  other text that parses as an object is an implicit `draw`. Also the object
  defaults: no attribute list gives an attribute list without entries.
*/
module CommandText {
  import opened Results
  import opened Syntax
  import opened ParserState
  import opened ParserCore
  import opened Combinators
  import opened CombinatorLaws
  import opened Grammar
  import opened GrammarLaws
  import opened GrammarText

  // ---------------------------------------------------------------------------
  // The command word

  lemma KeywordPartsFound(s: State, e: nat, w: nat)
    requires !s.isError && s.index < |s.target| && IsLetterChar(s.target[s.index])
    requires e == RunEnd(s.target, s.index, IsLetterChar)
    requires e < |s.target| && IsWhitespaceChar(s.target[e])
    requires w == RunEnd(s.target, e, IsWhitespaceChar)
    ensures e <= w <= |s.target|
    ensures KeywordParts(s) == s.(index := w, result := VList([VStr(s.target[s.index..e]), VStr(s.target[e..w])]))
  {
    var letters := Letters(s);
    assert letters == s.(index := e, result := VStr(s.target[s.index..e])) by {
      LettersTakesLongestRun(s);
    }
    var ws := Whitespace(letters);
    assert ws == s.(index := w, result := VStr(s.target[e..w])) by {
      WhitespaceTakesLongestRun(letters);
    }
    SequenceOfTwoSucceeds(Letters, Whitespace, s, letters, ws);
  }

  lemma KeywordPartsNoSpace(s: State, e: nat)
    requires !s.isError && s.index < |s.target| && IsLetterChar(s.target[s.index])
    requires e == RunEnd(s.target, s.index, IsLetterChar)
    requires !(e < |s.target| && IsWhitespaceChar(s.target[e]))
    ensures KeywordParts(s).isError
  {
    var letters := Letters(s);
    assert letters == s.(index := e, result := VStr(s.target[s.index..e])) by {
      LettersTakesLongestRun(s);
    }
    SequenceOfTwo(Letters, Whitespace, s);
  }

  lemma KeywordFound(s: State, e: nat, w: nat)
    requires !s.isError && s.index < |s.target| && IsLetterChar(s.target[s.index])
    requires e == RunEnd(s.target, s.index, IsLetterChar)
    requires e < |s.target| && IsWhitespaceChar(s.target[e])
    requires w == RunEnd(s.target, e, IsWhitespaceChar)
    ensures Keyword(s) == s.(index := w, result := VStr(s.target[s.index..e]))
  {
    KeywordPartsFound(s, e, w);
  }

  /**
    The explicit command word: the whole run of letters at the cursor, which
    must be followed by whitespace; all of that whitespace is consumed, and
    the word alone is the result.
  */
  lemma KeywordText(s: State)
    requires !s.isError
    ensures var t := s.target; var i := s.index;
      !(i < |t| && IsLetterChar(t[i])) ==> Keyword(s).isError
    ensures var t := s.target; var i := s.index;
      i < |t| && IsLetterChar(t[i]) ==>
        var e := RunEnd(t, i, IsLetterChar);
        && (!Keyword(s).isError <==> e < |t| && IsWhitespaceChar(t[e]))
        && (!Keyword(s).isError ==>
              Keyword(s) == s.(index := RunEnd(t, e, IsWhitespaceChar), result := VStr(t[i..e])))
  {
    var t := s.target;
    var i := s.index;
    if i < |t| && IsLetterChar(t[i]) {
      var e := RunEnd(t, i, IsLetterChar);
      if e < |t| && IsWhitespaceChar(t[e]) {
        KeywordPartsFound(s, e, RunEnd(t, e, IsWhitespaceChar));
      } else {
        KeywordPartsNoSpace(s, e);
      }
    } else {
      SequenceOfTwo(Letters, Whitespace, s);
    }
  }

  // ---------------------------------------------------------------------------
  // Explicit and implicit commands

  /** Once a command word is read, the command is decided by that word alone. */
  lemma ExplicitCommand(s: State)
    requires !s.isError && !Keyword(s).isError
    ensures ParseCommand(s) == CommandRest(Keyword(s))
  {
  }

  /**
    A command word other than `def` and `draw` fails the command, where the
    word ended, with the message naming the word.
  */
  lemma UnknownCommandFails(s: State, w: string)
    requires !s.isError && !Keyword(s).isError && Keyword(s).result == VStr(w)
    requires w != "def" && w != "draw"
    ensures ParseCommand(s).isError
    ensures ParseCommand(s).error == VStr("Unrecognized command '" + w + "'")
    ensures ParseCommand(s).index == Keyword(s).index
  {
    var k := Keyword(s);
    assert CommandStart(s) == k;
    CommandRestUnknown(k, w);
  }

  lemma CommandRestUnknown(c: State, w: string)
    requires !c.isError && c.result == VStr(w) && w != "def" && w != "draw"
    ensures var r := CommandRest(c);
      r.isError && r.index == c.index && r.error == VStr("Unrecognized command '" + w + "'")
  {
    assert CommandRest(c) == Fail(UnrecognizedCommand(VStr(w)), c);
    assert Display(VStr(w)) == w;
  }

  /** After the word `def`, the command is a definition holding `defArgsParser`'s arguments. */
  lemma DefCommand(s: State)
    requires !s.isError && !Keyword(s).isError && Keyword(s).result == VStr("def")
    ensures var a := DefArgs(Keyword(s));
      ParseCommand(s) == if a.isError then a else a.(result := VNode(Command("def", NodeOf(a.result))))
  {
  }

  /**
    When no command word can be read, the command is an implicit `draw` of
    the object there, or fails with the failure that got further.
  */
  lemma ImplicitDraw(s: State)
    requires !s.isError && Keyword(s).isError
    ensures var d := DrawArgs(s);
      && (!d.isError ==> ParseCommand(s) == d.(result := VNode(Command("draw", d.result.node))))
      && (d.isError ==> ParseCommand(s) == Furthest(Keyword(s), d))
  {
  }

  /** An angled name can only start an implicit `draw`. */
  lemma AngledNameIsImplicitDraw(s: State)
    requires !s.isError && s.index < |s.target| && s.target[s.index] == '<'
    ensures Keyword(s).isError
  {
    KeywordText(s);
  }

  // ---------------------------------------------------------------------------
  // A rejected program

  const CircleText: string := "circle (r: 5)"

  lemma CircleWord()
    ensures |CircleText| == 13 && IsLetterChar(CircleText[0]) && IsWhitespaceChar(CircleText[6])
    ensures RunEnd(CircleText, 0, IsLetterChar) == 6
    ensures RunEnd(CircleText, 6, IsWhitespaceChar) == 7
    ensures CircleText[0..6] == "circle"
  {
    var t := CircleText;
    assert IsLetterChar(t[0]) && IsLetterChar(t[1]) && IsLetterChar(t[2]);
    assert IsLetterChar(t[3]) && IsLetterChar(t[4]) && IsLetterChar(t[5]);
    assert !IsLetterChar(t[6]) && IsWhitespaceChar(t[6]) && !IsWhitespaceChar(t[7]);
  }

  lemma CircleKeyword(s: State)
    requires s == CreateState(CircleText, VNull)
    ensures Keyword(s) == s.(index := 7, result := VStr("circle"))
  {
    CircleWord();
    KeywordFound(s, 6, 7);
  }

  lemma CircleCommandFails(s: State)
    requires s == CreateState(CircleText, VNull)
    ensures ParseCommand(s).isError && ParseCommand(s).error == VStr("Unrecognized command 'circle'")
  {
    CircleKeyword(s);
    UnknownCommandFails(s, "circle");
    CircleMessage();
  }

  lemma CircleMessage()
    ensures "Unrecognized command '" + "circle" + "'" == "Unrecognized command 'circle'"
  {
  }

  /**
    `circle (r: 5)` reads `circle` as a command word, since whitespace follows
    it, and is rejected as an unknown command; the program is then the empty
    list of commands, with nothing consumed.
  */
  lemma CircleRejected()
    ensures var c := ParseCommand(CreateState(CircleText, VNull));
      c.isError && c.error == VStr("Unrecognized command 'circle'")
    ensures ParseProgram(CircleText).result == VList([])
    ensures ParseProgram(CircleText).index == 0
  {
    var s := CreateState(CircleText, VNull);
    CircleCommandFails(s);
    assert CommandLoop(s, []) == s.(result := VList([]));
  }

  // ---------------------------------------------------------------------------
  // Object defaults

  /**
    An object's attribute list has no entries exactly when no parenthesised
    attribute list parses after the name; a missing block is an empty block.
  */
  lemma ObjectDefaults(s: State)
    requires !s.isError && !VarNameP(s).isError
    ensures var w := OptionalWhitespace(VarNameP(s)); var o := ParseObject(s);
      && !o.isError
      && (o.result.node.attrs == AttrList(Missing) <==> AttributesP(w).isError)
      && (!AttributesP(w).isError ==> o.result.node.attrs == AttributesP(w).result.node)
      && (ParseBlock(OptionalWhitespace(OptAttributes(w))).isError ==> o.result.node.body == Block([]))
  {
    ParseObjectSteps(s);
    var w := OptionalWhitespace(VarNameP(s));
    OptAttributesCases(w);
    OptBlockCases(OptionalWhitespace(OptAttributes(w)));
  }

  lemma OptAttributesCases(w: State)
    requires !w.isError
    ensures var a := AttributesP(w); var r := OptAttributes(w);
      && !r.isError
      && (a.isError ==> r == w.(result := VNull) && !Truthy(r.result))
      && (!a.isError ==> r == a && Truthy(r.result) && r.result.VNode?
                         && r.result.node.AttrList? && r.result.node.entries.Present?)
  {
  }

  lemma OptBlockCases(w: State)
    requires !w.isError
    ensures var b := ParseBlock(w); var r := OptBlock(w);
      && !r.isError
      && (b.isError ==> r == w.(result := VNull) && !Truthy(r.result))
      && (!b.isError ==> r == b)
  {
  }

  /** Off an opening parenthesis there is no attribute list, so an object without one gets none. */
  lemma ObjectWithoutAttributes(s: State)
    requires !s.isError && !VarNameP(s).isError
    requires var w := OptionalWhitespace(VarNameP(s));
      !(w.index < |w.target| && w.target[w.index] == '(')
    ensures !ParseObject(s).isError && ParseObject(s).result.node.attrs == AttrList(Missing)
  {
    ObjectDefaults(s);
  }
}

=== FILE: core.dfy ===
/**
  The `Parser` wrapper: a parser is a total function from state to state.
  Methods of `Parser.prototype` take the wrapped parser as first argument;
  every combinator is applied to the state it runs on.
*/
module ParserCore {
  import opened Syntax
  import opened ParserState

  type Parser = State -> State

  /** `p.map(f)`: transforms the result of a success; never moves the cursor relative to `p`. */
  function Map(p: Parser, f: Val -> Val, s: State): (r: State)
    ensures r.isError == p(s).isError && r.index == p(s).index
    ensures r.target == p(s).target && r.data == p(s).data
    ensures r.isError ==> r == p(s)
    ensures !r.isError ==> r.result == f(p(s).result)
  {
    var n := p(s);
    if n.isError then n else UpdateResult(n, f(n.result))
  }

  /** `p.chain(f)`: on success runs the parser `f` picks from the result; a failure short-circuits. */
  function Chain(p: Parser, f: Val -> Parser, s: State): (r: State)
    ensures p(s).isError ==> r == p(s)
    ensures !p(s).isError ==> r == f(p(s).result)(p(s))
  {
    var n := p(s);
    if n.isError then n else f(n.result)(n)
  }

  /** `p.errorMap(f)`: rewrites the payload of a failure from (error, index, data). */
  function ErrorMap(p: Parser, f: (Val, nat, Val) -> Val, s: State): (r: State)
    ensures r.isError == p(s).isError && r.index == p(s).index && r.result == p(s).result
    ensures !r.isError ==> r == p(s)
    ensures r.isError ==> r == p(s).(error := f(p(s).error, p(s).index, p(s).data))
  {
    var n := p(s);
    if !n.isError then n else UpdateError(n, f(n.error, n.index, n.data))
  }

  /** `p.errorChain(f)`: on failure clears the error flag and continues with the parser `f` picks. */
  function ErrorChain(p: Parser, f: (Val, nat, Val) -> Parser, s: State): (r: State)
    ensures !p(s).isError ==> r == p(s)
    ensures p(s).isError ==>
      r == f(p(s).error, p(s).index, p(s).data)(p(s).(isError := false))
  {
    var n := p(s);
    if n.isError then f(n.error, n.index, n.data)(n.(isError := false)) else n
  }

  /**
    `p.mapFromData(f)`: like `map` with access to the data, but it tests the
    error PAYLOAD's truthiness, not the error flag.
  */
  function MapFromData(p: Parser, f: (Val, Val) -> Val, s: State): (r: State)
    ensures Truthy(p(s).error) ==> r == p(s)
    ensures !Truthy(p(s).error) ==> r == UpdateResult(p(s), f(p(s).result, p(s).data))
  {
    var n := p(s);
    if Truthy(n.error) then n else UpdateResult(n, f(n.result, n.data))
  }

  /** `p.chainFromData(f)`: `chain` with access to the data, with the same payload test. */
  function ChainFromData(p: Parser, f: (Val, Val) -> Parser, s: State): (r: State)
    ensures Truthy(p(s).error) ==> r == p(s)
    ensures !Truthy(p(s).error) ==> r == f(p(s).result, p(s).data)(p(s))
  {
    var n := p(s);
    if Truthy(n.error) then n else f(n.result, n.data)(n)
  }

  /** `p.mapData(f)`: rewrites the data after `p`, whether or not `p` failed. */
  function MapDataAfter(p: Parser, f: Val -> Val, s: State): (r: State)
    ensures r == p(s).(data := f(p(s).data))
  {
    var n := p(s);
    UpdateData(n, f(n.data))
  }

  /** `Parser.of(x)` (also `succeedWith`): sets the result; it does not look at the error flag. */
  function Of(x: Val, s: State): (r: State)
    ensures r.result == x && r.index == s.index && r.isError == s.isError
    ensures r.target == s.target && r.data == s.data && r.error == s.error
  {
    UpdateResult(s, x)
  }

  /** `getData`: the data becomes the result. */
  function GetData(s: State): (r: State)
    ensures s.isError ==> r == s
    ensures !s.isError ==> r == s.(result := s.data)
  {
    if s.isError then s else UpdateResult(s, s.data)
  }

  /** `setData(x)`: replaces the data of a non-error state. */
  function SetData(x: Val, s: State): (r: State)
    ensures s.isError ==> r == s
    ensures !s.isError ==> r == s.(data := x)
  {
    if s.isError then s else UpdateData(s, x)
  }

  /** `mapData(f)`: rewrites the data of a non-error state. */
  function MapData(f: Val -> Val, s: State): (r: State)
    ensures s.isError ==> r == s
    ensures !s.isError ==> r == s.(data := f(s.data))
  {
    if s.isError then s else UpdateData(s, f(s.data))
  }

  /** `withData(p)(x)`: runs `p` with `x` installed as data. */
  function WithData(p: Parser, x: Val, s: State): (r: State)
    ensures s.isError ==> r == s
    ensures !s.isError ==> r == p(s.(data := x))
  {
    Chain(t => SetData(x, t), _ => p, s)
  }

  /** `pipeParsers(ps)`: feeds each parser the state the previous one produced, errors included. */
  function Pipe(ps: seq<Parser>, s: State): State
    decreases |ps|
  {
    if |ps| == 0 then s else ps[|ps| - 1](Pipe(ps[..|ps| - 1], s))
  }

  function Reverse(ps: seq<Parser>): (r: seq<Parser>)
    ensures |r| == |ps|
    ensures forall i :: 0 <= i < |ps| ==> r[i] == ps[|ps| - 1 - i]
  {
    if |ps| == 0 then [] else [ps[|ps| - 1]] + Reverse(ps[..|ps| - 1])
  }

  /** `composeParsers(ps)`: `pipeParsers` over the reversed list. */
  function Compose(ps: seq<Parser>, s: State): State {
    Pipe(Reverse(ps), s)
  }

  /** `decide(f)`: runs the parser `f` picks from the current result. */
  function Decide(f: Val -> Parser, s: State): (r: State)
    ensures s.isError ==> r == s
    ensures !s.isError ==> r == f(s.result)(s)
  {
    if s.isError then s else f(s.result)(s)
  }

  /** `fail(e)`: fails at the current position without consuming anything. */
  function Fail(e: Val, s: State): (r: State)
    ensures r.isError && r.index == s.index && r.target == s.target
    ensures s.isError ==> r == s
    ensures !s.isError ==> r.error == e
  {
    if s.isError then s else UpdateError(s, e)
  }

  /** `either(p)`: never fails on a non-error input; reports `p`'s outcome as a `{isError, value}` record. */
  function Either(p: Parser, s: State): (r: State)
    ensures s.isError ==> r == s
    ensures !s.isError ==> !r.isError && r.index == p(s).index
    ensures !s.isError ==> r.result == VRec(map[
      "isError" := VBool(p(s).isError),
      "value" := if p(s).isError then p(s).error else p(s).result])
  {
    if s.isError then s
    else
      var n := p(s);
      UpdateResult(n.(isError := false), VRec(map[
        "isError" := VBool(n.isError),
        "value" := if n.isError then n.error else n.result]))
  }

  /** `mapTo(f)`: transforms the current result of a non-error state in place. */
  function MapTo(f: Val -> Val, s: State): (r: State)
    ensures s.isError ==> r == s
    ensures !s.isError ==> r == s.(result := f(s.result))
  {
    if s.isError then s else UpdateResult(s, f(s.result))
  }

  /** `errorMapTo(f)`: rewrites the payload of an error state in place. */
  function ErrorMapTo(f: (Val, nat, Val) -> Val, s: State): (r: State)
    ensures !s.isError ==> r == s
    ensures s.isError ==> r == s.(error := f(s.error, s.index, s.data))
  {
    if !s.isError then s else UpdateError(s, f(s.error, s.index, s.data))
  }

  /** `takeRight(l)(r)`: runs both, keeps the right result. */
  function TakeRight(l: Parser, q: Parser, s: State): (r: State)
    ensures l(s).isError ==> r == l(s)
    ensures !l(s).isError ==> r == q(l(s))
  {
    Chain(l, _ => q, s)
  }

  /** `takeLeft(l)(r)`: runs both, keeps the left result. */
  function TakeLeft(l: Parser, q: Parser, s: State): (r: State)
    ensures l(s).isError ==> r == l(s)
    ensures !l(s).isError && q(l(s)).isError ==> r == q(l(s))
    ensures !l(s).isError && !q(l(s)).isError ==> r == q(l(s)).(result := l(s).result)
  {
    Chain(l, x => (t => Map(q, _ => x, t)), s)
  }

  // ---------------------------------------------------------------------------
  // Laws relating the operations above.

  /** Mapping the identity changes nothing. */
  lemma MapIdentity(p: Parser, s: State)
    ensures Map(p, x => x, s) == p(s)
  {
  }

  /** Two maps fuse into one map of the composed function. */
  lemma MapFusion(p: Parser, f: Val -> Val, g: Val -> Val, s: State)
    ensures Map(t => Map(p, f, t), g, s) == Map(p, x => g(f(x)), s)
  {
  }

  /** `map` is `chain` followed by `of`. */
  lemma MapIsChainOf(p: Parser, f: Val -> Val, s: State)
    ensures Map(p, f, s) == Chain(p, x => (t => Of(f(x), t)), s)
  {
  }

  /**
    Left identity: binding `of(x)` feeds `x` straight to `f`; since `of` ignores
    the error flag, an error input only has its result replaced.
  */
  lemma ChainLeftIdentity(x: Val, f: Val -> Parser, s: State)
    ensures !s.isError ==> Chain(t => Of(x, t), f, s) == f(x)(s.(result := x))
    ensures s.isError ==> Chain(t => Of(x, t), f, s) == s.(result := x)
  {
  }

  /** Right identity: binding into `of` gives back the parser. */
  lemma ChainRightIdentity(p: Parser, s: State)
    ensures Chain(p, x => (t => Of(x, t)), s) == p(s)
  {
  }

  /** Associativity of `chain`. */
  lemma ChainAssociative(p: Parser, f: Val -> Parser, g: Val -> Parser, s: State)
    ensures Chain(t => Chain(p, f, t), g, s) == Chain(p, x => (t => Chain(f(x), g, t)), s)
  {
  }

  /** Piping runs the head first: the loop's front-to-back reading of `pipeParsers`. */
  lemma {:induction false} PipeCons(p: Parser, ps: seq<Parser>, s: State)
    ensures Pipe([p] + ps, s) == Pipe(ps, p(s))
    decreases |ps|
  {
    if |ps| == 0 {
      assert ([p] + ps)[..0] == [];
    } else {
      var init := ps[..|ps| - 1];
      assert ([p] + ps)[..|ps|] == [p] + init;
      PipeCons(p, init, s);
    }
  }

  /** Composing two parsers applies the last one first. */
  lemma ComposeTwo(f: Parser, g: Parser, s: State)
    ensures Compose([f, g], s) == f(g(s))
  {
    var r := Reverse([f, g]);
    assert r == [g, f];
    assert r[..1] == [g];
    assert r[..1][..0] == [];
    assert Pipe(r[..1], s) == g(s);
    assert Pipe(r, s) == f(Pipe(r[..1], s));
  }

  // ---------------------------------------------------------------------------
  // Laws of the error and data operations.

  /** `errorMap` with the function that keeps the error changes nothing. */
  lemma ErrorMapIdentity(p: Parser, s: State)
    ensures ErrorMap(p, (e, i, d) => e, s) == p(s)
  {
  }

  /** Two error maps fuse into one: the second sees the same position and data as the first. */
  lemma ErrorMapFusion(p: Parser, f: (Val, nat, Val) -> Val, g: (Val, nat, Val) -> Val, s: State)
    ensures ErrorMap(t => ErrorMap(p, f, t), g, s) == ErrorMap(p, (e: Val, i: nat, d: Val) => g(f(e, i, d), i, d), s)
  {
  }

  /** `errorChain` into a parser that fails again with the same error gives back the failure. */
  lemma ErrorChainRethrow(p: Parser, s: State)
    ensures ErrorChain(p, (e, i, d) => (t => Fail(e, t)), s) == p(s)
  {
  }

  /**
    `errorChain` into `of(x)` recovers: the result is never an error, stays
    where `p` stopped, and carries `x` exactly when `p` failed.
  */
  lemma ErrorChainRecover(p: Parser, x: Val, s: State)
    ensures var r := ErrorChain(p, (e, i, d) => (t => Of(x, t)), s);
      && !r.isError
      && r.index == p(s).index && r.target == p(s).target && r.data == p(s).data
      && (p(s).isError ==> r.result == x)
      && (!p(s).isError ==> r == p(s))
  {
  }

  /** `mapFromData` is `chainFromData` into `of`, as `map` is `chain` into `of`. */
  lemma MapFromDataIsChainFromDataOf(p: Parser, f: (Val, Val) -> Val, s: State)
    ensures MapFromData(p, f, s) == ChainFromData(p, (x, d) => (t => Of(f(x, d), t)), s)
  {
  }

  /** On a success with a falsy error payload, `mapFromData` is `map` with the data fixed. */
  lemma MapFromDataOnSuccess(p: Parser, f: (Val, Val) -> Val, s: State)
    requires !p(s).isError && !Truthy(p(s).error)
    ensures MapFromData(p, f, s) == Map(p, x => f(x, p(s).data), s)
  {
  }

  /**
    A failure whose error payload is falsy is still mapped, where `map` would
    pass it through: the error flag stays set and the result is rewritten.
  */
  lemma MapFromDataFalsyFailure(p: Parser, f: (Val, Val) -> Val, g: Val -> Val, s: State)
    requires p(s).isError && !Truthy(p(s).error)
    ensures var r := MapFromData(p, f, s);
      r.isError && r.index == p(s).index && r.result == f(p(s).result, p(s).data)
    ensures Map(p, g, s) == p(s)
  {
  }

  /** On a success with a falsy error payload, `chainFromData` is `chain` with the data fixed. */
  lemma ChainFromDataOnSuccess(p: Parser, f: (Val, Val) -> Parser, s: State)
    requires !p(s).isError && !Truthy(p(s).error)
    ensures ChainFromData(p, f, s) == Chain(p, x => f(x, p(s).data), s)
  {
  }

  /** A failure whose error payload is truthy stops `chainFromData`, whatever parser `f` picks. */
  lemma ChainFromDataStops(p: Parser, f: (Val, Val) -> Parser, g: (Val, Val) -> Parser, s: State)
    requires Truthy(p(s).error)
    ensures ChainFromData(p, f, s) == ChainFromData(p, g, s) == p(s)
  {
  }

  /**
    `p.mapData(f)` is `mapData(f)` after `p` on a success; unlike `mapData`,
    it rewrites the data of a failure too, keeping the failure.
  */
  lemma MapDataAfterIsMapData(p: Parser, f: Val -> Val, s: State)
    ensures !p(s).isError ==> MapDataAfter(p, f, s) == MapData(f, p(s))
    ensures p(s).isError ==>
      MapDataAfter(p, f, s).isError && MapDataAfter(p, f, s).data == f(p(s).data) && MapData(f, p(s)) == p(s)
  {
  }

  /** Two `p.mapData` steps fuse into one of the composed function. */
  lemma MapDataAfterFusion(p: Parser, f: Val -> Val, g: Val -> Val, s: State)
    ensures MapDataAfter(t => MapDataAfter(p, f, t), g, s) == MapDataAfter(p, x => g(f(x)), s)
  {
  }

  /** Setting the data and reading it back yields the value set, at the same position. */
  lemma SetThenGetData(x: Val, s: State)
    ensures var r := Chain(t => SetData(x, t), _ => GetData, s);
      && (s.isError ==> r == s)
      && (!s.isError ==> !r.isError && r.result == x && r.data == x && r.index == s.index)
  {
  }

  /** The last `setData` wins. */
  lemma SetDataTwice(x: Val, y: Val, s: State)
    ensures SetData(y, SetData(x, s)) == SetData(y, s)
  {
  }

  /** `getData` is `of` the current data, and moves nothing. */
  lemma GetDataIsOfData(s: State)
    ensures !s.isError ==> GetData(s) == Of(s.data, s)
    ensures GetData(s).index == s.index && GetData(s).data == s.data
  {
  }

  /** `mapData(f)` is `setData` of `f` applied to the current data. */
  lemma MapDataIsSetData(f: Val -> Val, s: State)
    ensures MapData(f, s) == SetData(f(s.data), s)
  {
  }

  /** `withData(getData)(x)` reads back `x`. */
  lemma WithDataGetData(x: Val, s: State)
    ensures !s.isError ==> WithData(GetData, x, s).result == x
  {
  }

  /** `decide(f)` is `chain` from the parser that does nothing. */
  lemma DecideIsChain(f: Val -> Parser, s: State)
    ensures Decide(f, s) == Chain(t => t, f, s)
  {
  }

  /** `decide` after `of(x)` runs the parser `f` picks for `x`. */
  lemma DecideAfterOf(x: Val, f: Val -> Parser, s: State)
    requires !s.isError
    ensures Decide(f, Of(x, s)) == f(x)(s.(result := x))
  {
  }

  /** `mapTo(f)` is `map(f)` of the parser that does nothing. */
  lemma MapToIsMap(f: Val -> Val, s: State)
    ensures MapTo(f, s) == Map(t => t, f, s)
  {
  }

  /** `mapTo(f)` after `of(x)` is `of(f(x))`. */
  lemma MapToAfterOf(f: Val -> Val, x: Val, s: State)
    requires !s.isError
    ensures MapTo(f, Of(x, s)) == Of(f(x), s)
  {
  }

  /** `errorMapTo(f)` is `errorMap(f)` of the parser that does nothing. */
  lemma ErrorMapToIsErrorMap(f: (Val, nat, Val) -> Val, s: State)
    ensures ErrorMapTo(f, s) == ErrorMap(t => t, f, s)
  {
  }

  /** `errorMapTo(f)` after `fail(e)` is a failure with `f`'s rewriting of `e`, at the same position. */
  lemma ErrorMapToAfterFail(f: (Val, nat, Val) -> Val, e: Val, s: State)
    requires !s.isError
    ensures ErrorMapTo(f, Fail(e, s)) == Fail(f(e, s.index, s.data), s)
  {
  }
}

=== FILE: grammar.dfy ===
/**
  The Art grammar: names, numbers, strings, operators, values, operations,
  mappers, attributes, objects, blocks and commands. Every parser constant of
  the grammar is a named function here; the rules that refer to each other
  (value, operation and mapper; command list, command, object and block) are
  written out as mutually recursive functions over the number of characters
  left, and the laws module shows they agree with their combinator reading.
*/
module Grammar {
  import opened Results
  import opened Syntax
  import opened ParserState
  import opened ParserCore
  import opened Combinators
  import opened CombinatorLaws

  /** Characters left to consume: what the recursive rules decrease. */
  function Remaining(s: State): nat {
    if s.index <= |s.target| then |s.target| - s.index else 0
  }

  // ---------------------------------------------------------------------------
  // Punctuation

  function LAngle(s: State): (r: State) ensures Advanced(s, r) { Char('<', s) }
  function RAngle(s: State): (r: State) ensures Advanced(s, r) { Char('>', s) }
  function LParen(s: State): (r: State) ensures Advanced(s, r) { Char('(', s) }
  function RParen(s: State): (r: State) ensures Advanced(s, r) { Char(')', s) }
  function LCurly(s: State): (r: State) ensures Advanced(s, r) { Char('{', s) }
  function RCurly(s: State): (r: State) ensures Advanced(s, r) { Char('}', s) }
  function Quote(s: State): (r: State) ensures Advanced(s, r) { Char('\'', s) }
  function Dot(s: State): (r: State) ensures Advanced(s, r) { Char('.', s) }
  function Arrow(s: State): (r: State) ensures Advanced(s, r) { Str("=>", s) }
  function Colon(s: State): (r: State) ensures Advanced(s, r) { Str(":", s) }

  /** The separator of parameter and attribute lists: a comma with optional whitespace around it. */
  function ListSep(s: State): (r: State)
    ensures Kept(s, r)
  {
    SequenceOfKept([OptionalWhitespace, Comma, OptionalWhitespace], s);
    SequenceOf([OptionalWhitespace, Comma, OptionalWhitespace], s)
  }

  // ---------------------------------------------------------------------------
  // Names

  predicate IsNameChar(c: char) {
    IsLetterChar(c) || IsDigitChar(c) || c in "$#- "
  }

  predicate IsAlnumChar(c: char) {
    IsLetterChar(c) || IsDigitChar(c)
  }

  function NameSymbol(s: State): (r: State)
    ensures Advanced(s, r)
  {
    AnyOfString("$#- ", s)
  }

  lemma RunParsersAdvance()
    ensures Advances(Letters) && Advances(Digits) && Advances(NameSymbol)
  {
    RunParsersChunks();
    ChunkAdvances(Letters, IsLetterChar);
    ChunkAdvances(Digits, IsDigitChar);
  }

  /** One piece of an angled name: letters, digits or one of `$#- `. */
  function NameChunk(s: State): (r: State)
    ensures Advanced(s, r)
  {
    RunParsersAdvance();
    ChoiceAdvanced([Letters, Digits, NameSymbol], s);
    Choice([Letters, Digits, NameSymbol], s)
  }

  function NameChunks(s: State): (r: State)
    ensures Kept(s, r)
  {
    Many(NameChunk, s)
  }

  function NameBody(s: State): (r: State)
    ensures Kept(s, r)
  {
    Map(NameChunks, JoinVal, s)
  }

  /** `<...>`: a name that may hold digits, spaces and `$#-`. */
  function AngledName(s: State): (r: State)
    ensures Advanced(s, r)
  {
    Between(LAngle, RAngle, NameBody, s)
  }

  function FirstLetter(s: State): (r: State)
    ensures Advanced(s, r)
  {
    ChoiceAdvanced([Letter], s);
    Choice([Letter], s)
  }

  /** One piece of the rest of an identifier: a letter or a run of digits. */
  function IdentChunk(s: State): (r: State)
    ensures Advanced(s, r)
  {
    RunParsersAdvance();
    CharClassesAdvance();
    ChoiceAdvanced([Letter, Digits], s);
    Choice([Letter, Digits], s)
  }

  function IdentChunks(s: State): (r: State)
    ensures Kept(s, r)
  {
    Many(IdentChunk, s)
  }

  function IdentRest(s: State): (r: State)
    ensures Kept(s, r)
  {
    Map(IdentChunks, JoinVal, s)
  }

  function IdentParts(s: State): (r: State)
    ensures Advanced(s, r)
  {
    SequenceOfAdvanced([FirstLetter, IdentRest], s);
    SequenceOf([FirstLetter, IdentRest], s)
  }

  /** A letter followed by letters and digits. */
  function IdentName(s: State): (r: State)
    ensures Advanced(s, r)
  {
    Map(IdentParts, JoinVal, s)
  }

  function NameAlternatives(s: State): (r: State)
    ensures Advanced(s, r)
  {
    ChoiceAdvanced([AngledName, IdentName], s);
    Choice([AngledName, IdentName], s)
  }

  function MkVarName(r: Val): Val {
    VNode(VarName(Display(r)))
  }

  /** `varNameParser`: an angled name or an identifier, as a `var-name` node. */
  function VarNameP(s: State): (r: State)
    ensures Advanced(s, r)
    ensures !r.isError ==> r.result.VNode? && r.result.node.VarName?
  {
    Map(NameAlternatives, MkVarName, s)
  }

  // ---------------------------------------------------------------------------
  // Numbers, strings and operators

  function FractionParts(s: State): (r: State)
    ensures Advanced(s, r)
  {
    CharClassesAdvance();
    SequenceOfAdvanced([Dot, Digits], s);
    SequenceOf([Dot, Digits], s)
  }

  /** `.` followed by digits, joined into one string. */
  function Fraction(s: State): (r: State)
    ensures Advanced(s, r)
  {
    Map(FractionParts, JoinVal, s)
  }

  function OptFraction(s: State): (r: State)
    ensures Kept(s, r)
  {
    Possibly(Fraction, s)
  }

  function NumberParts(s: State): (r: State)
    ensures Advanced(s, r)
  {
    SequenceOfAdvanced([Digits, OptFraction], s);
    SequenceOf([Digits, OptFraction], s)
  }

  function NumberText(s: State): (r: State)
    ensures Advanced(s, r)
  {
    Map(NumberParts, JoinVal, s)
  }

  function MkNumber(r: Val): Val {
    VNode(NumLit(DecimalValue(Display(r))))
  }

  /** `numberParser`: digits with an optional fraction, as a `number` node. */
  function NumberP(s: State): (r: State)
    ensures Advanced(s, r)
  {
    Map(NumberText, MkNumber, s)
  }

  function StringBody(s: State): (r: State)
    ensures Kept(s, r)
  {
    EverythingUntil(Quote, s)
  }

  function Quoted(s: State): (r: State)
    ensures Advanced(s, r)
  {
    Between(Quote, Quote, StringBody, s)
  }

  function MkString(r: Val): Val {
    VNode(StrLit(Display(r)))
  }

  /** `stringParser`: text between single quotes, as a `string` node. */
  function StringP(s: State): (r: State)
    ensures Advanced(s, r)
  {
    Map(Quoted, MkString, s)
  }

  function Plus(s: State): (r: State) ensures Advanced(s, r) { Str("+", s) }
  function Minus(s: State): (r: State) ensures Advanced(s, r) { Str("-", s) }
  function Times(s: State): (r: State) ensures Advanced(s, r) { Str("*", s) }
  function Slash(s: State): (r: State) ensures Advanced(s, r) { Str("/", s) }

  function OperatorAlternatives(s: State): (r: State)
    ensures Advanced(s, r)
  {
    ChoiceAdvanced([Plus, Minus, Times, Slash], s);
    Choice([Plus, Minus, Times, Slash], s)
  }

  function MkOperator(r: Val): Val {
    VNode(Operator(Display(r)))
  }

  /** `operatorParser`: one of `+ - * /`, as an `operator` node. */
  function OperatorP(s: State): (r: State)
    ensures Advanced(s, r)
  {
    Map(OperatorAlternatives, MkOperator, s)
  }

  // ---------------------------------------------------------------------------
  // Mapper parameters

  function Singleton(r: Val): Val {
    VList([r])
  }

  function SingleParam(s: State): (r: State)
    ensures Advanced(s, r)
  {
    Map(VarNameP, Singleton, s)
  }

  function ParamList(s: State): (r: State)
    ensures Kept(s, r)
  {
    AdvancesRoundsProceed(ListSep, VarNameP);
    SepBy(ListSep, VarNameP, s)
  }

  function ParenParams(s: State): (r: State)
    ensures Advanced(s, r)
  {
    Between(LParen, RParen, ParamList, s)
  }

  /** A single name, or a parenthesised comma-separated list of names. */
  function MapperParams(s: State): (r: State)
    ensures Advanced(s, r)
  {
    ChoiceAdvanced([SingleParam, ParenParams], s);
    Choice([SingleParam, ParenParams], s)
  }

  /** The alternatives of a value after the mapper. */
  const ValueRest: seq<Parser> := [NumberP, StringP, VarNameP]

  lemma ValueRestAdvance()
    ensures forall k :: 0 <= k < |ValueRest| ==> Advances(ValueRest[k])
  {
    assert Advances(NumberP) && Advances(StringP) && Advances(VarNameP);
  }

  // ---------------------------------------------------------------------------
  // Values, operations and mappers

  /**
    `valueParser`: a mapper, a number, a string or a name, tried in that order,
    wrapped in a `value` node. An operation is not a value.
  */
  function ParseValue(s: State): (r: State)
    ensures Advanced(s, r)
    ensures s.isError ==> r == s
    decreases Remaining(s), 1
  {
    if s.isError then s
    else
      var m := ParseMapper(s);
      if !m.isError then UpdateResult(m, VNode(Value(NodeOf(m.result))))
      else
        ValueRestAdvance();
        ChoiceLoopAdvanced(ValueRest, 0, s, m);
        var c := ChoiceLoop(ValueRest, 0, s, m);
        if c.isError then c
        else UpdateResult(c, VNode(Value(NodeOf(c.result))))
  }

  /** `operationParser`: value, operator, value, with optional whitespace between. */
  function ParseOperation(s: State): (r: State)
    ensures Advanced(s, r)
    ensures s.isError ==> r == s
    decreases Remaining(s), 2
  {
    if s.isError then s
    else
      var left := ParseValue(s);
      if left.isError then left
      else
        var op := OperatorP(OptionalWhitespace(left));
        if op.isError then op
        else
          var right := ParseValue(OptionalWhitespace(op));
          if right.isError then right
          else UpdateResult(right, VNode(Operation(NodeOf(left.result), NodeOf(op.result), NodeOf(right.result))))
  }

  /** Four steps that each keep or advance the cursor, the first one advancing, make progress. */
  lemma StepsProgress(s: State, a: State, b: State, c: State, d: State)
    requires !s.isError && !a.isError && !c.isError
    requires Advanced(s, a) && Kept(a, b) && Advanced(b, c) && Kept(c, d)
    requires !b.isError && !d.isError
    ensures d.target == s.target && s.index < d.index <= |s.target|
    ensures Remaining(d) < Remaining(s)
  {
  }

  /** `mapperParser`: parameters, `=>`, then an operation as the body. */
  function ParseMapper(s: State): (r: State)
    ensures Advanced(s, r)
    ensures s.isError ==> r == s
    decreases Remaining(s), 0
  {
    if s.isError then s
    else
      var params := MapperParams(s);
      if params.isError then params
      else
        var gap := OptionalWhitespace(params);
        var arrow := Arrow(gap);
        if arrow.isError then arrow
        else
          var w := OptionalWhitespace(arrow);
          StepsProgress(s, params, gap, arrow, w);
          var body := ParseOperation(w);
          if body.isError then body
          else UpdateResult(body, VNode(Mapper(NodesOf(params.result), NodeOf(body.result))))
  }

  // ---------------------------------------------------------------------------
  // Attributes

  function MkAttribute(rs: Val): Val {
    VNode(Attribute(Display(ElementAt(rs, 0)), NodeOf(ElementAt(rs, 4))))
  }

  function AttributeParts(s: State): (r: State)
    ensures Advanced(s, r)
  {
    RunParsersAdvance();
    SequenceOfAdvanced([Letters, OptionalWhitespace, Colon, OptionalWhitespace, ParseValue], s);
    SequenceOf([Letters, OptionalWhitespace, Colon, OptionalWhitespace, ParseValue], s)
  }

  /** `attributeParser`: `name: value`, as an `attribute` node. */
  function AttributeP(s: State): (r: State)
    ensures Advanced(s, r)
  {
    Map(AttributeParts, MkAttribute, s)
  }

  function AttributeSeq(s: State): (r: State)
    ensures Kept(s, r)
  {
    AdvancesRoundsProceed(ListSep, AttributeP);
    SepBy(ListSep, AttributeP, s)
  }

  function ParenAttributes(s: State): (r: State)
    ensures Advanced(s, r)
  {
    Between(LParen, RParen, AttributeSeq, s)
  }

  function MkAttrList(rs: Val): Val {
    VNode(AttrList(Present(NodesOf(rs))))
  }

  /** `attributesParser`: a parenthesised list of attributes, as an `attribute-list` node. */
  function AttributesP(s: State): (r: State)
    ensures Advanced(s, r)
  {
    Map(ParenAttributes, MkAttrList, s)
  }

  function OptAttributes(s: State): (r: State)
    ensures s.isError ==> r == s
    ensures !s.isError ==> !r.isError
    ensures Kept(s, r)
  {
    Possibly(AttributesP, s)
  }

  // ---------------------------------------------------------------------------
  // Commands, objects and blocks

  function KeywordParts(s: State): (r: State)
    ensures Advanced(s, r)
  {
    RunParsersAdvance();
    CharClassesAdvance();
    SequenceOfAdvanced([Letters, Whitespace], s);
    SequenceOf([Letters, Whitespace], s)
  }

  function First(rs: Val): Val {
    ElementAt(rs, 0)
  }

  /** The explicit-command alternative: a word followed by whitespace; the word is the result. */
  function Keyword(s: State): (r: State)
    ensures Advanced(s, r)
  {
    Map(KeywordParts, First, s)
  }

  /**
    `objectParser`: a name, optional attributes and an optional block. A missing
    attribute list becomes an `attribute-list` node whose payload has no
    `value` field, a missing block an empty `block` node.
  */
  function ParseObject(s: State): (r: State)
    ensures Advanced(s, r)
    ensures s.isError ==> r == s
    ensures !r.isError ==> r.result.VNode? && r.result.node.Object?
    decreases Remaining(s), 0
  {
    if s.isError then s
    else
      var name := VarNameP(s);
      if name.isError then name
      else
        var attrs := OptAttributes(OptionalWhitespace(name));
        var beforeBlock := OptionalWhitespace(attrs);
        var b := ParseBlock(beforeBlock);
        var last := if b.isError then UpdateResult(beforeBlock, VNull) else b;
        UpdateResult(last, ObjectNode(name.result, attrs.result, last.result))
  }

  /** The `object` node of lines 891-897: a missing attribute list or block takes its default. */
  function ObjectNode(name: Val, attrs: Val, block: Val): (v: Val)
    ensures v.VNode? && v.node.Object?
    ensures v.node.objName == NodeOf(name)
    ensures !Truthy(attrs) ==> v.node.attrs == AttrList(Missing)
    ensures !Truthy(block) ==> v.node.body == Block([])
  {
    VNode(Object(
      NodeOf(name),
      if Truthy(attrs) then NodeOf(attrs) else AttrList(Missing),
      if Truthy(block) then NodeOf(block) else Block([])))
  }

  /** `blockParser`: a command list between curly brackets, as a `block` node. */
  function ParseBlock(s: State): (r: State)
    ensures Advanced(s, r)
    ensures s.isError ==> r == s
    decreases Remaining(s), 0
  {
    if s.isError then s
    else
      var open := LCurly(s);
      if open.isError then open
      else
        var list := ParseCommandList(open);
        var close := RCurly(list);
        if close.isError then close
        else UpdateResult(close, VNode(Block(NodesOf(list.result))))
  }

  /** `drawArgsParser`: an object, as a one-element `args` node. */
  function DrawArgs(s: State): (r: State)
    ensures Advanced(s, r)
    ensures s.isError ==> r == s
    ensures !r.isError ==> r.result.VNode? && r.result.node.Args?
    decreases Remaining(s), 1
  {
    var o := ParseObject(s);
    if o.isError then o else UpdateResult(o, VNode(Args([NodeOf(o.result)])))
  }

  /** `defArgsParser`: a name, whitespace and an object, as a two-element `args` node. */
  function DefArgs(s: State): (r: State)
    ensures Advanced(s, r)
    ensures s.isError ==> r == s
    decreases Remaining(s), 1
  {
    if s.isError then s
    else
      var name := VarNameP(s);
      if name.isError then name
      else
        var ws := Whitespace(name);
        if ws.isError then ws
        else
          assert s.index < ws.index <= |s.target|;
          var o := ParseObject(ws);
          if o.isError then o
          else UpdateResult(o, VNode(Args([NodeOf(name.result), NodeOf(o.result)])))
  }

  /** The message the command parser fails with on a keyword it does not know. */
  function UnrecognizedCommand(key: Val): Val {
    VStr("Unrecognized command '" + Display(key) + "'")
  }

  /**
    The `choice` `commandParser` starts with: an explicit command word
    followed by whitespace, or else the arguments of an implicit `draw`.
  */
  function CommandStart(s: State): (r: State)
    ensures Advanced(s, r)
    ensures s.isError ==> r == s
    decreases Remaining(s), 2
  {
    if s.isError then s
    else
      var k := Keyword(s);
      if !k.isError then k
      else
        var d := DrawArgs(s);
        if !d.isError then d else Furthest(k, d)
  }

  /**
    What `commandParser` chains into after its start `c`: implicit-draw
    arguments become a `draw` command; after the word `def` or `draw` the
    matching arguments parser runs; any other word fails.
  */
  function CommandRest(c: State): (r: State)
    requires !c.isError
    ensures Kept(c, r)
    decreases Remaining(c), 2
  {
    if c.result.VNode? && c.result.node.Args? then
      Of(VNode(Command("draw", c.result.node)), c)
    else if c.result == VStr("def") then
      var a := DefArgs(c);
      if a.isError then a else UpdateResult(a, VNode(Command("def", NodeOf(a.result))))
    else if c.result == VStr("draw") then
      var a := DrawArgs(c);
      if a.isError then a else UpdateResult(a, VNode(Command("draw", NodeOf(a.result))))
    else
      Fail(UnrecognizedCommand(c.result), c)
  }

  /** `commandParser`: the start, chained into the rest. */
  function ParseCommand(s: State): (r: State)
    ensures Advanced(s, r)
    ensures s.isError ==> r == s
    decreases Remaining(s), 3
  {
    var c := CommandStart(s);
    if c.isError then c else CommandRest(c)
  }

  /** The loop of `many(commandParser)`. */
  function CommandLoop(st: State, acc: seq<Val>): (r: State)
    requires !st.isError
    ensures !r.isError && r.target == st.target && st.index <= r.index
    ensures Kept(st, r)
    decreases Remaining(st), 4
  {
    var o := ParseCommand(st);
    if o.isError then UpdateResult(st, VList(acc))
    else if o.index >= |o.target| then UpdateResult(o, VList(acc + [o.result]))
    else CommandLoop(o, acc + [o.result])
  }

  /** `commandListParser`: as many commands as parse. */
  function ParseCommandList(s: State): (r: State)
    ensures Kept(s, r)
    ensures s.isError ==> r == s
    ensures !s.isError ==> !r.isError
    decreases Remaining(s), 5
  {
    if s.isError then s else CommandLoop(s, [])
  }

  /** Parses a whole program text from the start; the result holds the command nodes. */
  function ParseProgram(text: string): (r: State)
    ensures r.target == text
    ensures !r.isError
  {
    ParseCommandList(CreateState(text, VNull))
  }
}

=== FILE: grammar_laws.dfy ===
/**
  Laws of the Art grammar. The first part shows that each recursive rule,
  written out by hand so that it terminates, is the combinator expression of
  the grammar: `valueParser` a `choice`, `operationParser` and `mapperParser`
  a `sequenceOf`, `commandListParser` a `many`, and so on. The second part
  states, in terms of the target text, what the leaf parsers accept and what
  they produce; the third part is about commands.
*/
module GrammarLaws {
  import opened Results
  import opened Syntax
  import opened ParserState
  import opened ParserCore
  import opened Combinators
  import opened CombinatorLaws
  import opened Grammar

  // ---------------------------------------------------------------------------
  // The rules as combinator expressions

  /** The alternatives of `valueParser`, mapper first. */
  function ValueChoice(s: State): State {
    Choice([ParseMapper] + ValueRest, s)
  }

  function MkValue(r: Val): Val {
    VNode(Value(NodeOf(r)))
  }

  /** `valueParser`'s own steps: the mapper, else the loop over the other alternatives. */
  lemma ParseValueSteps(s: State)
    requires !s.isError
    ensures ParseValue(s) ==
      var m := ParseMapper(s);
      if !m.isError then m.(result := MkValue(m.result))
      else
        var k := ChoiceLoop(ValueRest, 0, s, m);
        if k.isError then k else k.(result := MkValue(k.result))
  {
  }

  /** `valueParser` is a `choice` of mapper, number, string and name, mapped to a `value` node. */
  lemma ParseValueIsChoice(s: State)
    ensures ParseValue(s) == Map(ValueChoice, MkValue, s)
  {
    if !s.isError {
      ParseValueSteps(s);
      MapChoiceCons(ValueChoice, ParseMapper, ValueRest, MkValue, s);
    }
  }

  function OperationSeq(s: State): State {
    SequenceOf([ParseValue, OptionalWhitespace, OperatorP, OptionalWhitespace, ParseValue], s)
  }

  function MkOperation(rs: Val): Val {
    VNode(Operation(NodeOf(ElementAt(rs, 0)), NodeOf(ElementAt(rs, 2)), NodeOf(ElementAt(rs, 4))))
  }

  /** `operationParser`'s own steps, spelled out case by case. */
  lemma ParseOperationSteps(s: State)
    requires !s.isError
    ensures var left := ParseValue(s);
      left.isError ==> ParseOperation(s) == left
    ensures var left := ParseValue(s); var op := OperatorP(OptionalWhitespace(left));
      !left.isError && op.isError ==> ParseOperation(s) == op
    ensures var left := ParseValue(s); var op := OperatorP(OptionalWhitespace(left));
      var right := ParseValue(OptionalWhitespace(op));
      !left.isError && !op.isError ==>
        ParseOperation(s) == if right.isError then right else
          right.(result := VNode(Operation(NodeOf(left.result), NodeOf(op.result), NodeOf(right.result))))
  {
  }

  /** `operationParser`'s steps with the value parser left open. */
  function OperationWith(pv: Parser, s: State): State {
    if s.isError then s
    else
      var left := pv(s);
      if left.isError then left
      else
        var op := OperatorP(OptionalWhitespace(left));
        if op.isError then op
        else
          var right := pv(OptionalWhitespace(op));
          if right.isError then right
          else right.(result := VNode(Operation(NodeOf(left.result), NodeOf(op.result), NodeOf(right.result))))
  }

  lemma OperationWithIsSequence(pv: Parser, q: Parser, s: State)
    requires q(s) == SequenceOf([pv, OptionalWhitespace, OperatorP, OptionalWhitespace, pv], s)
    ensures Map(q, MkOperation, s) == OperationWith(pv, s)
  {
    if !s.isError {
      SequenceOfFive(pv, OptionalWhitespace, OperatorP, OptionalWhitespace, pv, s);
      var left := pv(s);
      var w1 := OptionalWhitespace(left);
      var op := OperatorP(w1);
      var w2 := OptionalWhitespace(op);
      var rs := VList([left.result, w1.result, op.result, w2.result, pv(w2).result]);
      assert MkOperation(rs) == VNode(Operation(NodeOf(left.result), NodeOf(op.result), NodeOf(pv(w2).result)));
    }
  }

  /** `operationParser` is the five-part `sequenceOf` mapped to an `operation` node. */
  lemma ParseOperationIsSequence(s: State)
    ensures ParseOperation(s) == Map(OperationSeq, MkOperation, s)
  {
    ParseOperationUnfold(s);
    OperationWithIsSequence(ParseValue, OperationSeq, s);
  }

  lemma ParseOperationUnfold(s: State)
    ensures ParseOperation(s) == OperationWith(ParseValue, s)
  {
    if !s.isError {
      ParseOperationSteps(s);
    }
  }

  function MapperSeq(s: State): State {
    SequenceOf([MapperParams, OptionalWhitespace, Arrow, OptionalWhitespace, ParseOperation], s)
  }

  function MkMapper(rs: Val): Val {
    VNode(Mapper(NodesOf(ElementAt(rs, 0)), NodeOf(ElementAt(rs, 4))))
  }

  /** `mapperParser`'s steps with the body parser left open. */
  function MapperWith(mp: Parser, ws: Parser, ar: Parser, po: Parser, s: State): State {
    if s.isError then s
    else
      var params := mp(s);
      if params.isError then params
      else
        var arrow := ar(ws(params));
        if arrow.isError then arrow
        else
          var body := po(ws(arrow));
          if body.isError then body
          else body.(result := VNode(Mapper(NodesOf(params.result), NodeOf(body.result))))
  }

  lemma MapperWithIsSequence(mp: Parser, ws: Parser, ar: Parser, po: Parser, q: Parser, s: State)
    requires q(s) == SequenceOf([mp, ws, ar, ws, po], s)
    requires forall t: State :: !t.isError ==> !ws(t).isError
    ensures Map(q, MkMapper, s) == MapperWith(mp, ws, ar, po, s)
  {
    if !s.isError {
      SequenceOfFive(mp, ws, ar, ws, po, s);
      var params := mp(s);
      var w1 := ws(params);
      var arrow := ar(w1);
      var w2 := ws(arrow);
      var rs := VList([params.result, w1.result, arrow.result, w2.result, po(w2).result]);
      assert MkMapper(rs) == VNode(Mapper(NodesOf(params.result), NodeOf(po(w2).result)));
    }
  }

  /** `mapperParser`'s own steps. */
  lemma ParseMapperSteps(s: State)
    requires !s.isError
    ensures var params := MapperParams(s);
      ParseMapper(s) ==
        if params.isError then params
        else
          var arrow := Arrow(OptionalWhitespace(params));
          if arrow.isError then arrow
          else
            var body := ParseOperation(OptionalWhitespace(arrow));
            if body.isError then body
            else body.(result := VNode(Mapper(NodesOf(params.result), NodeOf(body.result))))
  {
  }

  lemma ParseMapperUnfold(s: State)
    ensures ParseMapper(s) == MapperWith(MapperParams, OptionalWhitespace, Arrow, ParseOperation, s)
  {
    if !s.isError {
      ParseMapperSteps(s);
    }
  }

  /** `mapperParser` is parameters, `=>` and an operation in sequence, mapped to a `mapper` node. */
  lemma ParseMapperIsSequence(s: State)
    ensures ParseMapper(s) == Map(MapperSeq, MkMapper, s)
  {
    ParseMapperUnfold(s);
    MapperWithIsSequence(MapperParams, OptionalWhitespace, Arrow, ParseOperation, MapperSeq, s);
  }

  function OptBlock(s: State): State {
    Possibly(ParseBlock, s)
  }

  function ObjectSeq(s: State): State {
    SequenceOf([VarNameP, OptionalWhitespace, OptAttributes, OptionalWhitespace, OptBlock], s)
  }

  /** The mapping of `objectParser`, with its defaults for a missing attribute list or block. */
  function MkObject(rs: Val): Val {
    var attrs := ElementAt(rs, 2);
    var block := ElementAt(rs, 4);
    VNode(Object(
      NodeOf(ElementAt(rs, 0)),
      if Truthy(attrs) then NodeOf(attrs) else AttrList(Missing),
      if Truthy(block) then NodeOf(block) else Block([])))
  }

  /** `objectParser`'s steps with its parts left open. */
  function ObjectWith(nm: Parser, ws: Parser, at: Parser, ob: Parser, s: State): State {
    if s.isError then s
    else
      var name := nm(s);
      if name.isError then name
      else
        var attrs := at(ws(name));
        var last := ob(ws(attrs));
        last.(result := VNode(Object(
          NodeOf(name.result),
          if Truthy(attrs.result) then NodeOf(attrs.result) else AttrList(Missing),
          if Truthy(last.result) then NodeOf(last.result) else Block([]))))
  }

  lemma ObjectWithIsSequence(nm: Parser, ws: Parser, at: Parser, ob: Parser, q: Parser, s: State)
    requires q(s) == SequenceOf([nm, ws, at, ws, ob], s)
    requires forall t: State :: !t.isError ==> !ws(t).isError && !at(t).isError && !ob(t).isError
    ensures Map(q, MkObject, s) == ObjectWith(nm, ws, at, ob, s)
  {
    if !s.isError {
      SequenceOfFive(nm, ws, at, ws, ob, s);
    }
  }

  /** `objectParser`'s own steps, with the optional block spelled out. */
  lemma ParseObjectSteps(s: State)
    requires !s.isError
    ensures var name := VarNameP(s);
      ParseObject(s) ==
        if name.isError then name
        else
          var attrs := OptAttributes(OptionalWhitespace(name));
          var last := OptBlock(OptionalWhitespace(attrs));
          last.(result := VNode(Object(
            NodeOf(name.result),
            if Truthy(attrs.result) then NodeOf(attrs.result) else AttrList(Missing),
            if Truthy(last.result) then NodeOf(last.result) else Block([]))))
  {
  }

  lemma ParseObjectUnfold(s: State)
    ensures ParseObject(s) == ObjectWith(VarNameP, OptionalWhitespace, OptAttributes, OptBlock, s)
  {
    if !s.isError {
      ParseObjectSteps(s);
    }
  }

  /** `objectParser` is name, attributes and block in sequence, mapped to an `object` node. */
  lemma ParseObjectIsSequence(s: State)
    ensures ParseObject(s) == Map(ObjectSeq, MkObject, s)
  {
    ParseObjectUnfold(s);
    ObjectWithIsSequence(VarNameP, OptionalWhitespace, OptAttributes, OptBlock, ObjectSeq, s);
  }

  function BlockBetween(s: State): State {
    Between(LCurly, RCurly, ParseCommandList, s)
  }

  function MkBlock(rs: Val): Val {
    VNode(Block(NodesOf(rs)))
  }

  /** `blockParser` is a command list between curly brackets, mapped to a `block` node. */
  lemma ParseBlockIsBetween(s: State)
    ensures ParseBlock(s) == Map(BlockBetween, MkBlock, s)
  {
  }

  function DefSeq(s: State): State {
    SequenceOf([VarNameP, Whitespace, ParseObject], s)
  }

  function MkDefArgs(rs: Val): Val {
    VNode(Args([NodeOf(ElementAt(rs, 0)), NodeOf(ElementAt(rs, 2))]))
  }

  /** `defArgsParser`'s steps with the object parser left open. */
  function DefArgsWith(nm: Parser, sp: Parser, po: Parser, s: State): State {
    if s.isError then s
    else
      var name := nm(s);
      if name.isError then name
      else
        var ws := sp(name);
        if ws.isError then ws
        else
          var o := po(ws);
          if o.isError then o
          else o.(result := VNode(Args([NodeOf(name.result), NodeOf(o.result)])))
  }

  lemma DefArgsWithIsSequence(nm: Parser, sp: Parser, po: Parser, q: Parser, s: State)
    requires q(s) == SequenceOf([nm, sp, po], s)
    ensures Map(q, MkDefArgs, s) == DefArgsWith(nm, sp, po, s)
  {
    if !s.isError {
      SequenceOfThree(nm, sp, po, s);
      var name := nm(s);
      var ws := sp(name);
      var rs := VList([name.result, ws.result, po(ws).result]);
      assert MkDefArgs(rs) == VNode(Args([NodeOf(name.result), NodeOf(po(ws).result)]));
    }
  }

  /** `defArgsParser`'s own steps. */
  lemma DefArgsSteps(s: State)
    requires !s.isError
    ensures var name := VarNameP(s);
      DefArgs(s) ==
        if name.isError then name
        else
          var ws := Whitespace(name);
          if ws.isError then ws
          else
            var o := ParseObject(ws);
            if o.isError then o
            else o.(result := VNode(Args([NodeOf(name.result), NodeOf(o.result)])))
  {
  }

  lemma DefArgsUnfold(s: State)
    ensures DefArgs(s) == DefArgsWith(VarNameP, Whitespace, ParseObject, s)
  {
    if !s.isError {
      DefArgsSteps(s);
    }
  }

  /** `defArgsParser` is name, whitespace and object in sequence, mapped to an `args` node. */
  lemma DefArgsIsSequence(s: State)
    ensures DefArgs(s) == Map(DefSeq, MkDefArgs, s)
  {
    DefArgsUnfold(s);
    DefArgsWithIsSequence(VarNameP, Whitespace, ParseObject, DefSeq, s);
  }

  /** The two alternatives `commandParser` starts with: an explicit keyword or an implicit draw. */
  function CommandHead(s: State): State {
    Choice([Keyword, DrawArgs], s)
  }

  function MkCommand(name: string): Val -> Val {
    args => VNode(Command(name, NodeOf(args)))
  }

  /** What `commandParser` chains into, given the head's result. */
  function CommandTail(head: Val): Parser {
    if head.VNode? && head.node.Args? then
      t => Of(VNode(Command("draw", head.node)), t)
    else if head == VStr("def") then
      t => Map(DefArgs, MkCommand("def"), t)
    else if head == VStr("draw") then
      t => Map(DrawArgs, MkCommand("draw"), t)
    else
      t => Fail(UnrecognizedCommand(head), t)
  }

  lemma CommandStartIsChoice(s: State)
    ensures CommandStart(s) == CommandHead(s)
  {
    if !s.isError {
      ChoiceTwo(Keyword, DrawArgs, s);
    }
  }

  lemma CommandRestIsTail(c: State)
    requires !c.isError
    ensures CommandRest(c) == CommandTail(c.result)(c)
  {
    if c.result.VNode? && c.result.node.Args? {
    } else if c.result == VStr("def") {
    } else if c.result == VStr("draw") {
    } else {
    }
  }

  /** `commandParser` is the head `choice` chained into the per-keyword arguments parser. */
  lemma ParseCommandIsChain(s: State)
    ensures ParseCommand(s) == Chain(CommandHead, CommandTail, s)
  {
    CommandStartIsChoice(s);
    var c := CommandStart(s);
    if !c.isError {
      CommandRestIsTail(c);
    }
  }

  lemma {:induction false} CommandLoopIsManyLoop(st: State, acc: seq<Val>)
    requires !st.isError && Advances(ParseCommand)
    ensures CommandLoop(st, acc) == ManyLoop(ParseCommand, st, acc)
    decreases Remaining(st)
  {
    var o := ParseCommand(st);
    if !o.isError && o.index < |o.target| {
      CommandLoopIsManyLoop(o, acc + [o.result]);
    }
  }

  /** `commandListParser` is `many(commandParser)`. */
  lemma ParseCommandListIsMany(s: State)
    ensures Advances(ParseCommand)
    ensures ParseCommandList(s) == Many(ParseCommand, s)
  {
    assert Advances(ParseCommand);
    if !s.isError {
      CommandLoopIsManyLoop(s, []);
    }
  }
}

=== FILE: grammar_text.dfy ===
/**
  What the leaf parsers of the Art grammar accept and produce, stated on the
  target text: names, numbers, strings and operators, and the explicit command
  word.
*/
module GrammarText {
  import opened Syntax
  import opened ParserState
  import opened ParserCore
  import opened Combinators
  import opened CombinatorLaws
  import opened Grammar

  /** A two-element array of strings joins to their concatenation. */
  lemma JoinTwo(a: string, b: string)
    ensures JoinVal(VList([VStr(a), VStr(b)])) == VStr(a + b)
  {
    assert Joined([]) == "";
    JoinedSnoc([], a);
    assert [] + [VStr(a)] == [VStr(a)];
    JoinedSnoc([VStr(a)], b);
    assert [VStr(a)] + [VStr(b)] == [VStr(a), VStr(b)];
  }

  // ---------------------------------------------------------------------------
  // Names

  lemma NameChunkChoice(st: State)
    requires !st.isError
    ensures NameChunk(st) ==
      if !Letters(st).isError then Letters(st)
      else if !Digits(st).isError then Digits(st)
      else if !NameSymbol(st).isError then NameSymbol(st)
      else Furthest(Furthest(Letters(st), Digits(st)), NameSymbol(st))
  {
    ChoiceThree(Letters, Digits, NameSymbol, st);
  }

  lemma NameLettersChunk(st: State)
    requires !st.isError && st.index < |st.target| && IsLetterChar(st.target[st.index])
    ensures ChunkStep(st, Letters(st), IsNameChar)
  {
    LettersTakesLongestRun(st);
    RunEndWiden(st.target, st.index, IsLetterChar, IsNameChar);
  }

  lemma NameDigitsChunk(st: State)
    requires !st.isError && st.index < |st.target| && IsDigitChar(st.target[st.index])
    ensures ChunkStep(st, Digits(st), IsNameChar)
  {
    DigitsTakesLongestRun(st);
    RunEndWiden(st.target, st.index, IsDigitChar, IsNameChar);
  }

  lemma NameSymbolChunk(st: State)
    requires !st.isError && st.index < |st.target| && st.target[st.index] in "$#- "
    ensures ChunkStep(st, NameSymbol(st), IsNameChar)
  {
    var t := st.target;
    var i := st.index;
    RunEndStep(t, i, IsNameChar);
    assert t[i..i + 1] == [t[i]];
  }

  lemma NameChunkStep(st: State)
    requires !st.isError
    ensures NameChunk(st).isError <==> !(st.index < |st.target| && IsNameChar(st.target[st.index]))
    ensures !NameChunk(st).isError ==> ChunkStep(st, NameChunk(st), IsNameChar)
  {
    var t := st.target;
    var i := st.index;
    if i < |t| && IsLetterChar(t[i]) {
      NameChunkChoice(st);
      NameLettersChunk(st);
    } else if i < |t| && IsDigitChar(t[i]) {
      NameChunkDigit(st);
    } else if i < |t| && t[i] in "$#- " {
      NameChunkSymbol(st);
    } else {
      NameChunkNone(st);
    }
  }

  lemma NameChunkDigit(st: State)
    requires !st.isError && st.index < |st.target| && IsDigitChar(st.target[st.index])
    ensures !NameChunk(st).isError && ChunkStep(st, NameChunk(st), IsNameChar)
  {
    NameChunkChoice(st);
    assert Letters(st).isError;
    NameDigitsChunk(st);
  }

  lemma NameChunkSymbol(st: State)
    requires !st.isError && st.index < |st.target| && st.target[st.index] in "$#- "
    ensures !NameChunk(st).isError && ChunkStep(st, NameChunk(st), IsNameChar)
  {
    NameChunkChoice(st);
    assert Letters(st).isError && Digits(st).isError;
    NameSymbolChunk(st);
  }

  lemma NameChunkNone(st: State)
    requires !st.isError && !(st.index < |st.target| && IsNameChar(st.target[st.index]))
    ensures NameChunk(st).isError
  {
    NameChunkChoice(st);
  }

  /** A piece of an angled name is a non-empty piece of the run of name characters. */
  lemma NameChunkIsChunk()
    ensures ChunkParser(NameChunk, IsNameChar)
  {
    forall st: State | !st.isError
      ensures NameChunk(st).isError <==> !(st.index < |st.target| && IsNameChar(st.target[st.index]))
      ensures !NameChunk(st).isError ==> ChunkStep(st, NameChunk(st), IsNameChar)
    {
      NameChunkStep(st);
    }
  }

  lemma IdentChunkStep(st: State)
    requires !st.isError
    ensures IdentChunk(st).isError <==> !(st.index < |st.target| && IsAlnumChar(st.target[st.index]))
    ensures !IdentChunk(st).isError ==> ChunkStep(st, IdentChunk(st), IsAlnumChar)
  {
    ChoiceTwo(Letter, Digits, st);
    var t := st.target;
    var i := st.index;
    if i < |t| {
      if IsLetterChar(t[i]) {
        RunEndStep(t, i, IsAlnumChar);
        assert t[i..i + 1] == [t[i]];
      } else if IsDigitChar(t[i]) {
        DigitsTakesLongestRun(st);
        RunEndWiden(t, i, IsDigitChar, IsAlnumChar);
      }
    }
  }

  /** A piece of the rest of an identifier is a non-empty piece of the run of letters and digits. */
  lemma IdentChunkIsChunk()
    ensures ChunkParser(IdentChunk, IsAlnumChar)
  {
    forall st: State | !st.isError
      ensures IdentChunk(st).isError <==> !(st.index < |st.target| && IsAlnumChar(st.target[st.index]))
      ensures !IdentChunk(st).isError ==> ChunkStep(st, IdentChunk(st), IsAlnumChar)
    {
      IdentChunkStep(st);
    }
  }

  /** The rest of an identifier is the whole run of letters and digits at the cursor. */
  lemma IdentRestText(st: State)
    requires !st.isError && st.index <= |st.target|
    ensures var e := RunEnd(st.target, st.index, IsAlnumChar);
      IdentRest(st) == st.(index := e, result := VStr(st.target[st.index..e]))
  {
    IdentChunkIsChunk();
    ManyChunks(IdentChunk, IsAlnumChar, st);
  }

  /** The body of an angled name is the whole run of name characters at the cursor. */
  lemma NameBodyText(st: State)
    requires !st.isError && st.index <= |st.target|
    ensures var e := RunEnd(st.target, st.index, IsNameChar);
      NameBody(st) == st.(index := e, result := VStr(st.target[st.index..e]))
  {
    NameChunkIsChunk();
    ManyChunks(NameChunk, IsNameChar, st);
  }

  /** The two parts of an identifier: its first letter and the run after it. */
  lemma IdentPartsText(s: State)
    requires !s.isError && s.index < |s.target| && IsLetterChar(s.target[s.index])
    ensures var t := s.target; var i := s.index; var e := RunEnd(t, i + 1, IsAlnumChar);
      && e == RunEnd(t, i, IsAlnumChar)
      && IdentParts(s) == s.(index := e, result := VList([VStr([t[i]]), VStr(t[i + 1..e])]))
  {
    IdentPartsAt(s, RunEnd(s.target, s.index + 1, IsAlnumChar));
  }

  lemma IdentPartsAt(s: State, e: nat)
    requires !s.isError && s.index < |s.target| && IsLetterChar(s.target[s.index])
    requires e == RunEnd(s.target, s.index + 1, IsAlnumChar)
    ensures var t := s.target; var i := s.index;
      && e == RunEnd(t, i, IsAlnumChar)
      && IdentParts(s) == s.(index := e, result := VList([VStr([t[i]]), VStr(t[i + 1..e])]))
  {
    var t := s.target;
    var i := s.index;
    FirstLetterText(s);
    var first := s.(result := VStr([t[i]]), index := i + 1);
    IdentRestText(first);
    var rest := first.(index := e, result := VStr(t[i + 1..e]));
    SequenceOfTwoSucceeds(FirstLetter, IdentRest, s, first, rest);
  }

  lemma FirstLetterText(s: State)
    requires !s.isError && s.index < |s.target| && IsLetterChar(s.target[s.index])
    ensures FirstLetter(s) == s.(result := VStr([s.target[s.index]]), index := s.index + 1)
  {
    ChoiceOne(Letter, s);
  }


  /** Joining a two-part result concatenates the parts. */
  lemma MapJoinTwo(p: Parser, s: State, a: string, b: string)
    requires !p(s).isError && p(s).result == VList([VStr(a), VStr(b)])
    ensures Map(p, JoinVal, s) == p(s).(result := VStr(a + b))
  {
    JoinTwo(a, b);
  }

  lemma IdentNameParts(s: State)
    requires !s.isError && s.index < |s.target| && IsLetterChar(s.target[s.index])
    ensures var t := s.target; var i := s.index; var e := RunEnd(t, i + 1, IsAlnumChar);
      && e == RunEnd(t, i, IsAlnumChar)
      && IdentName(s) == s.(index := e, result := VStr([t[i]] + t[i + 1..e]))
  {
    var t := s.target;
    var i := s.index;
    var e := RunEnd(t, i + 1, IsAlnumChar);
    IdentPartsText(s);
    MapJoinTwo(IdentParts, s, [t[i]], t[i + 1..e]);
  }

  lemma ConsSlice(t: string, i: nat, e: nat)
    requires i < e <= |t|
    ensures [t[i]] + t[i + 1..e] == t[i..e]
  {
  }

  /** An identifier is the whole run of letters and digits from a letter. */
  lemma IdentNameText(s: State)
    requires !s.isError && s.index < |s.target| && IsLetterChar(s.target[s.index])
    ensures var e := RunEnd(s.target, s.index, IsAlnumChar);
      IdentName(s) == s.(index := e, result := VStr(s.target[s.index..e]))
  {
    IdentNameParts(s);
    ConsSlice(s.target, s.index, RunEnd(s.target, s.index, IsAlnumChar));
  }

  /** A name that starts with a letter is the identifier there. */
  lemma VarNameIdentText(s: State)
    requires !s.isError && s.index < |s.target| && IsLetterChar(s.target[s.index])
    ensures var e := RunEnd(s.target, s.index, IsAlnumChar);
      VarNameP(s) == s.(index := e, result := VNode(VarName(s.target[s.index..e])))
  {
    var e := RunEnd(s.target, s.index, IsAlnumChar);
    IdentNameText(s);
    assert LAngle(s).isError;
    NameAlternativesChoice(s);
    VarNameFromAlternatives(s, IdentName(s), s.target[s.index..e]);
  }

  lemma VarNameFromAlternatives(s: State, a: State, x: string)
    requires !s.isError && NameAlternatives(s) == a && !a.isError && a.result == VStr(x)
    ensures VarNameP(s) == a.(result := VNode(VarName(x)))
  {
    VarNameMap(s);
    assert Display(VStr(x)) == x;
  }

  lemma NameAlternativesChoice(s: State)
    requires !s.isError
    ensures NameAlternatives(s) ==
      if !AngledName(s).isError then AngledName(s)
      else if !IdentName(s).isError then IdentName(s)
      else Furthest(AngledName(s), IdentName(s))
  {
    ChoiceTwo(AngledName, IdentName, s);
  }

  lemma VarNameMap(s: State)
    requires !s.isError
    ensures var a := NameAlternatives(s);
      VarNameP(s) == if a.isError then a else a.(result := MkVarName(a.result))
  {
  }

  /**
    A name that starts with `<` runs over letters, digits, spaces and `$#-`
    and needs a `>` right after that run.
  */
  lemma VarNameAngledText(s: State)
    requires !s.isError && s.index < |s.target| && s.target[s.index] == '<'
    ensures var t := s.target; var e := RunEnd(t, s.index + 1, IsNameChar);
      && (!VarNameP(s).isError <==> e < |t| && t[e] == '>')
      && (!VarNameP(s).isError ==> VarNameP(s) == s.(index := e + 1, result := VNode(VarName(t[s.index + 1..e]))))
  {
    VarNameAngledAt(s, RunEnd(s.target, s.index + 1, IsNameChar));
  }

  lemma VarNameAngledAt(s: State, e: nat)
    requires !s.isError && s.index < |s.target| && s.target[s.index] == '<'
    requires e == RunEnd(s.target, s.index + 1, IsNameChar)
    ensures var t := s.target;
      && (!VarNameP(s).isError <==> e < |t| && t[e] == '>')
      && (!VarNameP(s).isError ==> VarNameP(s) == s.(index := e + 1, result := VNode(VarName(t[s.index + 1..e]))))
  {
    AngledNameText(s);
    IdentNameNotAngled(s);
    NameAlternativesChoice(s);
    if AngledName(s).isError {
      VarNameMap(s);
    } else {
      VarNameFromAlternatives(s, AngledName(s), s.target[s.index + 1..e]);
    }
  }

  lemma AngledNameText(s: State)
    requires !s.isError && s.index < |s.target| && s.target[s.index] == '<'
    ensures var t := s.target; var e := RunEnd(t, s.index + 1, IsNameChar);
      && (!AngledName(s).isError <==> e < |t| && t[e] == '>')
      && (!AngledName(s).isError ==> AngledName(s) == s.(index := e + 1, result := VStr(t[s.index + 1..e])))
  {
    AngledNameAt(s, RunEnd(s.target, s.index + 1, IsNameChar));
  }

  lemma AngledNameAt(s: State, e: nat)
    requires !s.isError && s.index < |s.target| && s.target[s.index] == '<'
    requires e == RunEnd(s.target, s.index + 1, IsNameChar)
    ensures var t := s.target;
      && (!AngledName(s).isError <==> e < |t| && t[e] == '>')
      && (!AngledName(s).isError ==> AngledName(s) == s.(index := e + 1, result := VStr(t[s.index + 1..e])))
  {
    var t := s.target;
    var open := s.(result := VStr("<"), index := s.index + 1);
    assert LAngle(s) == open;
    NameBodyText(open);
    var body := open.(index := e, result := VStr(t[s.index + 1..e]));
    RAngleAt(body);
  }

  lemma RAngleAt(body: State)
    requires !body.isError
    ensures var t := body.target; var e := body.index;
      && (!RAngle(body).isError <==> e < |t| && t[e] == '>')
      && (!RAngle(body).isError ==> RAngle(body) == body.(result := VStr(">"), index := e + 1))
  {
  }


  lemma IdentNameNotAngled(s: State)
    requires !s.isError && s.index < |s.target| && s.target[s.index] == '<'
    ensures IdentName(s).isError
  {
    ChoiceOne(Letter, s);
    SequenceOfTwo(FirstLetter, IdentRest, s);
  }

  /** A name starts with a letter or with `<`. */
  lemma VarNameStart(s: State)
    requires !s.isError && !VarNameP(s).isError
    ensures s.index < |s.target| && (s.target[s.index] == '<' || IsLetterChar(s.target[s.index]))
  {
    ChoiceTwo(AngledName, IdentName, s);
    ChoiceOne(Letter, s);
    SequenceOfTwo(FirstLetter, IdentRest, s);
  }

  // ---------------------------------------------------------------------------
  // Operators

  /** A one-character literal matches exactly when the cursor is on that character. */
  lemma StrOneChar(c: char, s: State)
    requires !s.isError
    ensures var t := s.target; var i := s.index;
      && (!Str([c], s).isError <==> i < |t| && t[i] == c)
      && (!Str([c], s).isError ==> Str([c], s) == s.(result := VStr([c]), index := i + 1))
  {
    if s.index < |s.target| && s.target[s.index] == c {
      assert s.target[s.index..s.index + 1] == [c];
    }
  }

  lemma OperatorAlternativesText(s: State)
    requires !s.isError
    ensures var t := s.target; var i := s.index; var r := OperatorAlternatives(s);
      && (!r.isError <==> i < |t| && t[i] in "+-*/")
      && (!r.isError ==> r == s.(result := VStr([t[i]]), index := i + 1))
  {
    var ps := [Plus, Minus, Times, Slash];
    var cs := "+-*/";
    forall j | 0 <= j < 4
      ensures OneChar(ps[j](s), s, cs[j])
    {
      StrOneChar(cs[j], s);
      assert ps[j](s) == Str([cs[j]], s);
    }
    CharChoice(ps, cs, s);
  }

  /** `r` is what a parser of the single character `c` gives at `s`. */
  predicate OneChar(r: State, s: State, c: char) {
    && (!r.isError <==> s.index < |s.target| && s.target[s.index] == c)
    && (!r.isError ==> r == s.(result := VStr([c]), index := s.index + 1))
  }

  /** A `choice` of single-character parsers takes any one of their characters. */
  lemma CharChoice(ps: seq<Parser>, cs: string, s: State)
    requires |ps| == |cs| > 0 && !s.isError
    requires forall j :: 0 <= j < |ps| ==> OneChar(ps[j](s), s, cs[j])
    ensures var t := s.target; var i := s.index; var r := Choice(ps, s);
      && (!r.isError <==> i < |t| && t[i] in cs)
      && (!r.isError ==> r == s.(result := VStr([t[i]]), index := i + 1))
  {
    var t := s.target;
    var i := s.index;
    ChoiceSpec(ps, s);
    if i < |t| && t[i] in cs {
      var j :| 0 <= j < |cs| && cs[j] == t[i];
      assert !ps[j](s).isError;
    }
  }


  /** An operator is one of the characters `+ - * /`, taken alone. */
  lemma OperatorText(s: State)
    requires !s.isError
    ensures var t := s.target; var i := s.index; var r := OperatorP(s);
      && (!r.isError <==> i < |t| && t[i] in "+-*/")
      && (!r.isError ==> r == s.(result := VNode(Operator([t[i]])), index := i + 1))
  {
    OperatorAlternativesText(s);
  }

  // ---------------------------------------------------------------------------
  // Numbers

  /** `join` renders a missing fraction (null) as nothing. */
  lemma JoinStrNull(a: string)
    ensures JoinVal(VList([VStr(a), VNull])) == VStr(a)
  {
    var parts := Texts([VStr(a), VNull]);
    assert parts[0] == TextOf(VStr(a)) == a;
    assert parts[1] == TextOf(VNull) == "";
    assert parts[..1] == [a];
    assert JoinText(parts, "") == JoinText(parts[..1], "") + "" + parts[1];
  }

  lemma MapJoinStrNull(p: Parser, s: State, a: string)
    requires !p(s).isError && p(s).result == VList([VStr(a), VNull])
    ensures Map(p, JoinVal, s) == p(s).(result := VStr(a))
  {
    JoinStrNull(a);
  }

  /** Where a number starting at `i` ends: its digits, then `.` and digits if both are there. */
  function NumberEnd(t: string, i: nat): (e: nat)
    requires i <= |t|
    ensures i <= e <= |t|
  {
    var e1 := RunEnd(t, i, IsDigitChar);
    if e1 + 1 < |t| && t[e1] == '.' && IsDigitChar(t[e1 + 1]) then RunEnd(t, e1 + 1, IsDigitChar)
    else e1
  }

  /** Whether a fraction follows the digits ending at `j`. */
  predicate HasFraction(t: string, j: nat) {
    j + 1 < |t| && t[j] == '.' && IsDigitChar(t[j + 1])
  }

  lemma FractionPartsFails(st: State)
    requires !st.isError && !HasFraction(st.target, st.index)
    ensures FractionParts(st).isError
  {
    var dot := Dot(st);
    if !dot.isError {
      DotThenNoDigit(st, dot);
    }
    SequenceOfTwo(Dot, Digits, st);
  }

  lemma DotThenNoDigit(st: State, dot: State)
    requires !st.isError && !HasFraction(st.target, st.index)
    requires dot == Dot(st) && !dot.isError
    ensures Digits(dot).isError
  {
    assert dot.index == st.index + 1 && dot.target == st.target;
  }

  lemma FractionPartsSucceeds(st: State)
    requires !st.isError && HasFraction(st.target, st.index)
    ensures var t := st.target; var j := st.index; var e := RunEnd(t, j + 1, IsDigitChar);
      FractionParts(st) == st.(index := e, result := VList([VStr("."), VStr(t[j + 1..e])]))
  {
    var dot := Dot(st);
    assert dot == st.(result := VStr("."), index := st.index + 1);
    DigitsTakesLongestRun(dot);
    SequenceOfTwo(Dot, Digits, st);
  }

  lemma FractionPartsText(st: State)
    requires !st.isError
    ensures var t := st.target; var j := st.index; var r := FractionParts(st);
      && (!r.isError <==> HasFraction(t, j))
      && (HasFraction(t, j) ==>
            var e := RunEnd(t, j + 1, IsDigitChar);
            r == st.(index := e, result := VList([VStr("."), VStr(t[j + 1..e])])))
  {
    if HasFraction(st.target, st.index) {
      FractionPartsSucceeds(st);
    } else {
      FractionPartsFails(st);
    }
  }

  /** A fraction is `.` and the whole run of digits after it, kept as text. */
  lemma FractionText(st: State)
    requires !st.isError
    ensures var t := st.target; var j := st.index; var r := Fraction(st);
      && (!r.isError <==> HasFraction(t, j))
      && (HasFraction(t, j) ==>
            var e := RunEnd(t, j + 1, IsDigitChar);
            r == st.(index := e, result := VStr(t[j..e])))
  {
    if HasFraction(st.target, st.index) {
      FractionAt(st, RunEnd(st.target, st.index + 1, IsDigitChar));
    } else {
      FractionPartsFails(st);
    }
  }

  lemma FractionAt(st: State, e: nat)
    requires !st.isError && HasFraction(st.target, st.index)
    requires e == RunEnd(st.target, st.index + 1, IsDigitChar)
    ensures Fraction(st) == st.(index := e, result := VStr(st.target[st.index..e]))
  {
    var t := st.target;
    var j := st.index;
    FractionPartsSucceeds(st);
    MapJoinTwo(FractionParts, st, ".", t[j + 1..e]);
    ConsSlice(t, j, e);
  }


  /** The optional fraction: the fraction when there is one, a null result in place otherwise. */
  lemma OptFractionText(st: State)
    requires !st.isError
    ensures var t := st.target; var j := st.index;
      OptFraction(st) ==
        if HasFraction(t, j) then
          var e := RunEnd(t, j + 1, IsDigitChar);
          st.(index := e, result := VStr(t[j..e]))
        else st.(result := VNull)
  {
    FractionText(st);
  }

  /** `sequenceOf` of two parsers that both succeed. */
  lemma SequenceOfTwoSucceeds(a: Parser, b: Parser, s: State, ra: State, rb: State)
    requires !s.isError && a(s) == ra && !ra.isError && b(ra) == rb && !rb.isError
    ensures SequenceOf([a, b], s) == rb.(result := VList([ra.result, rb.result]))
  {
    SequenceOfTwo(a, b, s);
  }

  lemma NumberDigits(s: State)
    requires !s.isError && s.index < |s.target| && IsDigitChar(s.target[s.index])
    ensures var t := s.target; var i := s.index; var e1 := RunEnd(t, i, IsDigitChar);
      Digits(s) == s.(index := e1, result := VStr(t[i..e1]))
  {
    DigitsTakesLongestRun(s);
  }

  lemma NumberPartsWhole(s: State)
    requires !s.isError && s.index < |s.target| && IsDigitChar(s.target[s.index])
    requires !HasFraction(s.target, RunEnd(s.target, s.index, IsDigitChar))
    ensures var t := s.target; var i := s.index; var e1 := RunEnd(t, i, IsDigitChar);
      NumberParts(s) == s.(index := e1, result := VList([VStr(t[i..e1]), VNull]))
  {
    NumberDigits(s);
    var d := Digits(s);
    OptFractionText(d);
    SequenceOfTwoSucceeds(Digits, OptFraction, s, d, OptFraction(d));
  }

  lemma NumberPartsFraction(s: State, e1: nat, e: nat)
    requires !s.isError && s.index < |s.target| && IsDigitChar(s.target[s.index])
    requires e1 == RunEnd(s.target, s.index, IsDigitChar) && HasFraction(s.target, e1)
    requires e == RunEnd(s.target, e1 + 1, IsDigitChar)
    ensures e1 <= e <= |s.target|
    ensures NumberParts(s) == s.(index := e, result := VList([VStr(s.target[s.index..e1]), VStr(s.target[e1..e])]))
  {
    var d := Digits(s);
    assert d == s.(index := e1, result := VStr(s.target[s.index..e1])) by {
      NumberDigits(s);
    }
    OptFractionAt(d, e);
    SequenceOfTwoSucceeds(Digits, OptFraction, s, d, OptFraction(d));
  }

  lemma OptFractionAt(d: State, e: nat)
    requires !d.isError && HasFraction(d.target, d.index)
    requires e == RunEnd(d.target, d.index + 1, IsDigitChar)
    ensures d.index <= e <= |d.target|
    ensures OptFraction(d) == d.(index := e, result := VStr(d.target[d.index..e]))
  {
    OptFractionText(d);
  }

  lemma NumberTextFraction(s: State, e1: nat, e: nat)
    requires !s.isError && s.index < |s.target| && IsDigitChar(s.target[s.index])
    requires e1 == RunEnd(s.target, s.index, IsDigitChar) && HasFraction(s.target, e1)
    requires e == RunEnd(s.target, e1 + 1, IsDigitChar)
    ensures NumberText(s) == s.(index := e, result := VStr(s.target[s.index..e]))
  {
    var t := s.target;
    var i := s.index;
    NumberPartsFraction(s, e1, e);
    MapJoinTwo(NumberParts, s, t[i..e1], t[e1..e]);
    SliceConcat(t, i, e1, e);
  }

  lemma NumberTextWhole(s: State, e1: nat)
    requires !s.isError && s.index < |s.target| && IsDigitChar(s.target[s.index])
    requires e1 == RunEnd(s.target, s.index, IsDigitChar) && !HasFraction(s.target, e1)
    ensures NumberText(s) == s.(index := e1, result := VStr(s.target[s.index..e1]))
  {
    NumberPartsWhole(s);
    MapJoinStrNull(NumberParts, s, s.target[s.index..e1]);
  }

  lemma NumberTextText(s: State)
    requires !s.isError && s.index < |s.target| && IsDigitChar(s.target[s.index])
    ensures var e := NumberEnd(s.target, s.index);
      NumberText(s) == s.(index := e, result := VStr(s.target[s.index..e]))
  {
    var t := s.target;
    var i := s.index;
    var e1 := RunEnd(t, i, IsDigitChar);
    if HasFraction(t, e1) {
      var e := RunEnd(t, e1 + 1, IsDigitChar);
      assert NumberEnd(t, i) == e;
      NumberTextFraction(s, e1, e);
    } else {
      assert NumberEnd(t, i) == e1;
      NumberTextWhole(s, e1);
    }
  }

  /**
    A number is a run of digits, then `.` and a run of digits when a digit
    follows the dot; its value is that decimal. It fails off a digit.
  */
  lemma NumberPOnDigit(s: State, e: nat)
    requires !s.isError && s.index < |s.target| && IsDigitChar(s.target[s.index])
    requires e == NumberEnd(s.target, s.index)
    ensures NumberP(s) == s.(index := e, result := VNode(NumLit(DecimalValue(s.target[s.index..e]))))
  {
    var nt := NumberText(s);
    assert nt == s.(index := e, result := VStr(s.target[s.index..e])) by {
      NumberTextText(s);
    }
    assert MkNumber(nt.result) == VNode(NumLit(DecimalValue(s.target[s.index..e])));
  }

  lemma NumberPOffDigit(s: State)
    requires !s.isError && !(s.index < |s.target| && IsDigitChar(s.target[s.index]))
    ensures NumberP(s).isError
  {
    assert Digits(s).isError;
    SequenceOfTwo(Digits, OptFraction, s);
  }

  lemma NumberPText(s: State)
    requires !s.isError
    ensures var t := s.target; var i := s.index;
      NumberP(s).isError <==> !(i < |t| && IsDigitChar(t[i]))
    ensures var t := s.target; var i := s.index;
      i < |t| && IsDigitChar(t[i]) ==>
        var e := NumberEnd(t, i);
        NumberP(s) == s.(index := e, result := VNode(NumLit(DecimalValue(t[i..e]))))
  {
    var t := s.target;
    var i := s.index;
    if i < |t| && IsDigitChar(t[i]) {
      NumberPOnDigit(s, NumberEnd(t, i));
    } else {
      NumberPOffDigit(s);
    }
  }

  // ---------------------------------------------------------------------------
  // Strings

  predicate NotQuote(c: char) {
    c != '\''
  }

  /** Where `everythingUntil` tries the closing quote, it finds one exactly on a quote character. */
  lemma QuoteAtProbe(st: State, k: nat)
    requires !st.isError && (st.index <= k <= |st.target| || k == st.index)
    ensures Quote(Probe(st, k)).isError <==> !(k < |st.target| && st.target[k] == '\'')
  {
  }

  lemma StringBodyFound(st: State, e: nat)
    requires !st.isError && st.index <= |st.target|
    requires e == RunEnd(st.target, st.index, NotQuote) && e < |st.target|
    ensures StringBody(st) == st.(index := e, result := VStr(st.target[st.index..e]))
  {
    var t := st.target;
    var r := EverythingUntil(Quote, st);
    QuoteAtProbe(st, e);
    assert !r.isError;
    QuoteAtProbe(st, r.index);
  }

  lemma StringBodyUnclosed(st: State)
    requires !st.isError && st.index <= |st.target|
    requires RunEnd(st.target, st.index, NotQuote) == |st.target|
    ensures StringBody(st).isError
  {
    var t := st.target;
    var r := EverythingUntil(Quote, st);
    if !r.isError {
      QuoteAtProbe(st, r.index);
    }
  }

  /** A string is the text from just after the opening quote up to the next quote, which closes it. */
  lemma QuotedText(s: State, e: nat)
    requires !s.isError && s.index < |s.target| && s.target[s.index] == '\''
    requires e == RunEnd(s.target, s.index + 1, NotQuote)
    ensures !Quoted(s).isError <==> e < |s.target|
    ensures e < |s.target| ==> Quoted(s) == s.(index := e + 1, result := VStr(s.target[s.index + 1..e]))
  {
    var open := Quote(s);
    assert open == s.(result := VStr("'"), index := s.index + 1);
    if e < |s.target| {
      StringBodyFound(open, e);
    } else {
      StringBodyUnclosed(open);
    }
  }

  /**
    A string starts with a quote and runs to the next quote; with no closing
    quote, or off a quote, it fails. Its text is taken as written: there are
    no escapes.
  */
  lemma StringPText(s: State)
    requires !s.isError
    ensures var t := s.target; var i := s.index;
      !(i < |t| && t[i] == '\'') ==> StringP(s).isError
    ensures var t := s.target; var i := s.index;
      i < |t| && t[i] == '\'' ==>
        var e := RunEnd(t, i + 1, NotQuote);
        && (!StringP(s).isError <==> e < |t|)
        && (e < |t| ==> StringP(s) == s.(index := e + 1, result := VNode(StrLit(t[i + 1..e]))))
  {
    var t := s.target;
    var i := s.index;
    if i < |t| && t[i] == '\'' {
      QuotedText(s, RunEnd(t, i + 1, NotQuote));
    }
  }
}

=== FILE: pipeline.dfy ===
/**
  Parser and resolver together: the object parser gives an object written
  without `(...)` an attribute list with no entries array, and the resolver
  rejects such a list, so an object without attributes never resolves.
*/
module Pipeline {
  import opened Results
  import opened Syntax
  import opened ParserState
  import opened Combinators
  import opened Grammar
  import opened GrammarLaws
  import opened CommandText
  import opened Resolver
  import opened ResolverLaws

  /** Every definition is truthy, as the objects `def` binds are. */
  predicate DefsTruthy(defs: map<string, RVal>) {
    forall x :: x in defs ==> IsTruthy(defs[x])
  }

  /** A parsed block is a `block` node. */
  lemma ParseBlockShape(s: State)
    requires !ParseBlock(s).isError
    ensures ParseBlock(s).result.VNode? && ParseBlock(s).result.node.Block?
  {
  }

  /** A parsed object has a name node and a block node. */
  lemma ParsedObjectShape(s: State)
    requires !s.isError && !VarNameP(s).isError
    ensures var o := ParseObject(s);
      !o.isError && o.result.node.objName.VarName? && o.result.node.body.Block?
  {
    ParseObjectSteps(s);
    var beforeBlock := OptionalWhitespace(OptAttributes(OptionalWhitespace(VarNameP(s))));
    OptBlockCases(beforeBlock);
    if !ParseBlock(beforeBlock).isError {
      ParseBlockShape(beforeBlock);
    }
  }

  /**
    An object parsed without an opening parenthesis after its name fails to
    resolve, whatever the (truthy) definitions in scope.
  */
  lemma ObjectWithoutAttributesNeverResolves(s: State, ctx: Context)
    requires !s.isError && !VarNameP(s).isError
    requires var w := OptionalWhitespace(VarNameP(s));
      !(w.index < |w.target| && w.target[w.index] == '(')
    requires DefsTruthy(ctx.defs)
    ensures !ParseObject(s).isError && ResolveObject(ParseObject(s).result.node, ctx) == Err(MissingAttributeList)
  {
    ObjectWithoutAttributes(s);
    ParsedObjectShape(s);
    ObjectWithoutAttributeListFails(ParseObject(s).result.node, ctx);
  }

  /** The program `draw circle`, as a tree: drawing an object without attributes fails. */
  lemma BareObjectProgramFails()
    ensures Interpret([Command("draw", Args([Object(VarName("circle"), AttrList(Missing), Block([]))]))], true)
         == Err(MissingAttributeList)
  {
    var o := Object(VarName("circle"), AttrList(Missing), Block([]));
    var d := Command("draw", Args([o]));
    var ctx := InitialContext(true);
    ObjectWithoutAttributeListFails(o, ctx);
    assert ResolveNode(o, ctx) == Err(MissingAttributeList);
    assert ResolveCommand(d, ctx) == Err(MissingAttributeList);
    assert ResolveItems([d], ctx) == Err(MissingAttributeList);
  }
}

=== FILE: resolver.dfy ===
/**
  The Art resolver: a walk over the syntax tree that turns each node into a
  runtime value. The walk carries a context of definitions, the parent object
  whose attributes and block are inherited, the arguments a mapper binds, and
  whether a renderer is present. Every `throw` of the resolver is an `Err`
  here; the renderer is the identity on resolved objects.
*/
module Resolver {
  import opened Results
  import opened Syntax

  // ---------------------------------------------------------------------------
  // Runtime values and the context

  /** What resolving a node produces. */
  datatype RVal =
    | Undefined                                   // undefined
    | Num(x: real)                                // a number (no floating point)
    | Text(s: string)                             // a string
    | Pair(key: string, val: RVal)                // `[name, value]` from an attribute
    | Attrs(entries: seq<(string, RVal)>)         // a resolved attribute list
    | Items(items: seq<RVal>)                     // a resolved block
    | Nodes(nodes: seq<Node>)                     // `args` resolve to their own nodes
    | Obj(name: RVal, attributes: seq<(string, RVal)>, block: seq<RVal>) // a scene object

  /** JavaScript truthiness; arrays and objects are always truthy. */
  predicate IsTruthy(v: RVal) {
    match v
    case Undefined => false
    case Num(x) => x != 0.0
    case Text(s) => s != ""
    case _ => true
  }

  /** What the resolver throws. */
  datatype ResolveError =
    | UnknownNodeType(node: Node)                 // no resolver for the node's type
    | AlreadyDefined(name: string)                // "Expected <name> to be undefined"
    | UnknownOperator(op: RVal)                   // "Cannot resolve operator"
    | BadOperands(symbol: string, left: RVal, right: RVal) // operands JavaScript would coerce
    | DivisionByZero                              // JavaScript gives Infinity or NaN
    | ParamNotName(value: RVal)                   // a mapper parameter that is not a name
    | NotAnAttribute(node: Node)                  // "Cannot resolve attribute of type"
    | MissingAttributeList                        // the payload has no `value` array
    | BadBlock(node: Node)                        // "Cannot resolve block of type"
    | BadAttributes(node: Node)                   // "Cannot resolve attributes of type"
    | BadName(node: Node)                         // "Cannot resolve name of type"
    | BadArgs(command: string, args: Node)        // "Invalid args of type"
    | UnknownCommand(command: string)             // "Cannot understand command"
    | NoRenderer                                  // "Cannot render without renderer"
    | NotAnObject(node: Node)                     // "Cannot render ... It must be an object"
    | MissingArgument(command: string)            // an argument slot is undefined
    | BadDefName(node: Node)                      // `def` of something that is not a name

  type Res<T> = Result<T, ResolveError>

  /**
    The resolver's context. `parent` is `None` for the empty object the walk
    starts with, which has neither attributes nor a block.
  */
  datatype Context = Context(
    defs: map<string, RVal>,
    parent: Option<RVal>,
    args: seq<RVal>,
    hasRenderer: bool)

  /** The context of a whole program: nothing defined, no parent, no arguments. */
  function InitialContext(hasRenderer: bool): (ctx: Context)
    ensures ctx.defs == map[] && ctx.args == [] && ctx.hasRenderer == hasRenderer
    ensures ParentAttributes(ctx) == [] && ParentBlock(ctx) == []
  {
    Context(map[], None, [], hasRenderer)
  }

  /** The attributes inherited from the parent object, if any. */
  function ParentAttributes(ctx: Context): seq<(string, RVal)> {
    if ctx.parent.Some? && ctx.parent.value.Obj? then ctx.parent.value.attributes else []
  }

  /** The block inherited from the parent object, if any. */
  function ParentBlock(ctx: Context): seq<RVal> {
    if ctx.parent.Some? && ctx.parent.value.Obj? then ctx.parent.value.block else []
  }

  /** The name of a parent value; only objects have one. */
  function NameOf(parent: RVal): RVal {
    if parent.Obj? then parent.name else Undefined
  }

  /** The `i`-th argument, undefined past the end. */
  function ArgAt(args: seq<RVal>, i: nat): RVal {
    if i < |args| then args[i] else Undefined
  }

  /** `defs` only grows: every definition keeps its value. */
  ghost predicate Extends(before: map<string, RVal>, after: map<string, RVal>) {
    forall k :: k in before ==> k in after && after[k] == before[k]
  }

  // ---------------------------------------------------------------------------
  // Attribute lists

  function KeySet(es: seq<(string, RVal)>): set<string> {
    set e | e in es :: e.0
  }

  predicate DistinctKeys(es: seq<(string, RVal)>) {
    forall i, j :: 0 <= i < j < |es| ==> es[i].0 != es[j].0
  }

  /** The value of the last entry for `k`. */
  function LastValue(es: seq<(string, RVal)>, k: string): RVal
    requires k in KeySet(es)
    decreases |es|
  {
    var last := es[|es| - 1];
    if last.0 == k then last.1
    else
      assert k in KeySet(es[..|es| - 1]) by {
        var e :| e in es && e.0 == k;
        assert e != last;
        assert e in es[..|es| - 1] by {
          var i :| 0 <= i < |es| && es[i] == e;
          assert i < |es| - 1;
        }
      }
      LastValue(es[..|es| - 1], k)
  }

  /** The value of the first entry for `k` (`Array.prototype.find`). */
  function Find(es: seq<(string, RVal)>, k: string): (r: Option<RVal>)
    ensures r.None? <==> k !in KeySet(es)
    ensures r.Some? ==> (k, r.value) in es
    ensures r.Some? ==> exists i :: 0 <= i < |es| && es[i] == (k, r.value) && forall j :: 0 <= j < i ==> es[j].0 != k
  {
    if |es| == 0 then None
    else if es[0].0 == k then
      assert es[0] == (k, es[0].1);
      Some(es[0].1)
    else
      KeySetCons(es);
      var t := Find(es[1..], k);
      if t.Some? then
        var i :| 0 <= i < |es[1..]| && es[1..][i] == (k, t.value) && forall j :: 0 <= j < i ==> es[1..][j].0 != k;
        assert es[i + 1] == (k, t.value) && forall j :: 0 <= j < i + 1 ==> es[j].0 != k;
        t
      else t
  }

  /** The entries whose key is not `k`, in order (`filter`). */
  function Without(es: seq<(string, RVal)>, k: string): (r: seq<(string, RVal)>)
    ensures forall e :: e in r <==> e in es && e.0 != k
    ensures KeySet(r) == KeySet(es) - {k}
    ensures DistinctKeys(es) ==> DistinctKeys(r)
  {
    if |es| == 0 then []
    else
      var rest := Without(es[1..], k);
      KeySetCons(es);
      if es[0].0 == k then
        DistinctTail(es);
        rest
      else
        KeySetCons([es[0]] + rest);
        DistinctCons(es, rest);
        [es[0]] + rest
  }

  /** The keys of a non-empty list: the first entry's key and the keys of the rest. */
  lemma KeySetCons(es: seq<(string, RVal)>)
    requires |es| > 0
    ensures KeySet(es) == {es[0].0} + KeySet(es[1..])
    ensures forall e :: e in es <==> e == es[0] || e in es[1..]
  {
    assert es == [es[0]] + es[1..];
  }

  lemma DistinctTail(es: seq<(string, RVal)>)
    requires |es| > 0
    ensures DistinctKeys(es) ==> DistinctKeys(es[1..])
  {
    if DistinctKeys(es) {
      forall i, j | 0 <= i < j < |es[1..]| ensures es[1..][i].0 != es[1..][j].0 {
        assert es[1..][i] == es[i + 1] && es[1..][j] == es[j + 1];
      }
    }
  }

  /** The first entry stays ahead of a filtered rest, and keys stay distinct. */
  lemma DistinctCons(es: seq<(string, RVal)>, rest: seq<(string, RVal)>)
    requires |es| > 0
    requires forall e :: e in rest ==> e in es[1..]
    requires DistinctKeys(es[1..]) ==> DistinctKeys(rest)
    ensures DistinctKeys(es) ==> DistinctKeys([es[0]] + rest)
  {
    if DistinctKeys(es) {
      DistinctTail(es);
      var r := [es[0]] + rest;
      forall i, j | 0 <= i < j < |r| ensures r[i].0 != r[j].0 {
        if i == 0 {
          assert r[j] in rest;
          var m :| 0 <= m < |es[1..]| && es[1..][m] == r[j];
          assert es[m + 1] == r[j];
        } else {
          assert r[i] == rest[i - 1] && r[j] == rest[j - 1];
        }
      }
    }
  }


  lemma KeySetSnoc(es: seq<(string, RVal)>, e: (string, RVal))
    ensures KeySet(es + [e]) == KeySet(es) + {e.0}
  {
    forall k | k in KeySet(es + [e]) ensures k in KeySet(es) + {e.0} {
      var x :| x in es + [e] && x.0 == k;
    }
    forall k | k in KeySet(es) ensures k in KeySet(es + [e]) {
      var x :| x in es && x.0 == k;
      assert x in es + [e];
    }
    assert e in es + [e];
  }

  /**
    The attribute-list reduction: each entry removes the earlier entries with
    its key and is appended, so every key ends up once, with its last value,
    and the list's last entry stays last.
  */
  function Dedup(es: seq<(string, RVal)>): (r: seq<(string, RVal)>)
    ensures DistinctKeys(r)
    ensures KeySet(r) == KeySet(es)
    ensures forall e :: e in r ==> e.0 in KeySet(es) && e.1 == LastValue(es, e.0)
    ensures |es| > 0 ==> |r| > 0 && r[|r| - 1] == es[|es| - 1]
    decreases |es|
  {
    if |es| == 0 then []
    else
      var init := es[..|es| - 1];
      var last := es[|es| - 1];
      assert es == init + [last];
      var kept := Without(Dedup(init), last.0);
      var r := kept + [last];
      KeySetSnoc(init, last);
      KeySetSnoc(kept, last);
      assert DistinctKeys(r) by {
        forall i, j | 0 <= i < j < |r| ensures r[i].0 != r[j].0 {
          if j == |r| - 1 {
            assert r[i] in kept;
          }
        }
      }
      r
  }

  /**
    The names a mapper binds, to its arguments by position (`new Map` of the
    pairs); a name given twice is bound at its last position.
  */
  function Bind(names: seq<string>, args: seq<RVal>): (m: map<string, RVal>)
    ensures m.Keys == set x | x in names
    decreases |names|
  {
    if |names| == 0 then map[]
    else
      var n := |names| - 1;
      assert names == names[..n] + [names[n]];
      Bind(names[..n], args)[names[n] := ArgAt(args, n)]
  }

  /** A name not repeated later is bound to the argument at its position. */
  lemma {:induction false} BindLastWins(names: seq<string>, args: seq<RVal>, i: nat)
    requires i < |names|
    requires forall j :: i < j < |names| ==> names[j] != names[i]
    ensures Bind(names, args)[names[i]] == ArgAt(args, i)
    decreases |names|
  {
    var n := |names| - 1;
    if i < n {
      assert names[n] != names[i];
      BindLastWins(names[..n], args, i);
    }
  }

  // ---------------------------------------------------------------------------
  // Names and operators

  /** `resolveName`: the definition, or undefined. */
  function ResolveName(name: string, ctx: Context): (r: RVal)
    ensures name in ctx.defs ==> r == ctx.defs[name]
    ensures name !in ctx.defs ==> r == Undefined
  {
    if name in ctx.defs then ctx.defs[name] else Undefined
  }

  /** `resolveUndefinedName`: the name itself, which must not be defined yet. */
  function ResolveUndefinedName(name: string, ctx: Context): (r: Res<string>)
    ensures r.Ok? <==> name !in ctx.defs
    ensures r.Ok? ==> r.value == name
    ensures r.Err? ==> r.error == AlreadyDefined(name)
  {
    if name in ctx.defs then Err(AlreadyDefined(name)) else Ok(name)
  }

  /**
    The binary operators on resolved operands: `+` adds numbers or
    concatenates strings, `-`, `*` and `/` take numbers. Operands JavaScript
    would coerce, and division by zero, fail instead.
  */
  function Arith(op: RVal, l: RVal, r: RVal): (v: Res<RVal>)
    ensures v.Ok? ==> op in {Text("+"), Text("-"), Text("*"), Text("/")}
    ensures v.Ok? && op != Text("+") ==> l.Num? && r.Num? && v.value.Num?
    ensures v.Ok? && op == Text("+") ==> (l.Num? && r.Num? && v.value == Num(l.x + r.x)) || (l.Text? && r.Text? && v.value == Text(l.s + r.s))
    ensures v.Ok? && op == Text("-") ==> v.value.x + r.x == l.x
    ensures v.Ok? && op == Text("/") ==> r.x != 0.0 && v.value.x * r.x == l.x
    ensures !(op in {Text("+"), Text("-"), Text("*"), Text("/")}) ==> v == Err(UnknownOperator(op))
    ensures op == Text("/") && l.Num? && r.Num? ==> (v.Err? <==> r.x == 0.0)
    ensures op in {Text("+"), Text("-"), Text("*")} && l.Num? && r.Num? ==> v.Ok?
    ensures op == Text("+") && l.Text? && r.Text? ==> v.Ok?
    ensures v.Ok? && op == Text("*") ==> v.value == Num(l.x * r.x)
    ensures op in {Text("-"), Text("*"), Text("/")} && !(l.Num? && r.Num?) ==>
      v == Err(BadOperands(op.s, l, r))
    ensures op == Text("+") && !(l.Num? && r.Num?) && !(l.Text? && r.Text?) ==>
      v == Err(BadOperands("+", l, r))
  {
    if op == Text("+") then
      if l.Num? && r.Num? then Ok(Num(l.x + r.x))
      else if l.Text? && r.Text? then Ok(Text(l.s + r.s))
      else Err(BadOperands("+", l, r))
    else if op == Text("-") || op == Text("*") || op == Text("/") then
      if !(l.Num? && r.Num?) then Err(BadOperands(op.s, l, r))
      else if op == Text("-") then Ok(Num(l.x - r.x))
      else if op == Text("*") then Ok(Num(l.x * r.x))
      else if r.x == 0.0 then Err(DivisionByZero)
      else Ok(Num(l.x / r.x))
    else Err(UnknownOperator(op))
  }

  // ---------------------------------------------------------------------------
  // The walk

  /** The name a `def` command binds, when its first argument is a name. */
  function DefName(n: Node): Option<string> {
    if n.Command? && n.command == "def" && n.args.Args? && |n.args.items| >= 1 && n.args.items[0].VarName?
    then Some(n.args.items[0].name)
    else None
  }

  /** The names the `def` commands among `nodes` bind. */
  function DefNames(nodes: seq<Node>): set<string> {
    set n | n in nodes && DefName(n).Some? :: DefName(n).value
  }

  /** `resolveNode`: dispatches on the node type. */
  function ResolveNode(n: Node, ctx: Context): (r: Res<RVal>)
    ensures n.Raw? ==> r == Err(UnknownNodeType(n))
    ensures r.Ok? && n.Object? ==> r.value.Obj?
    ensures r.Ok? && n.Block? ==> r.value.Items? && ParentBlock(ctx) <= r.value.items
    ensures r.Ok? && n.AttrList? ==> r.value.Attrs? && DistinctKeys(r.value.entries)
    decreases n, 3
  {
    match n
    case StrLit(t) => Ok(Text(t))
    case NumLit(x) => Ok(Num(x))
    case VarName(name) => Ok(ResolveName(name, ctx))
    case Operator(sym) => Ok(Text(sym))
    case Value(inner) => ResolveNode(inner, ctx)
    case Operation(_, _, _) => ResolveOperation(n, ctx)
    case Mapper(_, _) => ResolveMapper(n, ctx)
    case Attribute(_, _) =>
      var p :- ResolveAttribute(n, ctx);
      Ok(Pair(p.0, p.1))
    case AttrList(_) =>
      var es :- ResolveAttrList(n, ctx);
      Ok(Attrs(es))
    case Block(_) =>
      var items :- ResolveBlock(n, ctx);
      Ok(Items(items))
    case Object(_, _, _) => ResolveObject(n, ctx)
    case Command(_, _) =>
      var c :- ResolveCommand(n, ctx);
      Ok(c.0)
    case Args(items) => Ok(Nodes(items))
    case Raw(_) => Err(UnknownNodeType(n))
  }

  /** `resolveOperation`: both operands and the operator, left to right, then the arithmetic. */
  function ResolveOperation(n: Node, ctx: Context): (r: Res<RVal>)
    requires n.Operation?
    ensures r.Ok? ==> ResolveNode(n.left, ctx).Ok? && ResolveNode(n.op, ctx).Ok? && ResolveNode(n.right, ctx).Ok?
    ensures ResolveNode(n.left, ctx).Err? ==> r == Err(ResolveNode(n.left, ctx).error)
    ensures ResolveNode(n.left, ctx).Ok? && ResolveNode(n.op, ctx).Err? ==> r == Err(ResolveNode(n.op, ctx).error)
    ensures ResolveNode(n.left, ctx).Ok? && ResolveNode(n.op, ctx).Ok? && ResolveNode(n.right, ctx).Err? ==>
      r == Err(ResolveNode(n.right, ctx).error)
    ensures ResolveNode(n.left, ctx).Ok? && ResolveNode(n.op, ctx).Ok? && ResolveNode(n.right, ctx).Ok? ==>
      r == Arith(ResolveNode(n.op, ctx).value, ResolveNode(n.left, ctx).value, ResolveNode(n.right, ctx).value)
    decreases n, 2
  {
    var l :- ResolveNode(n.left, ctx);
    var op :- ResolveNode(n.op, ctx);
    var rt :- ResolveNode(n.right, ctx);
    Arith(op, l, rt)
  }

  /**
    The names of a mapper's parameters. Each must be a name not defined yet;
    anything else is resolved (its own failure first) and then rejected.
  */
  function ResolveParams(params: seq<Node>, ctx: Context): (r: Res<seq<string>>)
    ensures r.Ok? <==> forall k :: 0 <= k < |params| ==> params[k].VarName? && params[k].name !in ctx.defs
    ensures r.Ok? ==> |r.value| == |params| && forall k :: 0 <= k < |params| ==> r.value[k] == params[k].name
    decreases params
  {
    if |params| == 0 then Ok([])
    else
      var p := params[0];
      assert forall k :: 1 <= k < |params| ==> params[k] == params[1..][k - 1];
      if !p.VarName? then
        var v :- ResolveNode(p, ctx);
        Err(ParamNotName(v))
      else
        var name :- ResolveUndefinedName(p.name, ctx);
        var rest :- ResolveParams(params[1..], ctx);
        Ok([name] + rest)
  }

  /** `resolveMapper`: binds the parameters to the context's arguments and resolves the body. */
  function ResolveMapper(n: Node, ctx: Context): (r: Res<RVal>)
    requires n.Mapper?
    ensures r.Ok? ==> forall k :: 0 <= k < |n.params| ==> n.params[k].VarName? && n.params[k].name !in ctx.defs
    decreases n, 2
  {
    var names :- ResolveParams(n.params, ctx);
    ResolveNode(n.body, ctx.(defs := ctx.defs + Bind(names, ctx.args)))
  }

  /**
    `resolveAttribute`: the attribute's value, resolved with the same-named
    parent attribute's value (the first one) as the only argument.
  */
  function ResolveAttribute(n: Node, ctx: Context): (r: Res<(string, RVal)>)
    requires n.Attribute?
    ensures r.Ok? ==> r.value.0 == n.key
    decreases n, 2
  {
    var inherited := Find(ParentAttributes(ctx), n.key);
    var actx := if inherited.Some? then ctx.(args := [inherited.value]) else ctx;
    var v :- ResolveNode(n.value, actx);
    Ok((n.key, v))
  }

  /** The attribute nodes of a list, resolved in order; each must be an attribute. */
  function ResolveAttrs(nodes: seq<Node>, ctx: Context): (r: Res<seq<(string, RVal)>>)
    ensures r.Ok? ==> |r.value| == |nodes|
    ensures r.Ok? ==> forall k :: 0 <= k < |nodes| ==> nodes[k].Attribute? && r.value[k].0 == nodes[k].key
    decreases nodes
  {
    if |nodes| == 0 then Ok([])
    else
      var a := nodes[0];
      assert forall k :: 1 <= k < |nodes| ==> nodes[k] == nodes[1..][k - 1];
      if !a.Attribute? then Err(NotAnAttribute(a))
      else
        var pair :- ResolveAttribute(a, ctx);
        var rest :- ResolveAttrs(nodes[1..], ctx);
        Ok([pair] + rest)
  }

  /** The keys of the attribute nodes of a list. */
  function AttrKeys(nodes: seq<Node>): set<string> {
    set a | a in nodes && a.Attribute? :: a.key
  }

  /**
    `resolveAttributeList`: the parent's attributes, then the own ones, with
    repeated keys removed (last wins). A list without entries fails.
  */
  function ResolveAttrList(n: Node, ctx: Context): (r: Res<seq<(string, RVal)>>)
    requires n.AttrList?
    ensures n.entries.Missing? ==> r == Err(MissingAttributeList)
    ensures r.Ok? ==> DistinctKeys(r.value)
    ensures r.Ok? ==> KeySet(r.value) == KeySet(ParentAttributes(ctx)) + AttrKeys(n.entries.nodes)
    decreases n, 2
  {
    if n.entries.Missing? then Err(MissingAttributeList)
    else
      var own :- ResolveAttrs(n.entries.nodes, ctx);
      assert KeySet(own) == AttrKeys(n.entries.nodes) by {
        forall k | k in KeySet(own) ensures k in AttrKeys(n.entries.nodes) {
          var e :| e in own && e.0 == k;
          var i :| 0 <= i < |own| && own[i] == e;
          assert n.entries.nodes[i] in n.entries.nodes;
        }
        forall k | k in AttrKeys(n.entries.nodes) ensures k in KeySet(own) {
          var a :| a in n.entries.nodes && a.Attribute? && a.key == k;
          var i :| 0 <= i < |n.entries.nodes| && n.entries.nodes[i] == a;
          assert own[i] in own;
        }
      }
      var all := ParentAttributes(ctx) + own;
      assert KeySet(all) == KeySet(ParentAttributes(ctx)) + KeySet(own) by {
        forall k | k in KeySet(all) ensures k in KeySet(ParentAttributes(ctx)) + KeySet(own) {
          var e :| e in all && e.0 == k;
        }
        forall k | k in KeySet(ParentAttributes(ctx)) + KeySet(own) ensures k in KeySet(all) {
          if k in KeySet(ParentAttributes(ctx)) {
            var e :| e in ParentAttributes(ctx) && e.0 == k;
            assert e in all;
          } else {
            var e :| e in own && e.0 == k;
            assert e in all;
          }
        }
      }
      Ok(Dedup(all))
  }

  /**
    `resolveObject`: checks the block, attributes and name node types in that
    order. A name with a truthy definition is a reference: the object takes the
    definition's name and inherits its attributes and block. Otherwise it is a
    native object named by the (undefined) name itself.
  */
  function ResolveObject(n: Node, ctx: Context): (r: Res<RVal>)
    requires n.Object?
    ensures !n.body.Block? ==> r == Err(BadBlock(n.body))
    ensures n.body.Block? && !n.attrs.AttrList? ==> r == Err(BadAttributes(n.attrs))
    ensures n.body.Block? && n.attrs.AttrList? && !n.objName.VarName? ==> r == Err(BadName(n.objName))
    ensures r.Ok? ==> r.value.Obj? && n.objName.VarName?
    ensures r.Ok? && !IsTruthy(ResolveName(n.objName.name, ctx)) ==>
      r.value.name == Text(n.objName.name) && n.objName.name !in ctx.defs
    ensures r.Ok? && IsTruthy(ResolveName(n.objName.name, ctx)) ==>
      var parent := ResolveName(n.objName.name, ctx);
      && r.value.name == NameOf(parent)
      && (parent.Obj? ==> parent.block <= r.value.block && KeySet(parent.attributes) <= KeySet(r.value.attributes))
    decreases n, 2
  {
    if !n.body.Block? then Err(BadBlock(n.body))
    else if !n.attrs.AttrList? then Err(BadAttributes(n.attrs))
    else if !n.objName.VarName? then Err(BadName(n.objName))
    else
      var parent := ResolveName(n.objName.name, ctx);
      if !IsTruthy(parent) then
        var name :- ResolveUndefinedName(n.objName.name, ctx);
        var attributes :- ResolveAttrList(n.attrs, ctx);
        var block :- ResolveBlock(n.body, ctx);
        Ok(Obj(Text(name), attributes, block))
      else
        var cctx := ctx.(parent := Some(parent));
        var attributes :- ResolveAttrList(n.attrs, cctx);
        var block :- ResolveBlock(n.body, cctx);
        Ok(Obj(NameOf(parent), attributes, block))
  }

  /**
    `resolveCommand`: the arguments must be an `args` node. `def` binds its
    name, which must not be defined yet, to its resolved object and yields
    undefined; `draw` needs a renderer and an object, and yields the resolved
    object. The second component is the definitions afterwards.
  */
  function ResolveCommand(n: Node, ctx: Context): (r: Res<(RVal, map<string, RVal>)>)
    requires n.Command?
    ensures !n.args.Args? ==> r == Err(BadArgs(n.command, n.args))
    ensures n.args.Args? && n.command != "def" && n.command != "draw" ==> r == Err(UnknownCommand(n.command))
    ensures r.Ok? && n.command == "draw" ==>
      ctx.hasRenderer && r.value.1 == ctx.defs && r.value.0.Obj?
    ensures r.Ok? && n.command == "def" ==>
      && DefName(n).Some? && DefName(n).value !in ctx.defs && r.value.0 == Undefined
      && |n.args.items| >= 2 && ResolveNode(n.args.items[1], ctx).Ok?
      && r.value.1 == ctx.defs[DefName(n).value := ResolveNode(n.args.items[1], ctx).value]
    decreases n, 2
  {
    if !n.args.Args? then Err(BadArgs(n.command, n.args))
    else
      var items := n.args.items;
      if n.command == "def" then
        if |items| == 0 then Err(MissingArgument("def"))
        else if !items[0].VarName? then Err(BadDefName(items[0]))
        else
          var name :- ResolveUndefinedName(items[0].name, ctx);
          if |items| < 2 then Err(MissingArgument("def"))
          else
            var v :- ResolveNode(items[1], ctx);
            Ok((Undefined, ctx.defs[name := v]))
      else if n.command == "draw" then
        if !ctx.hasRenderer then Err(NoRenderer)
        else if |items| == 0 then Err(MissingArgument("draw"))
        else if !items[0].Object? then Err(NotAnObject(items[0]))
        else
          var o :- ResolveNode(items[0], ctx);
          Ok((o, ctx.defs))
      else Err(UnknownCommand(n.command))
  }

  /**
    One element of a block: a command may change the definitions, anything
    else is resolved as a node and leaves them alone.
  */
  function ResolveStep(n: Node, ctx: Context): (r: Res<(RVal, map<string, RVal>)>)
    ensures r.Ok? ==> Extends(ctx.defs, r.value.1)
    ensures r.Ok? ==> r.value.1.Keys == ctx.defs.Keys + (if DefName(n).Some? then {DefName(n).value} else {})
    decreases n, 4
  {
    if n.Command? then ResolveCommand(n, ctx)
    else
      var v :- ResolveNode(n, ctx);
      Ok((v, ctx.defs))
  }

  /**
    The elements of a block in order, each seeing the definitions made by the
    ones before it; falsy results are dropped (`filter(Boolean)`). The second
    component is the definitions after the last element.
  */
  function ResolveItems(nodes: seq<Node>, ctx: Context): (r: Res<(seq<RVal>, map<string, RVal>)>)
    ensures r.Ok? ==> forall v :: v in r.value.0 ==> IsTruthy(v)
    ensures r.Ok? ==> |r.value.0| <= |nodes|
    ensures r.Ok? ==> Extends(ctx.defs, r.value.1)
    ensures r.Ok? ==> r.value.1.Keys == ctx.defs.Keys + DefNames(nodes)
    decreases nodes
  {
    if |nodes| == 0 then Ok(([], ctx.defs))
    else
      var step :- ResolveStep(nodes[0], ctx);
      var rest :- ResolveItems(nodes[1..], ctx.(defs := step.1));
      assert DefNames(nodes) == (if DefName(nodes[0]).Some? then {DefName(nodes[0]).value} else {}) + DefNames(nodes[1..]) by {
        assert nodes == [nodes[0]] + nodes[1..];
        forall k | k in DefNames(nodes)
          ensures k in (if DefName(nodes[0]).Some? then {DefName(nodes[0]).value} else {}) + DefNames(nodes[1..])
        {
          var m :| m in nodes && DefName(m) == Some(k);
          if m != nodes[0] {
            assert m in nodes[1..];
          }
        }
      }
      Ok(((if IsTruthy(step.0) then [step.0] else []) + rest.0, rest.1))
  }

  /**
    `resolveBlock`: the parent's block followed by this block's results. The
    block works on its own copy of the definitions, so nothing it defines is
    seen after it.
  */
  function ResolveBlock(n: Node, ctx: Context): (r: Res<seq<RVal>>)
    requires n.Block?
    ensures r.Ok? ==> ParentBlock(ctx) <= r.value
    ensures r.Ok? ==> forall k :: |ParentBlock(ctx)| <= k < |r.value| ==> IsTruthy(r.value[k])
    ensures r.Ok? ==> |r.value| <= |ParentBlock(ctx)| + |n.commands|
    decreases n, 2
  {
    var own :- ResolveItems(n.commands, ctx);
    Ok(ParentBlock(ctx) + own.0)
  }

  /** `artInterpreter`: a program's commands resolved as a block in the initial context. */
  function Interpret(commands: seq<Node>, hasRenderer: bool): (r: Res<seq<RVal>>)
    ensures r.Ok? ==> |r.value| <= |commands| && forall v :: v in r.value ==> IsTruthy(v)
  {
    ResolveBlock(Block(commands), InitialContext(hasRenderer))
  }
}

=== FILE: resolver_laws.dfy ===
/**
  Laws of the Art resolver: how an attribute list merges the inherited
  attributes with the own ones, how definitions are scoped, how a reference
  object extends its definition, and the failures of a name bound twice, of a
  `draw` without a renderer and of an object without an attribute list.
*/
module ResolverLaws {
  import opened Results
  import opened Syntax
  import opened Resolver

  // ---------------------------------------------------------------------------
  // Last values

  lemma KeyInInit(es: seq<(string, RVal)>, k: string)
    requires k in KeySet(es) && es[|es| - 1].0 != k
    ensures k in KeySet(es[..|es| - 1])
  {
    var e :| e in es && e.0 == k;
    var i :| 0 <= i < |es| && es[i] == e;
    assert es[..|es| - 1][i] == e;
  }

  lemma KeySetAppend(a: seq<(string, RVal)>, b: seq<(string, RVal)>)
    ensures KeySet(a + b) == KeySet(a) + KeySet(b)
  {
    forall k | k in KeySet(a + b) ensures k in KeySet(a) + KeySet(b) {
      var e :| e in a + b && e.0 == k;
    }
    forall k | k in KeySet(a) + KeySet(b) ensures k in KeySet(a + b) {
      if k in KeySet(a) {
        var e :| e in a && e.0 == k;
        assert e in a + b;
      } else {
        var e :| e in b && e.0 == k;
        assert e in a + b;
      }
    }
  }

  /** A key the appended entries hold takes its last value from them. */
  lemma {:induction false} LastValueAppendRight(a: seq<(string, RVal)>, b: seq<(string, RVal)>, k: string)
    requires k in KeySet(b)
    ensures k in KeySet(a + b) && LastValue(a + b, k) == LastValue(b, k)
    decreases |b|
  {
    KeySetAppend(a, b);
    var ab := a + b;
    assert ab[|ab| - 1] == b[|b| - 1];
    if b[|b| - 1].0 != k {
      KeyInInit(b, k);
      assert ab[..|ab| - 1] == a + b[..|b| - 1];
      LastValueAppendRight(a, b[..|b| - 1], k);
    }
  }

  /** A key the appended entries lack keeps its last value from before them. */
  lemma {:induction false} LastValueAppendLeft(a: seq<(string, RVal)>, b: seq<(string, RVal)>, k: string)
    requires k in KeySet(a) && k !in KeySet(b)
    ensures k in KeySet(a + b) && LastValue(a + b, k) == LastValue(a, k)
    decreases |b|
  {
    KeySetAppend(a, b);
    var ab := a + b;
    if |b| == 0 {
      assert ab == a;
    } else {
      var init := b[..|b| - 1];
      assert ab[|ab| - 1] == b[|b| - 1] && b[|b| - 1] in b;
      assert ab[..|ab| - 1] == a + init;
      assert k !in KeySet(init) by {
        forall e | e in init ensures e.0 != k {
          assert e in b;
        }
      }
      LastValueAppendLeft(a, init, k);
    }
  }

  // ---------------------------------------------------------------------------
  // De-duplication

  /** In a de-duplicated list, the entry for a key carries the key's last value. */
  lemma DedupFind(es: seq<(string, RVal)>, k: string)
    ensures k in KeySet(es) ==> Find(Dedup(es), k) == Some(LastValue(es, k))
    ensures k !in KeySet(es) ==> Find(Dedup(es), k) == None
  {
  }

  lemma {:induction false} WithoutAbsent(es: seq<(string, RVal)>, k: string)
    requires k !in KeySet(es)
    ensures Without(es, k) == es
    decreases |es|
  {
    if |es| > 0 {
      KeyAbsentTail(es, k);
      WithoutAbsent(es[1..], k);
      WithoutKeep(es, k);
    }
  }

  lemma KeyAbsentTail(es: seq<(string, RVal)>, k: string)
    requires |es| > 0 && k !in KeySet(es)
    ensures es[0].0 != k && k !in KeySet(es[1..])
  {
    assert es[0] in es;
    forall e | e in es[1..] ensures e.0 != k { assert e in es; }
  }

  lemma WithoutKeep(es: seq<(string, RVal)>, k: string)
    requires |es| > 0 && es[0].0 != k && Without(es[1..], k) == es[1..]
    ensures Without(es, k) == es
  {
    assert es == [es[0]] + es[1..];
  }


  /** A list whose keys are already distinct is left as it is. */
  lemma {:induction false} DedupDistinct(es: seq<(string, RVal)>)
    requires DistinctKeys(es)
    ensures Dedup(es) == es
    decreases |es|
  {
    if |es| > 0 {
      var init := es[..|es| - 1];
      var last := es[|es| - 1];
      DistinctInit(es);
      DedupDistinct(init);
      WithoutAbsent(init, last.0);
      DedupSnoc(es);
      SnocFromParts(es, Dedup(es), Without(Dedup(init), last.0));
    }
  }

  lemma SnocFromParts(es: seq<(string, RVal)>, d: seq<(string, RVal)>, w: seq<(string, RVal)>)
    requires |es| > 0 && w == es[..|es| - 1] && d == w + [es[|es| - 1]]
    ensures d == es
  {
  }

  lemma DistinctInit(es: seq<(string, RVal)>)
    requires |es| > 0 && DistinctKeys(es)
    ensures DistinctKeys(es[..|es| - 1])
    ensures es[|es| - 1].0 !in KeySet(es[..|es| - 1])
  {
    var init := es[..|es| - 1];
    forall e | e in init ensures e.0 != es[|es| - 1].0 {
      var i :| 0 <= i < |init| && init[i] == e;
      assert es[i] == e;
    }
  }

  lemma DedupSnoc(es: seq<(string, RVal)>)
    requires |es| > 0
    ensures Dedup(es) == Without(Dedup(es[..|es| - 1]), es[|es| - 1].0) + [es[|es| - 1]]
  {
  }

  /** De-duplicating twice is de-duplicating once. */
  lemma DedupIdempotent(es: seq<(string, RVal)>)
    ensures Dedup(Dedup(es)) == Dedup(es)
  {
    DedupDistinct(Dedup(es));
  }

  // ---------------------------------------------------------------------------
  // Attribute inheritance

  /**
    The resolved attribute list of an object: an own attribute overrides an
    inherited one (its last own value wins), an inherited attribute the object
    does not set is kept with its value, and no other key appears.
  */
  lemma AttributeListMerge(n: Node, ctx: Context, own: seq<(string, RVal)>, k: string)
    requires n.AttrList? && n.entries.Present? && ResolveAttrs(n.entries.nodes, ctx) == Ok(own)
    ensures ResolveAttrList(n, ctx) == Ok(Dedup(ParentAttributes(ctx) + own))
    ensures var r := ResolveAttrList(n, ctx).value; var inherited := ParentAttributes(ctx);
      && (k in KeySet(own) ==> Find(r, k) == Some(LastValue(own, k)))
      && (k in KeySet(inherited) && k !in KeySet(own) ==> Find(r, k) == Some(LastValue(inherited, k)))
      && (k !in KeySet(inherited) && k !in KeySet(own) ==> Find(r, k) == None)
  {
    var inherited := ParentAttributes(ctx);
    KeySetAppend(inherited, own);
    DedupFind(inherited + own, k);
    if k in KeySet(own) {
      LastValueAppendRight(inherited, own, k);
    } else if k in KeySet(inherited) {
      LastValueAppendLeft(inherited, own, k);
    }
  }

  /**
    An attribute whose value is a one-parameter mapper receives the inherited
    attribute of the same name as its argument: the body is resolved with the
    parameter bound to the inherited value.
  */
  lemma InheritedValueFeedsMapper(n: Node, ctx: Context, v: RVal, p: string, body: Node)
    requires n.Attribute? && n.value == Value(Mapper([VarName(p)], body))
    requires Find(ParentAttributes(ctx), n.key) == Some(v) && p !in ctx.defs
    ensures var r := ResolveNode(body, ctx.(args := [v], defs := ctx.defs[p := v]));
      ResolveAttribute(n, ctx) == if r.Ok? then Ok((n.key, r.value)) else Err(r.error)
  {
    var actx := ctx.(args := [v]);
    AttributeWithInherited(n, ctx, v);
    OneParameterMapper(p, body, v, actx);
  }

  lemma OneParameterMapper(p: string, body: Node, v: RVal, ctx: Context)
    requires p !in ctx.defs && ctx.args == [v]
    ensures ResolveNode(Value(Mapper([VarName(p)], body)), ctx)
         == ResolveNode(body, ctx.(defs := ctx.defs[p := v]))
  {
    var m := Mapper([VarName(p)], body);
    OneParameter(p, v, ctx);
    assert ResolveNode(Value(m), ctx) == ResolveNode(m, ctx) == ResolveMapper(m, ctx);
  }

  lemma AttributeWithInherited(n: Node, ctx: Context, v: RVal)
    requires n.Attribute? && Find(ParentAttributes(ctx), n.key) == Some(v)
    ensures var r := ResolveNode(n.value, ctx.(args := [v]));
      ResolveAttribute(n, ctx) == if r.Ok? then Ok((n.key, r.value)) else Err(r.error)
  {
  }

  /** A single undefined parameter, given the argument list `[v]`, is bound to `v`. */
  lemma OneParameter(p: string, v: RVal, ctx: Context)
    requires p !in ctx.defs && ctx.args == [v]
    ensures ResolveParams([VarName(p)], ctx) == Ok([p])
    ensures ctx.defs + Bind([p], ctx.args) == ctx.defs[p := v]
  {
    var ps := [VarName(p)];
    assert ResolveParams(ps[1..], ctx) == Ok([]) by {
      assert ps[1..] == [];
    }
    assert [p] + [] == [p];
    assert Bind([p], [v]) == map[p := v] by {
      assert [p][..0] == [];
    }
  }

  // ---------------------------------------------------------------------------
  // Objects

  /**
    A name with an object definition is a reference: the object takes the
    definition's name, its attribute list is the definition's merged with the
    own one, and its block is the definition's block followed by the own one.
  */
  lemma ReferenceObjectExtendsDefinition(n: Node, ctx: Context, own: seq<(string, RVal)>, items: seq<RVal>)
    requires n.Object? && n.objName.VarName? && n.attrs.AttrList? && n.attrs.entries.Present? && n.body.Block?
    requires n.objName.name in ctx.defs && ctx.defs[n.objName.name].Obj?
    requires var cctx := ctx.(parent := Some(ctx.defs[n.objName.name]));
      && ResolveAttrs(n.attrs.entries.nodes, cctx) == Ok(own)
      && ResolveItems(n.body.commands, cctx).Ok? && ResolveItems(n.body.commands, cctx).value.0 == items
    ensures var d := ctx.defs[n.objName.name];
      ResolveObject(n, ctx) == Ok(Obj(d.name, Dedup(d.attributes + own), d.block + items))
  {
  }

  /**
    A name without a definition is a native object named by the name, with
    the attributes and block inherited from the enclosing parent, if any.
  */
  lemma NativeObject(n: Node, ctx: Context, own: seq<(string, RVal)>, items: seq<RVal>)
    requires n.Object? && n.objName.VarName? && n.attrs.AttrList? && n.attrs.entries.Present? && n.body.Block?
    requires n.objName.name !in ctx.defs
    requires ResolveAttrs(n.attrs.entries.nodes, ctx) == Ok(own)
    requires ResolveItems(n.body.commands, ctx).Ok? && ResolveItems(n.body.commands, ctx).value.0 == items
    ensures ResolveObject(n, ctx) ==
      Ok(Obj(Text(n.objName.name), Dedup(ParentAttributes(ctx) + own), ParentBlock(ctx) + items))
  {
  }

  /** A name defined as a falsy value is neither a reference nor free: the object fails. */
  lemma FalsyDefinitionFails(n: Node, ctx: Context)
    requires n.Object? && n.objName.VarName? && n.attrs.AttrList? && n.body.Block?
    requires n.objName.name in ctx.defs && !IsTruthy(ctx.defs[n.objName.name])
    ensures ResolveObject(n, ctx) == Err(AlreadyDefined(n.objName.name))
  {
  }

  /**
    An object whose attribute list has no entries array, which is what the
    object parser gives an object written without `(...)`, fails to resolve.
  */
  lemma ObjectWithoutAttributeListFails(n: Node, ctx: Context)
    requires n.Object? && n.objName.VarName? && n.attrs == AttrList(Missing) && n.body.Block?
    requires n.objName.name in ctx.defs ==> IsTruthy(ctx.defs[n.objName.name])
    ensures ResolveObject(n, ctx) == Err(MissingAttributeList)
  {
  }

  // ---------------------------------------------------------------------------
  // Scoping of definitions

  /** `def` of a name that is already defined fails, naming it. */
  lemma RedefinitionFails(n: Node, ctx: Context)
    requires n.Command? && n.command == "def" && n.args.Args?
    requires DefName(n).Some? && DefName(n).value in ctx.defs
    ensures ResolveCommand(n, ctx) == Err(AlreadyDefined(DefName(n).value))
  {
  }

  /**
    A command after a `def` sees the definition: the rest of the block is
    resolved with the name bound to the defined value, and the `def` itself
    adds nothing to the block's results.
  */
  lemma DefVisibleToLaterCommands(d: Node, rest: seq<Node>, ctx: Context)
    requires d.Command? && d.command == "def" && ResolveCommand(d, ctx).Ok?
    ensures var v := ResolveNode(d.args.items[1], ctx).value;
      ResolveItems([d] + rest, ctx) == ResolveItems(rest, ctx.(defs := ctx.defs[DefName(d).value := v]))
  {
    var nodes := [d] + rest;
    assert nodes[0] == d && nodes[1..] == rest;
    var v := ResolveNode(d.args.items[1], ctx).value;
    var r := ResolveItems(rest, ctx.(defs := ctx.defs[DefName(d).value := v]));
    if r.Ok? {
      assert [] + r.value.0 == r.value.0;
    }
  }

  /** Two `def`s of the same name in one block: the second fails. */
  lemma DefTwiceInBlockFails(d1: Node, d2: Node, rest: seq<Node>, ctx: Context)
    requires d1.Command? && d1.command == "def" && ResolveCommand(d1, ctx).Ok?
    requires d2.Command? && d2.command == "def" && d2.args.Args? && DefName(d2) == DefName(d1)
    ensures ResolveItems([d1, d2] + rest, ctx) == Err(AlreadyDefined(DefName(d1).value))
  {
    var v := ResolveNode(d1.args.items[1], ctx).value;
    var ctx2 := ctx.(defs := ctx.defs[DefName(d1).value := v]);
    assert [d1, d2] + rest == [d1] + ([d2] + rest);
    DefVisibleToLaterCommands(d1, [d2] + rest, ctx);
    RedefinitionFails(d2, ctx2);
    assert ([d2] + rest)[0] == d2;
  }

  /**
    A `draw` leaves the definitions as they were: whatever the drawn object's
    block defined is not seen by the commands after it. The drawn object is
    the block's next result.
  */
  lemma DrawLeavesDefinitions(d: Node, rest: seq<Node>, ctx: Context)
    requires d.Command? && d.command == "draw" && ResolveCommand(d, ctx).Ok?
    ensures var o := ResolveCommand(d, ctx).value.0; var r := ResolveItems(rest, ctx);
      ResolveItems([d] + rest, ctx) == if r.Ok? then Ok(([o] + r.value.0, r.value.1)) else r
  {
    var nodes := [d] + rest;
    assert nodes[0] == d && nodes[1..] == rest;
    assert ctx.(defs := ctx.defs) == ctx;
  }

  lemma {:induction false} MapperParamsFailAt(params: seq<Node>, ctx: Context, k: nat)
    requires k < |params|
    requires forall j :: 0 <= j < k ==> params[j].VarName? && params[j].name !in ctx.defs
    requires params[k].VarName? && params[k].name in ctx.defs
    ensures ResolveParams(params, ctx) == Err(AlreadyDefined(params[k].name))
    decreases k
  {
    if k > 0 {
      assert forall j :: 0 <= j < k - 1 ==> params[1..][j] == params[j + 1];
      MapperParamsFailAt(params[1..], ctx, k - 1);
    }
  }

  /** A mapper parameter whose name is already defined fails the mapper, naming it. */
  lemma MapperParamDefinedFails(n: Node, ctx: Context, k: nat)
    requires n.Mapper? && k < |n.params|
    requires forall j :: 0 <= j < k ==> n.params[j].VarName? && n.params[j].name !in ctx.defs
    requires n.params[k].VarName? && n.params[k].name in ctx.defs
    ensures ResolveMapper(n, ctx) == Err(AlreadyDefined(n.params[k].name))
  {
    MapperParamsFailAt(n.params, ctx, k);
  }

  /** A block that has a name defined in it keeps none of its definitions: its result is only the values. */
  lemma BlockDefinitionsStayInside(n: Node, ctx: Context)
    requires n.Block? && ResolveItems(n.commands, ctx).Ok?
    ensures ResolveBlock(n, ctx) == Ok(ParentBlock(ctx) + ResolveItems(n.commands, ctx).value.0)
    ensures ResolveItems(n.commands, ctx).value.1.Keys == ctx.defs.Keys + DefNames(n.commands)
  {
  }

  // ---------------------------------------------------------------------------
  // Rendering

  /** Without a renderer, a block that resolves holds no `draw` command. */
  lemma {:induction false} NoRendererNoDraw(nodes: seq<Node>, ctx: Context)
    requires !ctx.hasRenderer && ResolveItems(nodes, ctx).Ok?
    ensures forall k :: 0 <= k < |nodes| ==> !(nodes[k].Command? && nodes[k].command == "draw")
    decreases nodes
  {
    if |nodes| > 0 {
      var step := ResolveStep(nodes[0], ctx).value;
      NoRendererNoDraw(nodes[1..], ctx.(defs := step.1));
      forall k | 1 <= k < |nodes| ensures nodes[k] == nodes[1..][k - 1] {
      }
    }
  }

  /** Without a renderer, a program with a `draw` fails; one whose first command draws fails with that reason. */
  lemma DrawWithoutRendererFails(commands: seq<Node>, items: seq<Node>, rest: seq<Node>)
    ensures (exists k :: 0 <= k < |commands| && commands[k].Command? && commands[k].command == "draw") ==>
      Interpret(commands, false).Err?
    ensures Interpret([Command("draw", Args(items))] + rest, false) == Err(NoRenderer)
  {
    if Interpret(commands, false).Ok? {
      NoRendererNoDraw(commands, InitialContext(false));
    }
    var cs := [Command("draw", Args(items))] + rest;
    var ctx := InitialContext(false);
    assert cs[0] == Command("draw", Args(items));
    assert ResolveStep(cs[0], ctx) == Err(NoRenderer);
    assert ResolveItems(cs, ctx) == Err(NoRenderer);
  }

  // ---------------------------------------------------------------------------
  // Names and the initial context

  /**
    When every definition is truthy, as the objects `def` binds are, a name
    resolves to undefined exactly when it may still be defined.
  */
  lemma NameUndefinedIffFree(name: string, ctx: Context)
    requires forall x :: x in ctx.defs ==> IsTruthy(ctx.defs[x])
    ensures ResolveName(name, ctx) == Undefined <==> ResolveUndefinedName(name, ctx).Ok?
  {
    if name in ctx.defs {
      assert IsTruthy(ctx.defs[name]);
    }
  }

  /** A name resolves to the value last bound to it. */
  lemma ResolveNameAfterBind(name: string, v: RVal, ctx: Context)
    ensures ResolveName(name, ctx.(defs := ctx.defs[name := v])) == v
    ensures forall other :: other != name ==>
      ResolveName(other, ctx.(defs := ctx.defs[name := v])) == ResolveName(other, ctx)
  {
  }

  /** A program starts with nothing defined: every name resolves to undefined and may be defined. */
  lemma InitialContextEmpty(name: string, hasRenderer: bool)
    ensures ResolveName(name, InitialContext(hasRenderer)) == Undefined
    ensures ResolveUndefinedName(name, InitialContext(hasRenderer)) == Ok(name)
  {
  }

  // ---------------------------------------------------------------------------
  // Arithmetic

  /** An operation on literals applies the operator to their values. */
  lemma LiteralOperation(left: Node, sym: string, right: Node, l: RVal, r: RVal, ctx: Context)
    requires ResolveNode(left, ctx) == Ok(l) && ResolveNode(right, ctx) == Ok(r)
    ensures ResolveNode(Operation(left, Operator(sym), right), ctx) == Arith(Text(sym), l, r)
  {
    assert ResolveNode(Operator(sym), ctx) == Ok(Text(sym));
  }

  /** `+` on number literals always succeeds with the exact sum. */
  lemma NumberSum(a: real, b: real, ctx: Context)
    ensures ResolveNode(Operation(NumLit(a), Operator("+"), NumLit(b)), ctx) == Ok(Num(a + b))
  {
    LiteralOperation(NumLit(a), "+", NumLit(b), Num(a), Num(b), ctx);
  }

  /** `-` on number literals always succeeds with the exact difference. */
  lemma NumberDifference(a: real, b: real, ctx: Context)
    ensures ResolveNode(Operation(NumLit(a), Operator("-"), NumLit(b)), ctx) == Ok(Num(a - b))
  {
    LiteralOperation(NumLit(a), "-", NumLit(b), Num(a), Num(b), ctx);
  }

  /** `*` on number literals always succeeds with the exact product. */
  lemma NumberProduct(a: real, b: real, ctx: Context)
    ensures ResolveNode(Operation(NumLit(a), Operator("*"), NumLit(b)), ctx) == Ok(Num(a * b))
  {
    LiteralOperation(NumLit(a), "*", NumLit(b), Num(a), Num(b), ctx);
    MultiplyNumbers(a, b);
  }

  /** `*` on two numbers is their product; the operator text differs from `+` and `-`. */
  lemma MultiplyNumbers(a: real, b: real)
    ensures Arith(Text("*"), Num(a), Num(b)) == Ok(Num(a * b))
  {
    var v := Arith(Text("*"), Num(a), Num(b));
    assert "*" != "+" && "*" != "-" by {
      assert "*"[0] != "+"[0] && "*"[0] != "-"[0];
    }
    assert v.Ok?;
    assert v.value == Num(a * b);
  }

  /** Division of number literals succeeds exactly when the divisor is not zero. */
  lemma NumberDivision(a: real, b: real, ctx: Context)
    ensures b != 0.0 ==> ResolveNode(Operation(NumLit(a), Operator("/"), NumLit(b)), ctx) == Ok(Num(a / b))
    ensures b == 0.0 ==> ResolveNode(Operation(NumLit(a), Operator("/"), NumLit(b)), ctx) == Err(DivisionByZero)
  {
    LiteralOperation(NumLit(a), "/", NumLit(b), Num(a), Num(b), ctx);
  }

  /** `+` on two string literals concatenates them. */
  lemma StringConcatenation(a: string, b: string, ctx: Context)
    ensures ResolveNode(Operation(StrLit(a), Operator("+"), StrLit(b)), ctx) == Ok(Text(a + b))
  {
  }

  /** The left operand is resolved first: its failure is the operation's failure, whatever follows. */
  lemma LeftOperandFailsFirst(left: Node, op: Node, right: Node, ctx: Context)
    requires ResolveNode(left, ctx).Err?
    ensures ResolveNode(Operation(left, op, right), ctx) == Err(ResolveNode(left, ctx).error)
  {
  }

  /** A string and a number do not combine: `+` of mixed literals fails. */
  lemma MixedOperandsFail(a: string, b: real, ctx: Context)
    ensures ResolveNode(Operation(StrLit(a), Operator("+"), NumLit(b)), ctx) == Err(BadOperands("+", Text(a), Num(b)))
  {
  }
}

=== FILE: results.dfy ===
/** Failure-compatible wrappers shared by the parser and the resolver. */
module Results {

  /** An optional value; `None` plays the part of JavaScript's `undefined`. */
  datatype Option<+T> = None | Some(value: T)

  /** The outcome of a computation that may throw: `Err` carries what was thrown. */
  datatype Result<+T, +E> = Ok(value: T) | Err(error: E) {

    predicate IsFailure() {
      Err?
    }

    function PropagateFailure<U>(): Result<U, E>
      requires Err?
    {
      Err(error)
    }

    function Extract(): T
      requires Ok?
    {
      value
    }
  }
}

=== FILE: state.dfy ===
/** The parser state threaded through every parser, and its immutable updaters. */
module ParserState {
  import opened Syntax

  /**
    A parser state. `index` may run past the end of `target` (only
    `anythingExcept` does that); `error` is meaningful when `isError` holds.
  */
  datatype State = State(
    target: string,
    index: nat,
    isError: bool,
    error: Val,
    result: Val,
    data: Val)

  /** The state a parse starts from: cursor at 0, no error, null result. */
  function CreateState(target: string, data: Val): (s: State)
    ensures s.target == target && s.index == 0 && s.data == data
    ensures !s.isError && s.error == VNull && s.result == VNull
  {
    State(target, 0, false, VNull, VNull, data)
  }

  /** Marks the state failed with payload `e`; cursor, result and data are kept. */
  function UpdateError(s: State, e: Val): (r: State)
    ensures r.isError && r.error == e
    ensures r.target == s.target && r.index == s.index
    ensures r.result == s.result && r.data == s.data
  {
    s.(isError := true, error := e)
  }

  /** Replaces the result only; in particular the error flag is left as it was. */
  function UpdateResult(s: State, x: Val): (r: State)
    ensures r.result == x
    ensures r.target == s.target && r.index == s.index && r.isError == s.isError
    ensures r.error == s.error && r.data == s.data
  {
    s.(result := x)
  }

  /** Replaces the side-channel data only. */
  function UpdateData(s: State, d: Val): (r: State)
    ensures r.data == d
    ensures r.target == s.target && r.index == s.index && r.isError == s.isError
    ensures r.error == s.error && r.result == s.result
  {
    s.(data := d)
  }

  /** Replaces result and cursor together, as every consuming primitive does on success. */
  function UpdateParserState(s: State, x: Val, i: nat): (r: State)
    ensures r.result == x && r.index == i
    ensures r.target == s.target && r.isError == s.isError
    ensures r.error == s.error && r.data == s.data
  {
    s.(result := x, index := i)
  }
}

=== FILE: syntax.dfy ===
/**
  The values that flow through the parser (`Val`, the untyped results JavaScript
  parsers produce) and the Art abstract syntax tree (`Node`, the tagged
  `{ type, payload }` objects built by `node(type, payload)`).
*/
module Syntax {
  import opened Results

  /** A parse result or side-channel datum. */
  datatype Val =
    | VNull                          // null / undefined
    | VBool(b: bool)
    | VStr(s: string)
    | VList(items: seq<Val>)         // an array
    | VRec(fields: map<string, Val>) // a plain object with string keys
    | VNode(node: Node)              // an AST node

  /** One AST node per tag the grammar builds. */
  datatype Node =
    | StrLit(text: string)                          // 'string'
    | NumLit(num: real)                             // 'number'
    | VarName(name: string)                         // 'var-name'
    | Operator(symbol: string)                      // 'operator'
    | Value(inner: Node)                            // 'value'
    | Operation(left: Node, op: Node, right: Node)  // 'operation'
    | Mapper(params: seq<Node>, body: Node)         // 'mapper'
    | Attribute(key: string, value: Node)           // 'attribute'
    | AttrList(entries: AttrEntries)                // 'attribute-list'
    | Block(commands: seq<Node>)                    // 'block'
    | Object(objName: Node, attrs: Node, body: Node) // 'object'
    | Command(command: string, args: Node)          // 'command'
    | Args(items: seq<Node>)                        // 'args'
    | Raw(raw: Val)                                 // a payload field holding a non-node value

  /**
    The payload of an attribute list: `{ value: [...] }` from the attributes
    parser, or the `{ values: [] }` an object without attributes gets, which
    has no `value` at all.
  */
  datatype AttrEntries = Missing | Present(nodes: seq<Node>)

  /** JavaScript truthiness of a parse value. */
  predicate Truthy(v: Val) {
    match v
    case VNull => false
    case VBool(b) => b
    case VStr(s) => s != ""
    case _ => true
  }

  /** Concatenates `parts`, putting `sep` between neighbours (`Array.prototype.join`). */
  function JoinText(parts: seq<string>, sep: string): (r: string)
    ensures sep == "" ==> |r| == SumLengths(parts)
  {
    if |parts| == 0 then ""
    else if |parts| == 1 then parts[0]
    else JoinText(parts[..|parts| - 1], sep) + sep + parts[|parts| - 1]
  }

  ghost function SumLengths(parts: seq<string>): nat {
    if |parts| == 0 then 0 else SumLengths(parts[..|parts| - 1]) + |parts[|parts| - 1]|
  }

  /** `String(v)`: how a value is printed inside an error message. */
  function Display(v: Val): string
    decreases v, 3
  {
    match v
    case VNull => "null"
    case VBool(b) => if b then "true" else "false"
    case VStr(s) => s
    case VList(xs) => JoinText(Texts(xs), ",")
    case VRec(_) => "[object Object]"
    case VNode(_) => "[object Object]"
  }

  /** How `join` renders one array element: null and undefined become empty. */
  function TextOf(v: Val): string
    decreases v, 4
  {
    if v.VNull? then "" else Display(v)
  }

  /** How `join` renders each element of an array. */
  function Texts(xs: seq<Val>): (ts: seq<string>)
    ensures |ts| == |xs|
    ensures forall i :: 0 <= i < |xs| ==> ts[i] == TextOf(xs[i])
    decreases VList(xs), 2
  {
    seq(|xs|, i requires 0 <= i < |xs| => TextOf(xs[i]))
  }

  /** `xs.join('')` applied to a parse result; a non-array is rendered as one element. */
  function JoinVal(v: Val): (r: Val)
    ensures r.VStr?
  {
    match v
    case VList(xs) => VStr(JoinText(Texts(xs), ""))
    case _ => VStr(TextOf(v))
  }

  /** The elements of an array result (the grammar only passes arrays here). */
  function ListOf(v: Val): seq<Val> {
    if v.VList? then v.items else []
  }

  /** The AST node held by a parse result. */
  function NodeOf(v: Val): (n: Node)
    ensures v.VNode? ==> n == v.node
    ensures !v.VNode? ==> n == Raw(v)
  {
    if v.VNode? then v.node else Raw(v)
  }

  /** The nodes held by an array result. */
  function NodesOf(v: Val): (ns: seq<Node>)
    ensures |ns| == |ListOf(v)|
    ensures forall i :: 0 <= i < |ns| ==> ns[i] == NodeOf(ListOf(v)[i])
  {
    var xs := ListOf(v);
    seq(|xs|, i requires 0 <= i < |xs| => NodeOf(xs[i]))
  }

  /** `target[index]` as a parse value: the one-character string, or undefined past the end. */
  function CharAt(target: string, index: nat): (v: Val)
    ensures index < |target| <==> v.VStr?
    ensures index < |target| ==> v == VStr([target[index]])
  {
    if index < |target| then VStr([target[index]]) else VNull
  }

  /** `t.slice(i, j)` for non-negative bounds: both are clamped to the length. */
  function Slice(t: string, i: nat, j: nat): (r: string)
    ensures i <= j <= |t| ==> r == t[i..j]
    ensures j <= i ==> r == ""
    ensures |r| <= |t|
  {
    var a := if i <= |t| then i else |t|;
    var b := if j <= |t| then j else |t|;
    if a < b then t[a..b] else ""
  }

  predicate IsDigitChar(c: char) {
    '0' <= c <= '9'
  }

  predicate IsLetterChar(c: char) {
    ('a' <= c <= 'z') || ('A' <= c <= 'Z')
  }

  function DigitChar(d: nat): (c: char)
    requires d < 10
    ensures IsDigitChar(c)
  {
    ['0', '1', '2', '3', '4', '5', '6', '7', '8', '9'][d]
  }

  function DigitOf(c: char): (d: nat)
    ensures d < 10
    ensures IsDigitChar(c) ==> DigitChar(d) == c
  {
    if IsDigitChar(c) then (c as int - '0' as int) as nat else 0
  }

  /** Decimal rendering of a natural number, as template literals print positions. */
  function NatToString(n: nat): (r: string)
    ensures |r| > 0
    ensures forall i :: 0 <= i < |r| ==> IsDigitChar(r[i])
    decreases n
  {
    if n < 10 then [DigitChar(n)] else NatToString(n / 10) + [DigitChar(n % 10)]
  }

  /** The number a string of decimal digits denotes (a non-digit counts as zero). */
  function DigitsValue(ds: string): nat
    decreases |ds|
  {
    if |ds| == 0 then 0 else 10 * DigitsValue(ds[..|ds| - 1]) + DigitOf(ds[|ds| - 1])
  }

  function Pow10(k: nat): (r: nat)
    ensures r >= 1
  {
    if k == 0 then 1 else 10 * Pow10(k - 1)
  }

  /** Position of the first '.' in `t`, or `|t|` when there is none. */
  function DotIndex(t: string): (k: nat)
    ensures k <= |t|
    ensures k < |t| ==> t[k] == '.'
    ensures forall j :: 0 <= j < k ==> t[j] != '.'
  {
    if |t| == 0 then 0
    else if t[0] == '.' then 0
    else 1 + DotIndex(t[1..])
  }

  /** `Number(text)` for the texts the number rule produces: digits, optionally '.' and digits. */
  function DecimalValue(t: string): (x: real)
    ensures x >= 0.0
  {
    var k := DotIndex(t);
    if k < |t| then
      DigitsValue(t[..k]) as real + DigitsValue(t[k + 1..]) as real / Pow10(|t| - k - 1) as real
    else
      DigitsValue(t) as real
  }

  /** Reading back the decimal rendering of a number gives the number. */
  lemma {:induction false} DigitsValueOfNatToString(n: nat)
    ensures DigitsValue(NatToString(n)) == n
    decreases n
  {
    var r := NatToString(n);
    if n < 10 {
      assert r[..0] == [];
      assert DigitOf(DigitChar(n)) == n;
    } else {
      DigitsValueOfNatToString(n / 10);
      assert r[..|r| - 1] == NatToString(n / 10);
      assert DigitOf(DigitChar(n % 10)) == n % 10;
    }
  }

  /** A digit-only number text (no '.') denotes its integer value. */
  lemma DecimalValueOfNatToString(n: nat)
    ensures DecimalValue(NatToString(n)) == n as real
  {
    var t := NatToString(n);
    assert forall i :: 0 <= i < |t| ==> t[i] != '.';
    DigitsValueOfNatToString(n);
  }
}
